=== FILE: README.md ===
# Ecosystem simulator — verified model of the simulation tick

This project models, in Dafny, the tick-level core of a browser ecosystem
simulator. Five kinds of creature live on a 2000 × 1500 world:

- **Ants** live in nests, forage for plants, carry food home and lay pheromone trails.
- **Birds** alternate between flying, perching and taking off. They eat plants and, when hungry, ants.
- **Anteaters** hunt ants.
- **Snakes** run a wander / stop / ambush / strike / recover state machine and eat birds.
- **Unknown** stands for any unlisted type name.

Every creature carries a gene of three traits (speed, perception, size). A pregnancy passes a
mutated gene to the next generation.

## How the model is laid out

One Dafny module per source file:

| Module | File | Source |
|---|---|---|
| `Config` | `config.dfy` | `config.js` |
| `Spatial` | `spatial.dfy` | shared geometry: distances and the nearest-candidate scan used by every "find nearest" loop |
| `Genetics` | `gene.dfy` | `gene.js` |
| `Creatures` | `creature.dfy` | `creature.js` |
| `Worlds` | `world.dfy` | `world.js` |
| `Death` | `death.dfy` | `gene.js` handleDeath |
| `Pheromone` | `pheromone.dfy` | `pheromone.js` |
| `Ants` | `ant.dfy` | `ant.js` |
| `Birds` | `bird.dfy` | `bird.js` |
| `Predators` | `predator.dfy` | `predator.js` |
| `Simulation` | `simulation.dfy` | the game loop of `main.js` |

Objects the source mutates are Dafny classes whose methods carry `modifies` frames:

- `Creature`, `World`, `Plant`, `PheromoneGrid`, `AntNest`;
- `Ecosystem`, which holds main.js's global `creatures`, `antNests`, `generation`, `world` and pheromone grid. Its invariant `Valid` says the grid is well formed, no creature is listed twice, every gene is within its bounds and every nest is valid.

The subclass hierarchy (Creature → Ant, Bird, Predator → Anteater, Snake) becomes one `Creature`
class with a `kind` field. Each species' update is a module-level method that requires that kind.

Conventions:

- Distances are compared squared: `Within(d2, r)` means `sqrt(d2) < r`, and lemma `Spatial.SquaredComparison` proves the equivalence.
- Every running-minimum loop ("find the nearest X") is proved equal to one reference function, `Spatial.NearestIndex`. Ties go to the first candidate.
- Each `Math.random()` draw is a parameter in [0, 1).
- Each direction computed with `atan2`/`cos`/`sin` is a `Heading` parameter. It is applied exactly where, and only when, the source applies it.

## Model

| member | source | states |
|---|---|---|
| Spatial.Dist2 | creature.js:201-205 | squared distance between two points is never negative |
| Spatial.SquaredComparison | creature.js:201-205 | comparing squared distance with r squared is the same as comparing distance with r, for `<` and `<=` |
| Spatial.NearestIndex | creature.js:175-194 | reference for every nearest-search loop: the chosen index is an eligible candidate strictly inside the radius |
| Spatial.NearestIndexIsNearest | creature.js:175-194 | the chosen candidate is no farther than any eligible one and strictly nearer than every earlier one; None iff no eligible candidate lies inside the radius |
| Spatial.NearestIndexStep | creature.js:179-191 | one loop step: the answer on a prefix extended by one element keeps the old answer unless the new element is eligible, inside the radius and strictly nearer |
| Spatial.NearestIndexUnique | creature.js:175-194 | any index that is nearest, inside the radius and strictly nearer than all earlier candidates is the answer |
| Spatial.Selected | ant.js:397-411 | the indices of the true flags, in increasing order, each one a true flag, and every true flag listed |
| Spatial.SelectedStep | ant.js:397-411 | selecting on a prefix one longer appends the new index exactly when its flag is true |
| Spatial.CountTrue | ant.js:397-411 | a count of flags is at most the number of flags |
| Spatial.CountTrueSelected | ant.js:397-411 | the count of true flags equals the number of selected indices |
| Spatial.FirstTrue | predator.js:91-103 | the first true flag, with none before it; None iff no flag is true |
| Genetics.CreateDefaultGene | gene.js:14-20 | a listed species gets its base gene, any other species the fallback gene; the result is within the trait bounds |
| Genetics.MutateValue | gene.js:31-40 | unchanged when the select draw is at or above the rate; otherwise clamped into [lo, hi] and equal to the scaled value when that already lies inside |
| Genetics.Mutate | gene.js:30-47 | each trait is copied when its draw misses and lands inside its own bounds when it hits; a gene within bounds stays within bounds |
| Genetics.MutateWithoutHitsCopies | gene.js:30-47 | with no draw hitting, the child gene equals the parent gene |
| Genetics.MutationChainInBounds | gene.js:30-47 | any number of successive mutations of an in-bounds gene stays in bounds |
| Genetics.Crossover | gene.js:55-61 | each trait of the child comes from one of the two parents; parents within bounds give a child within bounds |
| Genetics.CrossoverIdempotent | gene.js:55-61 | crossing a gene with itself gives the same gene |
| Genetics.FitnessWeights | gene.js:69-90 | every species' three weights are positive and sum to 1 |
| Genetics.FitnessOfBaseGene | gene.js:69-90 | a species' default gene has fitness exactly 1 |
| Genetics.FitnessMonotone | gene.js:69-90 | raising any trait never lowers fitness |
| Genetics.SpeciesThreshold | gene.js:119-138 | the per-species reproduction energy threshold is never below the global threshold |
| Genetics.SpeciesThresholdDecides | gene.js:119-138 | with no explicit threshold, reproduction is allowed iff alive, off cooldown and at or above exactly the species threshold; allowed at some energy, it stays allowed at any higher energy |
| Genetics.ReproductionCooldown | gene.js:145-154 | the cooldown is positive, 600 for an unlisted species |
| Genetics.PregnancyDuration | gene.js:161-170 | the pregnancy duration is positive, 300 for an unlisted species |
| Genetics.ReproductionCostOf | gene.js:177-185 | the cost is never below the global reproduction cost |
| Genetics.OffspringEnergy | gene.js:192-195 | offspring energy is 80% of the species' reproduction cost: positive and below it |
| Genetics.ReproductionAffordable | gene.js:119-138 | a creature allowed to reproduce keeps positive energy after paying the full cost |
| Genetics.SpawnRange | gene.js:202-214 | the spawn range is positive, 25 for an unlisted species |
| Genetics.SpawnOffset | gene.js:202-214 | a spawn offset lies in [-range/2, range/2) |
| Genetics.CorpsePlantCount | gene.js:237-255 | a corpse yields 1 to 3 plants |
| Genetics.CorpseOffset | gene.js:237-255 | each corpse plant is placed within [-10, 10) of the corpse on each axis |
| Death.HandleDeath | gene.js:228-255 | a creature whose energy is at or below zero dies, any other keeps its liveness; plants are only appended, only on death with the grow draw below 0.8, at most the drawn count, each within 10 of the corpse |
| Creatures.SizeDivisor | creature.js:51-53 | the size divisor of every species is at least 1 |
| Creatures.EnergyCost | creature.js:154-159 | a tick's energy cost is positive and at least the base share of the move cost |
| Creatures.EnergyCostGrowsWithSize | creature.js:154-159 | a bigger creature pays at least as much |
| Creatures.EnergyCostGrowsWithSpeed | creature.js:154-159 | a faster creature pays at least as much |
| Creatures.Tick | creature.js:210-217 | a positive timer drops by one, a non-positive one stays put, and a non-negative timer stays non-negative |
| Creatures.TickNRunsDown | creature.js:210-217 | n ticks of a non-negative timer leave max(t - n, 0) |
| Creatures.Creature.constructor | creature.js:16-45 | initial position, heading, gene (given or the species base), size from gene and divisor, full energy, generation 0, all timers at zero |
| Creatures.Creature.Move | creature.js:74-79 | position advances by velocity times speed times the multiplier (`Advance`, `Stride`) |
| Creatures.Creature.MoveTowards | creature.js:100-110 | velocity is re-aimed only when the target is farther than 1 |
| Creatures.Creature.FleeFrom | creature.js:117-131 | velocity is re-aimed away only when the threat is not at the same point |
| Creatures.Creature.ConsumeEnergy | creature.js:154-159 | energy drops by exactly the energy cost of the gene |
| Creatures.Creature.Die | creature.js:164-166 | the creature is dead afterwards |
| Creatures.Creature.UpdateReproductionTimers | creature.js:210-217 | both the cooldown and the pregnancy timer tick down once |
| Creatures.Creature.StartPregnancy | creature.js:232-240 | it starts iff the creature could reproduce; then it pays half the cost, the timer is set to the species duration and energy stays above half the cost; otherwise nothing changes |
| Creatures.CanReproduceMeans | creature.js:223-226 | a creature that can reproduce is alive, off cooldown, not pregnant, at or above its threshold, and not an ant |
| Creatures.Dist2sTo | creature.js:175-194 | one squared distance per candidate |
| Creatures.Eligible | creature.js:175-194 | one flag per candidate: alive and of an allowed kind |
| Creatures.PreyFlags | predator.js:91-103 | one flag per prey: alive and strictly inside the radius |
| Creatures.FirstPrey | predator.js:94-101 | the loop returns the first prey that is alive and in range |
| Creatures.FirstInReachIsFirstPrey | predator.js:91-103 | the recursive first-living-prey-in-reach search equals the first true prey flag, so tick contracts can name the caught prey directly |
| Creatures.FindNearest | creature.js:175-194 | the running-minimum loop returns exactly NearestIndex over living candidates of the allowed kinds; the result is alive |
| Worlds.Plant.constructor | world.js:3-9 | a plant is placed where asked and carries the food energy |
| Worlds.PlantDist2s | world.js:152-168 | the i-th entry is the squared distance of the i-th plant |
| Worlds.WithinFlags | world.js:143-149 | the i-th flag says the i-th distance is within or on the radius |
| Worlds.RemoveFirstAbsent | world.js:135-140 | removing an absent plant leaves the list unchanged |
| Worlds.RemoveFirstAt | world.js:135-140 | removing a plant whose first occurrence is at i cuts exactly position i |
| Worlds.RemoveFirstOneCopy | world.js:135-140 | removing a present plant shortens the list by one and drops one copy from the multiset |
| Worlds.IndexOf | world.js:136-137 | -1 iff absent; otherwise the position of the first occurrence |
| Worlds.World.constructor | world.js:27-43 | given size, no plants, the configured plant cap and spawn rate |
| Worlds.World.SpawnPlant | world.js:87-119 | at the cap nothing is added; below it one fresh plant is appended at the given or drawn spot |
| Worlds.World.Init | world.js:46-53 | the world starts with half the plant cap, placed at the drawn spots |
| Worlds.World.Update | world.js:122-132 | a plant is added only when the draw is below the spawn rate and the cap is not reached; the cap is never exceeded |
| Worlds.World.RemovePlant | world.js:135-140 | the plant list loses the first occurrence of the plant, or is unchanged if absent |
| Worlds.World.PlantsNearIndices | world.js:143-149 | increasing indices of exactly the plants within or on the radius |
| Worlds.World.PlantNear | world.js:143-149 | every returned plant is in the world and within the radius, and every plant within it is returned |
| Worlds.World.GetNearestPlant | world.js:152-168 | the running-minimum loop returns NearestIndex over all plants |
| Worlds.World.ClampToBounds | world.js:179-184 | the clamped point lies inside the padded bounds, and a point already inside is unchanged |
| Pheromone.Deposited | pheromone.js:66-77 | only the target cell changes; it becomes min(max, old + amount); the grid stays bounded |
| Pheromone.EvaporatedAt | pheromone.js:83-95 | a cell survives iff it was present and its decayed value is at least 0.1; it then holds the decayed value |
| Pheromone.EvaporationShrinks | pheromone.js:83-95 | evaporation keeps the grid bounded and never raises a cell's strength |
| Pheromone.EvaporateCell | pheromone.js:85-94 | one loop step changes only the visited cell: decayed, or removed below 0.1 |
| Pheromone.PartlyEvaporatedStep | pheromone.js:85-94 | evaporating one more pending cell equals applying the single-cell step |
| Pheromone.EvaporatedNExact | pheromone.js:83-95 | a cell that survives n ticks holds its start value times rate to the n |
| Pheromone.DecayShrinks | pheromone.js:83-95 | repeated decay at a rate in [0, 1] stays between 0 and the start value |
| Pheromone.EvaporatedNShrinks | pheromone.js:83-95 | after n evaporations no cell is stronger than it was |
| Pheromone.OffsetsLength | pheromone.js:115-117 | the neighbourhood of radius r has (2r+1)^2 - 1 cells |
| Pheromone.OffsetsMembers | pheromone.js:115-117 | every neighbourhood offset lies within r on both axes and is not the centre |
| Pheromone.OffsetsComplete | pheromone.js:115-117 | every non-centre offset within r is visited |
| Pheromone.OffsetsOrdered | pheromone.js:115-117 | offsets are visited row by row, column by column |
| Pheromone.SurroundingLength | pheromone.js:111-138 | the surrounding list has (2r+1)^2 - 1 entries, none for a negative radius |
| Pheromone.SurroundingMembers | pheromone.js:111-138 | each entry is a non-centre cell within r of the centre |
| Pheromone.SurroundingComplete | pheromone.js:111-138 | each non-centre cell within r appears in the list |
| Pheromone.FirstMax | pheromone.js:149-154 | the index of the first maximum of the strengths |
| Pheromone.StrongestNoneIffAllZero | pheromone.js:143-164 | no direction is reported iff every surrounding strength is 0 |
| Pheromone.StrongestSingle | pheromone.js:143-164 | the only positive cell is the one reported |
| Pheromone.SumOnBounds | pheromone.js:207-213 | the total strength lies between 0 and max times the number of cells |
| Pheromone.SumOnAfterEvaporation | pheromone.js:207-213 | after evaporation every active cell holds at least 0.1, so the total is at least 0.1 per cell |
| Pheromone.ScanRowCells | pheromone.js:116-134 | the inner loop appends exactly the cells of one row |
| Pheromone.ScanNeighbourhood | pheromone.js:111-138 | the nested loops return exactly the reference neighbourhood list |
| Pheromone.PheromoneGrid.constructor | pheromone.js:12-30 | the given size and cell size, an empty grid, and the configured evaporation rate |
| Pheromone.PheromoneGrid.InitGrid | pheromone.js:35-37 | the grid is emptied |
| Pheromone.PheromoneGrid.WorldToGrid | pheromone.js:45-50 | the world point lies inside the returned cell (floor division, negatives allowed) |
| Pheromone.PheromoneGrid.Deposit | pheromone.js:66-77 | the grid becomes Deposited at the point's cell |
| Pheromone.PheromoneGrid.Evaporate | pheromone.js:83-95 | the loop over live cells leaves exactly Evaporated(old grid) |
| Pheromone.PheromoneGrid.GetStrength | pheromone.js:103-106 | the cell's stored value, 0 when absent, within [0, max] on a bounded grid |
| Pheromone.PheromoneGrid.GetSurroundingStrength | pheromone.js:111-138 | the neighbourhood list around the point's cell |
| Pheromone.PheromoneGrid.GetStrongestDirection | pheromone.js:143-164 | exactly the reference strongest direction of that list |
| Pheromone.PheromoneGrid.GetStats | pheromone.js:207-213 | the count of active cells and their total strength, bounded by max times count |
| Ants.NewAnt | ant.js:17-29 | a fresh ant at the given point, bound to its nest, no food, not fleeing, outside the nest |
| Ants.LeaveNest | ant.js:95-102 | the ant is outside, placed 20 from the nest along the drawn direction, heading that way |
| Ants.DepositPheromone | ant.js:232-243 | pheromone is laid only by an ant carrying food away from its nest; otherwise the grid is unchanged |
| Ants.CheckNestArrival | ant.js:258-273 | arrival iff within reach of the nest; then no food, inside, resting, +100 energy if it carried food; otherwise nothing changes |
| Ants.CheckFoodPickup | ant.js:278-287 | the nearest plant within size+5 is picked up, removed from the world, and the ant turns around; otherwise nothing changes |
| Ants.FindNearbyPredator | ant.js:292-295 | the nearest living anteater or bird in perception |
| Ants.SearchForFood | ant.js:168-178 | the target is the nearest plant in perception; with one the ant heads for it when it is farther than 1, without one it follows the trail heading |
| Ants.MoveAnt | ant.js:153-162 | a near-stopped ant restarts on a new heading; position advances by velocity times speed |
| Ants.Steer | ant.js:52-76 | the plan is Decide of the flee timer (reset to 30 by a seen predator), load and energy: a fleeing ant neither seeks its nest nor searches for food; the velocity is the separation heading if neighbours push, else the flee heading away from a predator at another point, the nest heading, or the found plant's or trail heading, as `SteeredVelocity` defines; the flee timer and reproduction timers tick |
| Ants.Travel | ant.js:52-79 | Steer's plan and target, then the steered velocity (a near-stopped one restarted) moves the ant one step; pheromone is laid at the new spot exactly when it carries food far from the nest |
| Ants.ArriveOrPickUp | ant.js:83-89 | delivery iff it carried food and reached the nest (+100 energy); a carrying or hungry ant (energy below 60) at its nest goes inside to rest 60 ticks, otherwise the nest fields are unchanged; the plant picked up is exactly the nearest within size+5 when the ant is empty-handed after arrival and not fleeing, and none otherwise, so a carrying ant never picks one up; the food flag afterwards is "carried and not delivered, or picked up" |
| Ants.Forage | ant.js:52-89 | one outside-the-nest tick: the plan and target as in Steer; the final velocity is the steered one (restarted if near-stopped), reversed by a pickup; the position and energy; delivery iff it carried food and ends at the nest; going inside to rest iff it carried food or its energy after the tick's cost is below 60 and it ends at the nest; the pickup rule of ArriveOrPickUp at the new position; pheromone deposited exactly when it carried food far from the nest, otherwise the grid is untouched |
| Ants.AntUpdate | ant.js:38-90 | dead ants are untouched; resting ants stay in the nest until the timer runs out and then leave, delivering and picking up nothing; a living ant outside pays the tick's energy cost, delivers iff it carried food and ends at the nest, goes inside iff it carried food or is hungry after the cost and ends at the nest, and picks up exactly the nearest plant within size+5 when empty-handed and not fleeing |
| Ants.AntsNeverReproduce | ant.js:300-306 | no ant can ever reproduce |
| Ants.AntNest.constructor | ant.js:382-392 | a new nest has no food, no ants, 50 ant capacity and a 60 tick spawn interval |
| Ants.AntNest.Members | ant.js:414-416 | flags the living ants belonging to this nest |
| Ants.AntNest.Resting | ant.js:398-400 | flags the living member ants inside the nest |
| Ants.AntNest.SpawnAnt | ant.js:423-433 | costs 2 food, resets the cooldown, and makes a fresh base-gene ant of this nest at its rim |
| Ants.AntNest.Update | ant.js:397-421 | counts resting ants; spawns iff food >= 2, the nest is below capacity and the cooldown has run out; otherwise only the cooldown ticks |
| Ants.AntNest.StoreFood | ant.js:435-437 | the stored food grows by exactly the amount |
| Birds.Norm2 | bird.js:137-148 | the squared speed is never negative |
| Birds.NewBird | bird.js:9-34 | a fresh flying bird at the point, with velocity heading times speed |
| Birds.NormScale | bird.js:137-148 | scaling a velocity by k scales its squared speed by k^2 |
| Birds.RescaledNorm | bird.js:137-148 | rescaling a velocity to magnitude m gives squared speed m^2 |
| Birds.LimitSpeed | bird.js:137-148 | the result never exceeds the max speed, a moving bird goes at least 30% of it, and an in-range speed is untouched |
| Birds.Land | bird.js:90-95 | the bird perches for 100 to 300 ticks with zero velocity |
| Birds.TakeOff | bird.js:97-103 | the bird takes off for 20 ticks at half speed along the drawn direction |
| Birds.ThreatFlags | bird.js:362-385 | a predator counts only if it is a living snake that is visible (an ambushing snake only at close range) |
| Birds.FindNearbyPredator | bird.js:362-385 | the nearest visible living snake in perception |
| Birds.NeighborsOf | bird.js:269-281 | the neighbour list is no larger than the bird list |
| Birds.NeighborsOfMembers | bird.js:269-281 | the neighbour list holds exactly the other living birds in perception |
| Birds.GetNeighbors | bird.js:269-281 | the loop returns exactly the neighbour list |
| Birds.FoodDist2s | bird.js:285-339 | one distance per plant then per ant |
| Birds.AntFlags | bird.js:303-314 | an ant is a food candidate only if alive and the bird is hungry |
| Birds.FoodFlags | bird.js:285-339 | one flag per plant then per ant |
| Birds.FoodCandidatesSplit | bird.js:285-339 | the candidate list is the plant list followed by the ant list |
| Birds.HungryBirdConsidersAnts | bird.js:303-314 | a hungry bird considers every living ant |
| Birds.SatedBirdIgnoresAnts | bird.js:303-314 | a sated bird's target is the nearest plant |
| Birds.SeekFoodTarget | bird.js:285-339 | the two scans return the nearest candidate over plants and, when hungry, living ants |
| Birds.AntCandidatesAppended | bird.js:303-314 | appending ant distances and flags keeps the plant prefix |
| Birds.ScanAnts | bird.js:303-314 | the ant loop continues the running minimum over the whole candidate list |
| Birds.NearestIndexNoLaterCandidates | bird.js:303-314 | ineligible later candidates do not change the answer |
| Birds.MealEnergy | bird.js:341-360 | a meal gives non-negative energy, zero only for no meal |
| Birds.CheckFoodPickup | bird.js:341-360 | a plant in reach is eaten first, else the first living ant in reach dies, else nothing; energy rises by the meal |
| Birds.FlightTransition | bird.js:65-88 | settling iff flying, fatigue above 50, the landing draw below fatigue/5000 and no snake in sight; launching iff perching and rested with the calm draw below 0.01, starving with the hunger draw below 0.05, or out of time; a perched bird whose timer ran out always launches; cruising iff take-off finished |
| Birds.TickDownNExpires | bird.js:66 | n ticks with n at least the timer bring the state timer to zero or below |
| Birds.PerchEndsInTime | bird.js:65-82 | a perched bird whose timer is t launches once ⌈t⌉ ticks have passed, whatever its fatigue, energy and draws |
| Birds.UpdateState | bird.js:65-88 | the state update follows FlightTransition and applies its landing or take-off effects |
| Birds.UpdateFlight | bird.js:105-127 | the steered velocity is passed through LimitSpeed |
| Birds.MoveBird | bird.js:129-135 | a perched bird stays put; otherwise it moves by its velocity |
| Birds.Rest | bird.js:46-55 | a perched tick recovers fatigue and energy (capped) and takes off when it sees a snake; an eaten ant is dead and every other ant keeps its liveness |
| Birds.Fly | bird.js:56-62 | a flying tick limits speed, moves, tires and pays the energy cost; an eaten ant is dead and every other ant keeps its liveness |
| Birds.RestOrFly | bird.js:46-62 | rests iff perching: fatigue down 0.5 to 0, energy up 0.1 to the cap, no movement, and a take-off for 20 ticks iff a snake is in sight; otherwise flies: fatigue up 0.1 to 100, the flight cost paid, the limited velocity, flight state and timer kept; at most the eaten ant dies |
| Birds.BirdLive | bird.js:43-62 | a living bird's tick: it rests iff the state machine settled it or kept it perching; the new flight state and timer are the state machine's choice, or a 20-tick take-off for a resting bird with a snake in sight; the rest and flight effects of RestOrFly; both reproduction timers tick |
| Birds.BirdUpdate | bird.js:40-63 | dead birds are untouched; a living bird rests iff the state machine settled it or kept it perching, and otherwise flies; the new flight state and timer are those the state machine chose, except that a resting bird with a snake in sight takes off for 20 ticks; a resting bird loses 0.5 fatigue down to 0, gains 0.1 energy up to the cap and does not move; a flying bird gains 0.1 fatigue up to 100, pays the flight cost and takes the limited velocity; fatigue stays within [0, 100]; both reproduction timers tick; at most the eaten ant dies |
| Birds.RestingLowersOnlyAboveCap | bird.js:48 | resting lowers energy iff it is above the cap |
| Birds.Reproduce | bird.js:413-434 | pays half the cost, sets the cooldown, and yields a fresh next-generation bird with mutated gene and offspring energy |
| Predators.NewPredator | predator.js:9-27 | a fresh predator with 1.5x initial energy, full stamina, no hunt cooldown and an empty energy history |
| Predators.PushSample | predator.js:34-38 | a sample is appended and the history is capped at 5 by dropping the oldest |
| Predators.LastN | predator.js:34-38 | the last n elements |
| Predators.PushAllKeepsRecent | predator.js:34-38 | after any number of samples the history is the last 5 of all samples |
| Predators.FatigueAdjust | predator.js:44-50 | high stress lowers the factor, low stress raises it, and it stays within [0.5, 1] |
| Predators.HistoryTimerStep | predator.js:30-33 | the sample timer stays in [0, 60) and wraps exactly at 59 |
| Predators.HistoryTimerCounts | predator.js:30-33 | after n ticks from 0 the timer reads n mod 60 |
| Predators.StepsLast | predator.js:30-33 | n + 1 steps are n steps then one more |
| Predators.UpdateStamina | predator.js:29-53 | a sample is taken every 60 ticks; the drop rate and factor change only with 2 or more samples; history and factor stay bounded |
| Predators.CatchCooldown | predator.js:76-80 | the cooldown after a catch is 120 when well fed, else 10 |
| Predators.CatchCooldownMonotone | predator.js:76-80 | a better-fed predator waits at least as long |
| Predators.CatchPrey | predator.js:69-83 | catching succeeds iff the prey was alive; then it dies, energy rises by food times gain, and the cooldown is set |
| Predators.CheckCatch | predator.js:91-103 | on cooldown nothing happens; otherwise the first living prey in range is caught and no other prey changes |
| Predators.ReproduceChild | predator.js:110-128 | pays half the cost, sets the cooldown, and yields a fresh child of the same kind, next generation, mutated gene, offspring energy |
| Predators.AnteaterSeek | predator.js:147-163 | cooldowns tick; with no hunt cooldown the target is the nearest ant in perception; hunting iff a target; otherwise wander |
| Predators.AnteaterPace | predator.js:166 | full speed when hunting, else the fatigue factor |
| Predators.Exert | predator.js:173-174 | stamina bookkeeping and the energy cost of one tick |
| Predators.AnteaterAct | predator.js:169-174 | off cooldown, the caught ant is exactly the first living ant within size+5; no other ant changes; stamina bookkeeping and the energy cost |
| Predators.AnteaterLive | predator.js:147-174 | one living anteater tick: hunting iff off cooldown with an ant in sight; moves at its pace; off cooldown catches exactly the first living ant in reach of the new position; no other ant changes; energy gains 40% of a plant's on a catch and pays the tick's cost; the reproduction cooldown and pregnancy timer tick; the velocity is the hunt heading toward the target beyond distance 1, kept within it, and the wander heading when not hunting |
| Predators.AnteaterUpdate | predator.js:144-175 | dead anteaters and ants are untouched; for a living one, AnteaterLive's clauses: a catch needs the cooldown to have run out and sets it again, the caught ant is the first in reach, no other ant changes, energy, both reproduction timers tick, and the hunt or wander velocity |
| Predators.SnakeNext | predator.js:309-371 | every state lasts until its timer runs out; a strike only starts from an ambush that sees a bird; a catch leads to 120 ticks of recovery |
| Predators.NoStateOutlastsItsTimer | predator.js:309-371 | a snake stays in one state for fewer ticks than its timer |
| Predators.SnakeSpeed | predator.js:413-437 | speed is never negative and an ambushing snake is still |
| Predators.StoppingEasesIntoAmbush | predator.js:413-437 | the stopping speed starts at the wander speed and ends at the ambush speed |
| Predators.StoppingSlowsDown | predator.js:413-437 | while stopping, speed falls as the timer runs down |
| Predators.StrikeIsFastest | predator.js:413-437 | no state is faster than striking |
| Predators.SnakeMove | predator.js:413-437 | the snake moves by its velocity times its state speed |
| Predators.HuntStrike | predator.js:396-411 | the bird is caught iff alive and within 3.5x speed, and the snake lands on it; out of reach the snake turns toward it beyond distance 1 and keeps its heading within 1 |
| Predators.SnakeUpdateState | predator.js:309-371 | the new state is SnakeNext of the old; an ambush targets the nearest living bird within 150; the velocity in every state: the wander heading while wandering, zero on entering the ambush, the new heading on leaving it, the strike heading toward a live target out of reach, and unchanged otherwise |
| Predators.SnakeAct | predator.js:298-303 | moves at its state speed; off cooldown catches exactly the first living bird within size+8 of the new position; no other bird changes; pays its energy cost |
| Predators.SnakeUpdate | predator.js:295-304 | dead snakes are untouched; the state follows SnakeNext; the cooldown blocks catches; without a strike catch the caught bird is the first in reach; only the struck or caught bird can die; the strike target is a bird from the list; the reproduction cooldown and pregnancy timer tick; the velocity rules of SnakeUpdateState; a strike catch moves the snake onto its prey and then one crawl step |
| Simulation.ScatterBounds | main.js:514-515 | a click scatter offset is within [-15, 15) |
| Simulation.NestDist2s | main.js:560-568 | one squared distance per nest |
| Simulation.SelectMembers | main.js:614-618 | a filtered list holds exactly the creatures of the wanted kinds (living when asked) |
| Simulation.MaxGenerationIsMax | main.js:708-716 | the recorded generation is non-negative, at least every creature's, and 0 or attained |
| Simulation.GiveBirth | main.js:683-685 | birds, anteaters and snakes give a fresh next-generation child of their kind; ants and unknown kinds give none |
| Simulation.BirthStep | main.js:678-701 | a child is born iff the pregnancy ended after the flag was set; a running pregnancy keeps the flag set |
| Simulation.Ecosystem.constructor | main.js:478-492 | no creatures, no nests, generation 0, half-stocked world, empty pheromone grid |
| Simulation.Ecosystem.FindNearestNest | main.js:556-572 | the loop returns NearestIndex over the nests |
| Simulation.Ecosystem.SpawnAnt | main.js:540-553 | the ant joins the nearest nest within 100, or a new nest at the point; the ant is appended |
| Simulation.Ecosystem.SpawnOne | main.js:519-535 | one creature of a listed kind is appended; an unknown kind adds nothing |
| Simulation.Ecosystem.SpawnCreature | main.js:511-537 | one creature per draw, each within 15 of the click; existing creatures and nests kept |
| Simulation.Ecosystem.Gather | main.js:614-618 | the filter loop returns exactly Select |
| Simulation.Ecosystem.AntStep | main.js:624-639 | corrected: an ant outside the nest that carried food and ends at its nest delivers, and every delivery credits the nest within 20 with one food; no other nest changes |
| Simulation.Ecosystem.AntStepAsWritten | main.js:624-639 | as written: a nest is credited iff the ant had food before and none after, so a delivery followed by a pickup in the same tick credits no nest; a carrying ant outside the nest that ends the tick at its nest, not fleeing and with a plant within size+5, does deliver and pick up, and no nest is credited; the credited nest gains exactly 1 and no other nest changes |
| Simulation.Ecosystem.StepCreature | main.js:621-649 | one creature's update by kind, with the as-written or the corrected ant crediting; nest stores never fall |
| Simulation.Ecosystem.UpdateCreatures | main.js:621-650 | the loop over all creatures keeps the ecosystem valid and nest stores never fall |
| Simulation.Ecosystem.NestStep | main.js:653-659 | one nest update appends its new ant, if any |
| Simulation.Ecosystem.UpdateNests | main.js:653-659 | at most one new ant per nest, appended after the existing creatures |
| Simulation.Births | main.js:678-702 | one newborn for each bird, anteater or snake whose pregnancy timer was 0 with the flag set when the pass began; the newborns are fresh, alive, in bounds and distinct |
| Simulation.Ecosystem.HandleReproduction | main.js:675-705 | newborns are appended after all creatures; their number is exactly the count of creatures with a birth due; they are fresh and alive, and no creature is listed twice |
| Simulation.Ecosystem.Purge | main.js:665 | exactly the living creatures remain, in order |
| Simulation.Ecosystem.UpdateGeneration | main.js:708-716 | the loop leaves generation equal to MaxGeneration |
| Simulation.Ecosystem.TakeTurns | main.js:613-650 | the living ants, birds and predators are listed and every creature takes its turn; the ecosystem stays valid and nest stores never fall |
| Simulation.Ecosystem.CreaturePass | main.js:603-650 | plants regrow, pheromone evaporates, creatures act; nest stores never fall |
| Simulation.Ecosystem.Settle | main.js:662-668 | births, the purge and the generation update: every listed creature is alive and the generation is the maximum |
| Simulation.Ecosystem.Update | main.js:602-672 | a full tick, with the as-written or corrected ant crediting, keeps the ecosystem valid and the nests; afterwards every creature is alive and the generation is the maximum |

## Left out

- Drawing, the camera, view bounds, the status bar, keyboard and mouse handling (`draw`, `updateViewBounds`, `toggleVisibility`, `getInfo`, `formatGene`, `getPlantCount`): presentation only.
- Trigonometric steering (`atan2`, `cos`, `sin`, `normalizeVelocity`): every steered direction is a `Heading` parameter.
- Randomised steering helpers (`wander`, `wanderSmooth`, `wanderSnake`, the ant's `separate` with its random push and jitter, `followPheromone` and its probabilistic choice): their output heading is a parameter.
- The bird's steering forces (`separation`, `alignment`, `cohesion`, `flock`, `flee`, `seekFood`'s steering and their weighted sum in `updateFlight`, bird.js:105-127, 152-267, 285-339, 387-409): deterministic averages over the neighbours and targets, with no random draw. Their magnitudes go through `Math.sqrt` and normalisation, so the summed heading and its speed are the `steered` parameter. The neighbour list, the food target and the speed limit applied to the sum are modelled.
- `updateBodySegments` of the snake: drawing state only.
- Random plant placement inside `spawnPlant`: the chosen spot is a parameter.
- The purge also drops creatures whose position is NaN: reals in the model cannot be NaN.
- The pheromone `isInBounds` check is a NaN test, so it is always true here.
- Floating-point rounding: all arithmetic is on exact reals.
- `handleDeath` is modelled (`Death.HandleDeath`) but is not called from the tick, matching main.js.
- `findNearestNest`'s `Infinity` default distance: callers always pass a finite radius.
- Simulation.Ecosystem.NestStep: does not restate the spawn condition; `Ants.AntNest.Update` states it.
- Simulation.Ecosystem.HandleReproduction: does not state the newborns' generations; `Simulation.GiveBirth` states them per birth.
- Simulation.Ecosystem.StepCreature: states only the frame-level facts the tick needs; each species' update states the rest. It requires the ant and bird lists to hold only ants and birds, as main.js's filters make them (main.js:614-615).
- Predators.AnteaterUpdate, Predators.AnteaterLive, Predators.AnteaterAct, Predators.SnakeUpdate, Predators.SnakeAct: require that the hunter is not in its own prey list. main.js filters the prey lists by species (main.js:614-618), so this always holds there. A prey list that held the hunter itself is not modelled.

## Findings

| source | as written | input that shows it | evidently intended | confidence | as-written member | corrected member |
|---|---|---|---|---|---|---|
| main.js:626-638 with ant.js:83-89 | the nest is credited only when the ant had food before the tick and has none after | an ant carrying food arrives within 15 of its nest while a plant lies within its size+5; it delivers, then picks the plant up in the same tick, so `hasFood` is true again and no nest gets the food | every delivery credits one food to the ant's nest | medium, not executed | Simulation.Ecosystem.AntStepAsWritten | Simulation.Ecosystem.AntStep |

The tick takes a flag, `creditAsWritten`. When it is true, `Simulation.Ecosystem.Update` runs the main loop as written, crediting through `AntStepAsWritten`. When it is false, the same tick credits every delivery through `AntStep`.

=== FILE: ant.dfy ===
/**
 * Ants and their nests. An ant rests in its nest, flees predators, forages
 * for plants, carries food home (marking the trail with pheromone) and is
 * born only from its nest's food store.
 */
module Ants {
  import opened Config
  import opened Spatial
  import opened Genetics
  import opened Creatures
  import opened Worlds
  import opened Pheromone

  /** Distance to the nest that counts as arriving. */
  const ArrivalRadius: real := 15.0
  /** Ticks an ant rests after entering its nest. */
  const NestRest: int := 60
  /** Ticks an ant keeps fleeing after seeing a predator. */
  const FleeTicks: int := 30
  /** Below this energy an ant heads home (30% of the initial energy). */
  const HungerLevel: real := InitialEnergy * 0.3
  /** No pheromone is laid this close to the nest. */
  const TrailClearance: real := 30.0

  /** A new ant at (x, y) belonging to the nest at (nx, ny): not carrying, not fleeing, outside. */
  method NewAnt(x: real, y: real, nx: real, ny: real, g: Option<Gene>, heading: Heading) returns (a: Creature)
    ensures fresh(a) && a.kind == Ant && a.x == x && a.y == y && a.nestX == nx && a.nestY == ny
    ensures a.gene == (if g.Some? then g.value else BaseGene(Ant)) && a.energy == InitialEnergy
    ensures a.isAlive && a.generation == 0 && a.reproductionCooldown == 0 && a.pregnancyTimer == 0
    ensures !a.hasFood && a.fleeTimer == 0 && !a.isInsideNest && a.stayInNestTimer == 0
    ensures a.Valid()
  {
    a := new Creature(x, y, Ant, g, heading);
    a.nestX, a.nestY := nx, ny;
  }

  /** Leave the nest: step out 20 from its centre along `dir` and head that way. */
  method LeaveNest(a: Creature, dir: Heading)
    modifies a`isInsideNest, a`x, a`y, a`vx, a`vy
    ensures !a.isInsideNest
    ensures a.x == a.nestX + dir.vx * 20.0 && a.y == a.nestY + dir.vy * 20.0
    ensures a.vx == dir.vx && a.vy == dir.vy
  {
    a.isInsideNest := false;
    a.x := a.nestX + dir.vx * 20.0;
    a.y := a.nestY + dir.vy * 20.0;
    a.vx, a.vy := dir.vx, dir.vy;
  }

  /** The ant is far enough from its nest to lay pheromone. */
  predicate FarFromNest(a: Creature)
    reads a
  {
    !WithinOrOn(Dist2(a.x, a.y, a.nestX, a.nestY), TrailClearance)
  }

  /**
   * A carrying ant more than 30 from its nest marks its cell with twice the
   * standard deposit; otherwise the field is untouched.
   */
  method DepositPheromone(a: Creature, grid: PheromoneGrid)
    requires grid.Valid()
    modifies grid`grid
    ensures a.hasFood && FarFromNest(a) ==>
      grid.grid == Deposited(old(grid.grid), grid.WorldToGrid(a.x, a.y), PheromoneDeposit * 2.0)
    ensures !(a.hasFood && FarFromNest(a)) ==> grid.grid == old(grid.grid)
  {
    if a.hasFood {
      if FarFromNest(a) {
        grid.Deposit(a.x, a.y, PheromoneDeposit * 2.0);
      }
    }
  }

  /** The ant is within arrival distance of its nest. */
  predicate AtNest(a: Creature)
    reads a
  {
    Within(Dist2(a.nestX, a.nestY, a.x, a.y), ArrivalRadius)
  }

  /**
   * Arriving at the nest: drop any food (gaining its energy only if it was
   * carrying), go inside and rest 60 ticks. Away from the nest nothing changes.
   */
  method CheckNestArrival(a: Creature) returns (arrived: bool)
    modifies a`hasFood, a`energy, a`isInsideNest, a`stayInNestTimer
    ensures arrived == AtNest(a)
    ensures arrived ==> !a.hasFood && a.isInsideNest && a.stayInNestTimer == NestRest
    ensures arrived ==> a.energy == old(a.energy) + (if old(a.hasFood) then FoodEnergy else 0.0)
    ensures !arrived ==> a.hasFood == old(a.hasFood) && a.energy == old(a.energy)
    ensures !arrived ==> a.isInsideNest == old(a.isInsideNest) && a.stayInNestTimer == old(a.stayInNestTimer)
  {
    if AtNest(a) {
      if a.hasFood {
        a.hasFood := false;
        a.energy := a.energy + FoodEnergy;
      }
      a.isInsideNest := true;
      a.stayInNestTimer := NestRest;
      return true;
    }
    return false;
  }

  /**
   * Pick up the nearest plant within reach (size + 5): carry it, remove it
   * from the world and turn around. Answers the plant's index, if any.
   */
  method CheckFoodPickup(a: Creature, world: World) returns (picked: Option<nat>)
    modifies a`hasFood, a`vx, a`vy, world`plants
    ensures picked == NearestIndex(PlantDist2s(old(world.plants), a.x, a.y), AllTrue(old(|world.plants|)), a.size + 5.0)
    ensures picked.Some? ==> picked.value < old(|world.plants|)
    ensures picked.Some? ==> a.hasFood && a.vx == -old(a.vx) && a.vy == -old(a.vy)
    ensures picked.Some? ==> world.plants == RemoveFirst(old(world.plants), old(world.plants)[picked.value])
    ensures picked.None? ==> a.hasFood == old(a.hasFood) && a.vx == old(a.vx) && a.vy == old(a.vy)
    ensures picked.None? ==> world.plants == old(world.plants)
  {
    picked := world.GetNearestPlant(a.x, a.y, a.size + 5.0);
    if picked.Some? {
      a.hasFood := true;
      world.RemovePlant(world.plants[picked.value]);
      a.vx, a.vy := -a.vx, -a.vy;
    }
  }

  /** The nearest living anteater or bird within the ant's perception. */
  method FindNearbyPredator(a: Creature, predators: seq<Creature>) returns (seen: Option<nat>)
    ensures seen == NearestIndex(Dist2sTo(a.x, a.y, predators), Eligible(predators, Some(PredatorsOf(Ant))), a.gene.perception)
    ensures seen.Some? ==> seen.value < |predators| && predators[seen.value].isAlive
    ensures seen.Some? ==> predators[seen.value].kind == Anteater || predators[seen.value].kind == Bird
  {
    seen := FindNearest(a, predators, a.gene.perception, Some(PredatorsOf(Ant)));
  }

  /**
   * The directions the trigonometric steering would produce this tick:
   * leaving the nest, fleeing, heading home, heading to a plant, following
   * pheromone, separating from close neighbours (None when none is close)
   * and restarting a stalled ant.
   */
  datatype AntSteering = AntSteering(
    exit: Heading, flee: Heading, home: Heading, toPlant: Heading,
    trail: Heading, separation: Option<Heading>, restart: Heading)

  /** What the ant does this tick, decided from its flee timer, load and energy. */
  datatype Plan = Fleeing | Homing | Foraging

  function Decide(fleeTimer: int, hasFood: bool, energy: real): (p: Plan)
    ensures fleeTimer > 0 <==> p == Fleeing
    ensures p == Homing <==> fleeTimer <= 0 && (hasFood || energy < HungerLevel)
  {
    if fleeTimer > 0 then Fleeing
    else if hasFood || energy < HungerLevel then Homing
    else Foraging
  }

  /**
   * The ant's velocity after steering toward (tx, ty) with the given
   * heading, from velocity (vx0, vy0): re-aimed only when the point is
   * farther than 1 (see Creature.MoveTowards).
   */
  predicate Heads(a: Creature, tx: real, ty: real, toward: Heading, vx0: real, vy0: real)
    reads a
  {
    Heading(a.vx, a.vy) == Aim(a.x, a.y, tx, ty, toward, Heading(vx0, vy0))
  }

  /** Velocity `v0` at (x, y) re-aimed along `toward` when (tx, ty) is farther than 1. */
  function Aim(x: real, y: real, tx: real, ty: real, toward: Heading, v0: Heading): Heading {
    if Dist2(tx, ty, x, y) > 1.0 then toward else v0
  }

  /**
   * The velocity steering leaves at (x, y), starting from `v0`: a push from
   * close neighbours wins; otherwise a fleeing ant turns away from a threat
   * at another point, a homing ant aims at its nest, and a foraging ant
   * aims at the plant it found or follows the trail.
   */
  function SteeredVelocity(x: real, y: real, v0: Heading, nestX: real, nestY: real, plan: Plan,
                           threat: Option<(real, real)>, plant: Option<(real, real)>,
                           push: Option<Heading>, steer: AntSteering): Heading
  {
    if push.Some? then push.value
    else match plan
      case Fleeing =>
        if threat.Some? && Dist2(x, y, threat.value.0, threat.value.1) > 0.0 then steer.flee else v0
      case Homing => Aim(x, y, nestX, nestY, steer.home, v0)
      case Foraging =>
        if plant.Some? then Aim(x, y, plant.value.0, plant.value.1, steer.toPlant, v0) else steer.trail
  }

  /** Where the seen predator stands, if one was seen. */
  function ThreatAt(predators: seq<Creature>, seen: Option<nat>): Option<(real, real)>
    reads predators
  {
    if seen.Some? && seen.value < |predators| then Some((predators[seen.value].x, predators[seen.value].y)) else None
  }

  /** Where the sought plant stands, if one was found. */
  function PlantAt(plants: seq<Plant>, target: Option<nat>): Option<(real, real)> {
    if target.Some? && target.value < |plants| then Some((plants[target.value].x, plants[target.value].y)) else None
  }

  /** The separation heading, when close neighbours push the ant aside. */
  function PushOf(neighbors: seq<Creature>, steer: AntSteering): Option<Heading> {
    if Separated(neighbors, steer) then steer.separation else None
  }

  /** A nearly stopped velocity (speed below 0.1) is replaced by the restart heading. */
  function Restart(v: Heading, restart: Heading): Heading {
    if v.vx * v.vx + v.vy * v.vy < 0.01 then restart else v
  }

  /** Search for food: head for the nearest plant in sight, else follow the pheromone trail. */
  method SearchForFood(a: Creature, world: World, steer: AntSteering) returns (target: Option<nat>)
    modifies a`vx, a`vy
    ensures target == NearestIndex(PlantDist2s(world.plants, a.x, a.y), AllTrue(|world.plants|), a.gene.perception)
    ensures target.Some? ==> target.value < |world.plants| && Heads(a, world.plants[target.value].x, world.plants[target.value].y, steer.toPlant, old(a.vx), old(a.vy))
    ensures target.None? ==> a.vx == steer.trail.vx && a.vy == steer.trail.vy
  {
    target := world.GetNearestPlant(a.x, a.y, a.gene.perception);
    if target.Some? {
      var p := world.plants[target.value];
      a.MoveTowards(p.x, p.y, steer.toPlant);
    } else {
      a.vx, a.vy := steer.trail.vx, steer.trail.vy;
    }
  }

  /** Restart a nearly stopped ant (speed below 0.1) in a random direction, then move one step. */
  method MoveAnt(a: Creature, restart: Heading)
    modifies a`vx, a`vy, a`x, a`y
    ensures old(a.vx * a.vx + a.vy * a.vy) < 0.01 ==> a.vx == restart.vx && a.vy == restart.vy
    ensures old(a.vx * a.vx + a.vy * a.vy) >= 0.01 ==> a.vx == old(a.vx) && a.vy == old(a.vy)
    ensures a.x == Advance(old(a.x), a.vx, a.gene.speed) && a.y == Advance(old(a.y), a.vy, a.gene.speed)
  {
    if a.vx * a.vx + a.vy * a.vy < 0.01 {
      a.vx, a.vy := restart.vx, restart.vy;
    }
    a.Move(1.0);
  }

  /** Close neighbours push the ant aside (the separation heading replaces the plan's). */
  predicate Separated(neighbors: seq<Creature>, steer: AntSteering) {
    |neighbors| > 0 && steer.separation.Some?
  }

  /**
   * The steering half of a tick outside the nest: timers run down, a
   * predator in sight starts a 30-tick flight, then the plan (flee, go home
   * or look for food) sets the heading and close neighbours push it aside.
   * Answers the predator seen, the plan followed and the plant sought.
   * A fleeing ant neither heads home nor looks for food.
   */
  method Steer(a: Creature, world: World, predators: seq<Creature>, neighbors: seq<Creature>,
               steer: AntSteering) returns (seen: Option<nat>, plan: Plan, target: Option<nat>)
    modifies a`vx, a`vy, a`fleeTimer, a`reproductionCooldown, a`pregnancyTimer
    ensures seen == old(NearestIndex(Dist2sTo(a.x, a.y, predators), Eligible(predators, Some(PredatorsOf(Ant))), a.gene.perception))
    ensures seen.Some? ==> seen.value < |predators|
    ensures plan == Decide(if seen.Some? then FleeTicks else old(a.fleeTimer), a.hasFood, a.energy)
    ensures a.fleeTimer == if seen.Some? then FleeTicks - 1 else Tick(old(a.fleeTimer))
    ensures a.reproductionCooldown == Tick(old(a.reproductionCooldown))
    ensures a.pregnancyTimer == Tick(old(a.pregnancyTimer))
    ensures target == if plan == Foraging
      then NearestIndex(PlantDist2s(world.plants, a.x, a.y), AllTrue(|world.plants|), a.gene.perception)
      else None
    ensures target.Some? ==> target.value < |world.plants|
    ensures Separated(neighbors, steer) ==> a.vx == steer.separation.value.vx && a.vy == steer.separation.value.vy
    ensures !Separated(neighbors, steer) && plan == Fleeing ==>
      if seen.Some? && Dist2(a.x, a.y, predators[seen.value].x, predators[seen.value].y) > 0.0
      then a.vx == steer.flee.vx && a.vy == steer.flee.vy
      else a.vx == old(a.vx) && a.vy == old(a.vy)
    ensures !Separated(neighbors, steer) && plan == Homing ==>
      Heads(a, a.nestX, a.nestY, steer.home, old(a.vx), old(a.vy))
    ensures !Separated(neighbors, steer) && plan == Foraging ==>
      if target.Some?
      then Heads(a, world.plants[target.value].x, world.plants[target.value].y, steer.toPlant, old(a.vx), old(a.vy))
      else a.vx == steer.trail.vx && a.vy == steer.trail.vy
    ensures Heading(a.vx, a.vy) == SteeredVelocity(a.x, a.y, Heading(old(a.vx), old(a.vy)), a.nestX, a.nestY, plan,
      old(ThreatAt(predators, seen)), PlantAt(world.plants, target), PushOf(neighbors, steer), steer)
  {
    // The predator query reads no timer, so it may run before the count-down.
    seen := FindNearbyPredator(a, predators);
    a.UpdateReproductionTimers();
    if seen.Some? {
      var p := predators[seen.value];
      a.FleeFrom(p.x, p.y, steer.flee);
      a.fleeTimer := FleeTicks;
    }
    plan := Decide(a.fleeTimer, a.hasFood, a.energy);
    target := None;
    if plan == Fleeing {
      a.fleeTimer := a.fleeTimer - 1;
    } else if plan == Homing {
      a.MoveTowards(a.nestX, a.nestY, steer.home);
    } else {
      target := SearchForFood(a, world, steer);
    }
    if Separated(neighbors, steer) {
      a.vx, a.vy := steer.separation.value.vx, steer.separation.value.vy;
    }
  }

  /** An ant carrying food or below the hunger level looks for its nest. */
  predicate SeeksNest(hasFood: bool, energy: real)
  {
    hasFood || energy < HungerLevel
  }

  /** The plant an ant of the given size at (x, y) can pick up: the nearest within size + 5. */
  function PlantInReach(plants: seq<Plant>, x: real, y: real, size: real): Option<nat>
  {
    NearestIndex(PlantDist2s(plants, x, y), AllTrue(|plants|), size + 5.0)
  }

  /**
   * The end of a tick outside the nest: a carrying or hungry ant checks for
   * its nest, then an empty-handed ant that is not fleeing tries to pick up
   * a plant. Answers whether food was delivered and the plant picked up.
   */
  method ArriveOrPickUp(a: Creature, world: World) returns (delivered: bool, picked: Option<nat>)
    modifies a`hasFood, a`energy, a`isInsideNest, a`stayInNestTimer, a`vx, a`vy, world`plants
    ensures a.energy == old(a.energy) + (if delivered then FoodEnergy else 0.0)
    ensures delivered ==> old(a.hasFood) && a.isInsideNest && a.stayInNestTimer == NestRest
    ensures delivered <==> old(a.hasFood) && AtNest(a)
    ensures SeeksNest(old(a.hasFood), old(a.energy)) && AtNest(a) ==> a.isInsideNest && a.stayInNestTimer == NestRest
    ensures !(SeeksNest(old(a.hasFood), old(a.energy)) && AtNest(a)) ==>
      a.isInsideNest == old(a.isInsideNest) && a.stayInNestTimer == old(a.stayInNestTimer)
    ensures picked == if !(old(a.hasFood) && !delivered) && a.fleeTimer == 0
      then PlantInReach(old(world.plants), a.x, a.y, a.size) else None
    ensures a.hasFood == ((old(a.hasFood) && !delivered) || picked.Some?)
    ensures picked.Some? ==> a.fleeTimer == 0 && picked.value < |old(world.plants)|
    ensures picked.Some? ==> world.plants == RemoveFirst(old(world.plants), old(world.plants)[picked.value])
    ensures picked.None? ==> world.plants == old(world.plants)
    ensures picked.Some? ==> a.vx == -old(a.vx) && a.vy == -old(a.vy)
    ensures picked.None? ==> a.vx == old(a.vx) && a.vy == old(a.vy)
  {
    delivered := false;
    if SeeksNest(a.hasFood, a.energy) {
      var carrying := a.hasFood;
      var arrived := CheckNestArrival(a);
      delivered := arrived && carrying;
    }
    picked := None;
    if !a.hasFood && a.fleeTimer == 0 {
      picked := CheckFoodPickup(a, world);
    }
  }

  /**
   * The travelling half of a tick outside the nest: steer, move one step
   * and, when carrying food far from the nest, mark the new spot.
   */
  method Travel(a: Creature, world: World, grid: PheromoneGrid, predators: seq<Creature>,
                neighbors: seq<Creature>, steer: AntSteering) returns (seen: Option<nat>, plan: Plan, target: Option<nat>)
    requires grid.Valid()
    modifies a`x, a`y, a`vx, a`vy, a`fleeTimer, a`reproductionCooldown, a`pregnancyTimer, grid`grid
    ensures seen == old(NearestIndex(Dist2sTo(a.x, a.y, predators), Eligible(predators, Some(PredatorsOf(Ant))), a.gene.perception))
    ensures plan == Decide(if seen.Some? then FleeTicks else old(a.fleeTimer), a.hasFood, a.energy)
    ensures target == if plan == Foraging
      then old(NearestIndex(PlantDist2s(world.plants, a.x, a.y), AllTrue(|world.plants|), a.gene.perception))
      else None
    ensures a.fleeTimer == if seen.Some? then FleeTicks - 1 else Tick(old(a.fleeTimer))
    ensures a.reproductionCooldown == Tick(old(a.reproductionCooldown))
    ensures a.pregnancyTimer == Tick(old(a.pregnancyTimer))
    ensures Heading(a.vx, a.vy) == Restart(SteeredVelocity(old(a.x), old(a.y), Heading(old(a.vx), old(a.vy)),
      a.nestX, a.nestY, plan, old(ThreatAt(predators, seen)), PlantAt(world.plants, target), PushOf(neighbors, steer),
      steer), steer.restart)
    ensures a.x == Advance(old(a.x), a.vx, a.gene.speed) && a.y == Advance(old(a.y), a.vy, a.gene.speed)
    ensures a.hasFood && FarFromNest(a) ==>
      grid.grid == Deposited(old(grid.grid), grid.WorldToGrid(a.x, a.y), PheromoneDeposit * 2.0)
    ensures !(a.hasFood && FarFromNest(a)) ==> grid.grid == old(grid.grid)
  {
    seen, plan, target := Steer(a, world, predators, neighbors, steer);
    ghost var steered := Heading(a.vx, a.vy);
    MoveAnt(a, steer.restart);
    assert Heading(a.vx, a.vy) == Restart(steered, steer.restart);
    DepositPheromone(a, grid);
  }

  /**
   * One tick of an ant outside its nest: steering, movement, pheromone,
   * energy, then nest arrival and food pickup. Answers the predator seen,
   * whether food was delivered to the nest and the plant picked up.
   */
  method Forage(a: Creature, world: World, grid: PheromoneGrid, predators: seq<Creature>,
                neighbors: seq<Creature>, steer: AntSteering)
    returns (seen: Option<nat>, plan: Plan, target: Option<nat>, delivered: bool, picked: Option<nat>)
    requires grid.Valid()
    modifies a`x, a`y, a`vx, a`vy, a`energy, a`reproductionCooldown, a`pregnancyTimer
    modifies a`hasFood, a`fleeTimer, a`isInsideNest, a`stayInNestTimer
    modifies world`plants, grid`grid
    ensures seen == old(NearestIndex(Dist2sTo(a.x, a.y, predators), Eligible(predators, Some(PredatorsOf(Ant))), a.gene.perception))
    ensures plan == Decide(if seen.Some? then FleeTicks else old(a.fleeTimer), old(a.hasFood), old(a.energy))
    ensures target == if plan == Foraging
      then old(NearestIndex(PlantDist2s(world.plants, a.x, a.y), AllTrue(|world.plants|), a.gene.perception))
      else None
    ensures a.fleeTimer == if seen.Some? then FleeTicks - 1 else Tick(old(a.fleeTimer))
    ensures a.reproductionCooldown == Tick(old(a.reproductionCooldown))
    ensures a.pregnancyTimer == Tick(old(a.pregnancyTimer))
    ensures var v := Restart(SteeredVelocity(old(a.x), old(a.y), Heading(old(a.vx), old(a.vy)), a.nestX, a.nestY, plan,
        old(ThreatAt(predators, seen)), PlantAt(old(world.plants), target), PushOf(neighbors, steer), steer), steer.restart);
      if picked.Some? then a.vx == -v.vx && a.vy == -v.vy else a.vx == v.vx && a.vy == v.vy
    ensures a.x == Advance(old(a.x), if picked.Some? then -a.vx else a.vx, a.gene.speed)
    ensures a.y == Advance(old(a.y), if picked.Some? then -a.vy else a.vy, a.gene.speed)
    ensures a.energy == old(a.energy) - EnergyCost(a.gene, 1.0, 0.005, 0.01) + (if delivered then FoodEnergy else 0.0)
    ensures delivered ==> old(a.hasFood) && a.isInsideNest && a.stayInNestTimer == NestRest
    ensures delivered <==> old(a.hasFood) && AtNest(a)
    ensures var hungry := SeeksNest(old(a.hasFood), old(a.energy) - EnergyCost(a.gene, 1.0, 0.005, 0.01));
      hungry && AtNest(a) ==> a.isInsideNest && a.stayInNestTimer == NestRest
    ensures var hungry := SeeksNest(old(a.hasFood), old(a.energy) - EnergyCost(a.gene, 1.0, 0.005, 0.01));
      !(hungry && AtNest(a)) ==> a.isInsideNest == old(a.isInsideNest) && a.stayInNestTimer == old(a.stayInNestTimer)
    ensures picked == if !(old(a.hasFood) && !delivered) && a.fleeTimer == 0
      then PlantInReach(old(world.plants), a.x, a.y, a.size) else None
    ensures a.hasFood == ((old(a.hasFood) && !delivered) || picked.Some?)
    ensures picked.Some? ==> a.fleeTimer == 0 && picked.value < |old(world.plants)|
    ensures picked.Some? ==> world.plants == RemoveFirst(old(world.plants), old(world.plants)[picked.value])
    ensures picked.None? ==> world.plants == old(world.plants)
    ensures old(a.hasFood) && FarFromNest(a) ==>
      grid.grid == Deposited(old(grid.grid), grid.WorldToGrid(a.x, a.y), PheromoneDeposit * 2.0)
    ensures !(old(a.hasFood) && FarFromNest(a)) ==> grid.grid == old(grid.grid)
  {
    seen, plan, target := Travel(a, world, grid, predators, neighbors, steer);
    ghost var g, food, far, v := grid.grid, a.hasFood, FarFromNest(a), Heading(a.vx, a.vy);
    ghost var inside, rest, plants := a.isInsideNest, a.stayInNestTimer, world.plants;
    a.ConsumeEnergy(1.0, 0.005, 0.01);
    ghost var e := a.energy;
    delivered, picked := ArriveOrPickUp(a, world);
    assert grid.grid == g && food == old(a.hasFood) && far == FarFromNest(a);
    assert e == old(a.energy) - EnergyCost(a.gene, 1.0, 0.005, 0.01);
    assert inside == old(a.isInsideNest) && rest == old(a.stayInNestTimer) && plants == old(world.plants);
    assert if picked.Some? then a.vx == -v.vx && a.vy == -v.vy else a.vx == v.vx && a.vy == v.vy;
  }

  /**
   * One tick of an ant. A dead ant does nothing. An ant inside its nest
   * only counts down its rest, or leaves once the rest is over. Otherwise
   * it forages (see Forage). Answers whether it delivered food this tick.
   */
  method AntUpdate(a: Creature, world: World, grid: PheromoneGrid, predators: seq<Creature>,
                   neighbors: seq<Creature>, steer: AntSteering)
    returns (delivered: bool, picked: Option<nat>)
    requires a.kind == Ant && grid.Valid()
    modifies a`x, a`y, a`vx, a`vy, a`energy, a`reproductionCooldown, a`pregnancyTimer
    modifies a`hasFood, a`fleeTimer, a`isInsideNest, a`stayInNestTimer
    modifies world`plants, grid`grid
    ensures !old(a.isAlive) ==> unchanged(a) && world.plants == old(world.plants) && grid.grid == old(grid.grid)
    ensures old(a.isAlive && a.isInsideNest && a.stayInNestTimer > 0) ==>
      a.stayInNestTimer == old(a.stayInNestTimer) - 1 && a.isInsideNest &&
      a.energy == old(a.energy) && a.x == old(a.x) && a.y == old(a.y) && a.hasFood == old(a.hasFood) &&
      a.fleeTimer == old(a.fleeTimer) && a.reproductionCooldown == old(a.reproductionCooldown) &&
      a.pregnancyTimer == old(a.pregnancyTimer) &&
      world.plants == old(world.plants) && grid.grid == old(grid.grid)
    ensures old(a.isAlive && a.isInsideNest && a.stayInNestTimer <= 0) ==>
      !a.isInsideNest && a.energy == old(a.energy) && a.hasFood == old(a.hasFood) &&
      world.plants == old(world.plants) && grid.grid == old(grid.grid)
    ensures delivered ==> old(a.isAlive && !a.isInsideNest && a.hasFood) && a.isInsideNest
    ensures a.hasFood == ((old(a.hasFood) && !delivered) || picked.Some?)
    ensures !old(a.isAlive && !a.isInsideNest) ==> !delivered && picked.None?
    ensures old(a.isAlive && !a.isInsideNest) ==>
      a.energy == old(a.energy) - EnergyCost(a.gene, 1.0, 0.005, 0.01) + (if delivered then FoodEnergy else 0.0)
    ensures old(a.isAlive && !a.isInsideNest) ==> (delivered <==> old(a.hasFood) && AtNest(a))
    ensures old(a.isAlive && !a.isInsideNest) ==>
      var hungry := SeeksNest(old(a.hasFood), old(a.energy) - EnergyCost(a.gene, 1.0, 0.005, 0.01));
      a.isInsideNest == (hungry && AtNest(a)) && (hungry && AtNest(a) ==> a.stayInNestTimer == NestRest)
    ensures old(a.isAlive && !a.isInsideNest) ==>
      picked == if !(old(a.hasFood) && !delivered) && a.fleeTimer == 0
        then PlantInReach(old(world.plants), a.x, a.y, a.size) else None
  {
    delivered, picked := false, None;
    if !a.isAlive {
      return;
    }
    if a.isInsideNest {
      if a.stayInNestTimer > 0 {
        a.stayInNestTimer := a.stayInNestTimer - 1;
      } else {
        LeaveNest(a, steer.exit);
      }
      return;
    }
    var seen, plan, target;
    seen, plan, target, delivered, picked := Forage(a, world, grid, predators, neighbors, steer);
  }

  /** Ants never start a pregnancy: they are born from their nest only. */
  lemma AntsNeverReproduce(a: Creature)
    requires a.kind == Ant
    ensures !a.CanReproduce()
  {
  }

  /** An ant's nest: a food store that turns food into new ants. */
  class AntNest {
    const x: real
    const y: real
    var foodStored: int
    const size: real
    const maxAnts: int
    var spawnCooldown: int
    const spawnInterval: int
    var antCount: int

    /** Stored food and the cooldown never go negative. */
    predicate Valid()
      reads this
    {
      foodStored >= 0 && 0 <= spawnCooldown <= spawnInterval
    }

    /** An empty nest at (x0, y0): size 15, up to 50 ants, one spawn every 60 ticks. */
    constructor(x0: real, y0: real)
      ensures x == x0 && y == y0 && foodStored == 0 && size == 15.0 && maxAnts == 50
      ensures spawnCooldown == 0 && spawnInterval == 60 && antCount == 0
      ensures Valid()
    {
      x, y := x0, y0;
      foodStored := 0;
      size := 15.0;
      maxAnts := 50;
      spawnCooldown := 0;
      spawnInterval := 60;
      antCount := 0;
    }

    /** Which of `ants` are living members of this nest (their nest is at this nest's position). */
    function Members(ants: seq<Creature>): (ok: seq<bool>)
      reads ants
      ensures |ok| == |ants|
      ensures forall i :: 0 <= i < |ants| ==> ok[i] == (ants[i].nestX == x && ants[i].nestY == y && ants[i].isAlive)
    {
      seq(|ants|, i requires 0 <= i < |ants| reads ants =>
        ants[i].nestX == x && ants[i].nestY == y && ants[i].isAlive)
    }

    /** Which of `ants` are living members resting inside. */
    function Resting(ants: seq<Creature>): (ok: seq<bool>)
      reads ants
      ensures |ok| == |ants|
      ensures forall i :: 0 <= i < |ants| ==>
        ok[i] == (ants[i].isAlive && ants[i].isInsideNest && ants[i].nestX == x && ants[i].nestY == y)
    {
      seq(|ants|, i requires 0 <= i < |ants| reads ants =>
        ants[i].isAlive && ants[i].isInsideNest && ants[i].nestX == x && ants[i].nestY == y)
    }

    /** Pay 2 food for a new ant placed 20 from the centre along `dir`; restart the cooldown. */
    method SpawnAnt(dir: Heading, heading: Heading) returns (ant: Creature)
      modifies this`foodStored, this`spawnCooldown
      ensures foodStored == old(foodStored) - 2 && spawnCooldown == spawnInterval
      ensures fresh(ant) && ant.kind == Ant && ant.nestX == x && ant.nestY == y
      ensures ant.x == x + dir.vx * (size + 5.0) && ant.y == y + dir.vy * (size + 5.0)
      ensures ant.isAlive && !ant.hasFood && !ant.isInsideNest && ant.Valid() && ant.gene == BaseGene(Ant)
    {
      foodStored := foodStored - 2;
      spawnCooldown := spawnInterval;
      var distance := size + 5.0;
      ant := NewAnt(x + dir.vx * distance, y + dir.vy * distance, x, y, None, heading);
    }

    /**
     * One nest tick: count the resting members, run the cooldown down, and
     * spawn an ant when the gate is open. Stored food never goes negative.
     */
    method Update(ants: seq<Creature>, dir: Heading, heading: Heading) returns (ant: Creature?)
      modifies this`antCount, this`spawnCooldown, this`foodStored
      ensures antCount == CountTrue(Resting(ants))
      ensures ant != null <==> old(foodStored) >= 2 && CountTrue(Members(ants)) < maxAnts && Tick(old(spawnCooldown)) == 0
      ensures ant != null ==> fresh(ant) && ant.kind == Ant && ant.nestX == x && ant.nestY == y
      ensures ant != null ==> ant.isAlive && ant.gene == BaseGene(Ant)
      ensures ant != null ==> foodStored == old(foodStored) - 2 && spawnCooldown == spawnInterval
      ensures ant == null ==> foodStored == old(foodStored) && spawnCooldown == Tick(old(spawnCooldown))
      ensures old(Valid()) ==> Valid()
    {
      antCount := CountTrue(Resting(ants));
      var members := CountTrue(Members(ants));
      if spawnCooldown > 0 {
        spawnCooldown := spawnCooldown - 1;
      }
      if foodStored >= 2 && members < maxAnts && spawnCooldown == 0 {
        ant := SpawnAnt(dir, heading);
      } else {
        ant := null;
      }
    }

    /** Add delivered food to the store. */
    method StoreFood(amount: int)
      modifies this`foodStored
      ensures foodStored == old(foodStored) + amount
      ensures old(Valid()) && amount >= 0 ==> Valid()
    {
      foodStored := foodStored + amount;
    }
  }
}

=== FILE: bird.dfy ===
/**
 * Birds: a flying / perching / taking-off state machine driven by fatigue,
 * flocking flight whose speed is kept within bounds, food seeking (plants,
 * and ants when very hungry), and escape from snakes, which are hard to
 * spot while they lie in ambush.
 */
module Birds {
  import opened Config
  import opened Spatial
  import opened Genetics
  import opened Creatures
  import opened Worlds

  /** A perching bird recovers energy up to 1.5 times the initial energy. */
  const RestEnergyCap: real := InitialEnergy * 1.5
  /** Below this energy a bird also hunts ants (30% of the initial energy). */
  const AntHunger: real := InitialEnergy * 0.3
  /** Below this energy a perching bird is restless. */
  const LowEnergy: real := 50.0

  /** Squared length of a velocity. */
  function Norm2(vx: real, vy: real): (n: real)
    ensures n >= 0.0
  {
    vx * vx + vy * vy
  }

  /** A new bird at (x, y): its random unit heading scaled by its gene speed, flying, rested. */
  method NewBird(x: real, y: real, g: Option<Gene>, heading: Heading) returns (b: Creature)
    ensures fresh(b) && b.kind == Bird && b.x == x && b.y == y
    ensures b.gene == (if g.Some? then g.value else BaseGene(Bird)) && b.energy == InitialEnergy
    ensures b.vx == heading.vx * b.gene.speed && b.vy == heading.vy * b.gene.speed
    ensures b.isAlive && b.generation == 0 && b.reproductionCooldown == 0 && b.pregnancyTimer == 0
    ensures b.flight == Flying && b.stateTimer == 0.0 && b.fatigue == 0.0
    ensures b.Valid()
  {
    b := new Creature(x, y, Bird, g, heading);
    b.vx := b.vx * b.gene.speed;
    b.vy := b.vy * b.gene.speed;
  }

  /** Scaling a velocity by `k` scales its squared length by `k * k`. */
  lemma NormScale(vx: real, vy: real, k: real)
    ensures Norm2(vx * k, vy * k) == (k * k) * Norm2(vx, vy)
  {
  }

  /** Rescaling a velocity of length `s` by `m / s` gives it length `m`. */
  lemma RescaledNorm(vx: real, vy: real, s: real, m: real)
    requires s > 0.0 && s * s == Norm2(vx, vy)
    ensures Norm2(vx / s * m, vy / s * m) == m * m
  {
    var k := m / s;
    assert vx / s * m == vx * k && vy / s * m == vy * k;
    NormScale(vx, vy, k);
    var n := Norm2(vx, vy);
    var kk := k * k;
    assert kk * n == kk * (s * s);
    var ks := k * s;
    assert ks == m;
    assert kk * (s * s) == ks * ks;
  }

  /**
   * Clamp a velocity of length `speed` (its square root, supplied) to at
   * most `maxSpeed`, and lift a moving one to at least 0.3 * `maxSpeed`.
   * The length is tested once, before either rescaling.
   */
  function LimitSpeed(vx: real, vy: real, speed: real, maxSpeed: real): (v: (real, real))
    requires speed >= 0.0 && speed * speed == Norm2(vx, vy) && maxSpeed >= 0.0
    ensures Norm2(v.0, v.1) <= maxSpeed * maxSpeed
    ensures speed > 0.0 ==> Norm2(v.0, v.1) >= (maxSpeed * 0.3) * (maxSpeed * 0.3)
    ensures maxSpeed * 0.3 <= speed <= maxSpeed || speed == 0.0 ==> v == (vx, vy)
  {
    if speed > maxSpeed then
      RescaledNorm(vx, vy, speed, maxSpeed);
      (vx / speed * maxSpeed, vy / speed * maxSpeed)
    else if speed < maxSpeed * 0.3 && speed > 0.0 then
      RescaledNorm(vx, vy, speed, maxSpeed * 0.3);
      SquareMono(maxSpeed * 0.3, maxSpeed);
      (vx / speed * (maxSpeed * 0.3), vy / speed * (maxSpeed * 0.3))
    else
      SquareMono(speed, maxSpeed);
      if speed > 0.0 then
        SquareMono(maxSpeed * 0.3, speed);
        (vx, vy)
      else
        (vx, vy)
  }

  /**
   * The random inputs of one bird tick: the landing draw, the rest-length
   * draw, the two restlessness draws, the take-off headings (state machine
   * and alarm), and the velocity the flocking forces produce before the
   * speed limit, with its length.
   */
  datatype BirdDraws = BirdDraws(
    land: real, rest: real, calm: real, hungry: real,
    takeOff: Heading, alarm: Heading, steered: Heading, steeredSpeed: real)

  predicate ValidBirdDraws(d: BirdDraws) {
    Unit(d.land) && Unit(d.rest) && Unit(d.calm) && Unit(d.hungry) &&
    d.steeredSpeed >= 0.0 && d.steeredSpeed * d.steeredSpeed == Norm2(d.steered.vx, d.steered.vy)
  }

  /** Settle on a perch for 100 to 300 ticks and stop. */
  method Land(b: Creature, restDraw: real)
    modifies b`flight, b`stateTimer, b`vx, b`vy
    ensures b.flight == Perching && b.stateTimer == 100.0 + restDraw * 200.0
    ensures b.vx == 0.0 && b.vy == 0.0
  {
    b.flight := Perching;
    b.stateTimer := 100.0 + restDraw * 200.0;
    b.vx, b.vy := 0.0, 0.0;
  }

  /** Take off for 20 ticks at half the maximum speed along `dir`. */
  method TakeOff(b: Creature, dir: Heading)
    modifies b`flight, b`stateTimer, b`vx, b`vy
    ensures b.flight == TakingOff && b.stateTimer == 20.0
    ensures b.vx == dir.vx * b.gene.speed * 0.5 && b.vy == dir.vy * b.gene.speed * 0.5
  {
    b.flight := TakingOff;
    b.stateTimer := 20.0;
    b.vx := dir.vx * b.gene.speed * 0.5;
    b.vy := dir.vy * b.gene.speed * 0.5;
  }

  /**
   * Whether a bird with perception `p` can see `q`, at squared distance
   * `d2`, as a threat: a living snake, except one in ambush farther than
   * 0.3 * `p`.
   */
  predicate Visible(q: Creature, d2: real, p: real)
    reads q
  {
    q.isAlive && q.kind in PredatorsOf(Bird) &&
    !(q.kind == Snake && q.snakeState == Ambush && !WithinOrOn(d2, p * 0.3))
  }

  /** Which of `preds` a bird at (x, y) with perception `p` can see as a threat. */
  function ThreatFlags(x: real, y: real, p: real, preds: seq<Creature>): (ok: seq<bool>)
    reads preds
    ensures |ok| == |preds|
    ensures forall i :: 0 <= i < |preds| ==> ok[i] == Visible(preds[i], Dist2(preds[i].x, preds[i].y, x, y), p)
  {
    seq(|preds|, i requires 0 <= i < |preds| reads preds => Visible(preds[i], Dist2(preds[i].x, preds[i].y, x, y), p))
  }

  /**
   * The nearest visible snake strictly within the bird's perception. A
   * snake lying in ambush is only noticed within 0.3 of the perception.
   */
  method FindNearbyPredator(b: Creature, preds: seq<Creature>) returns (seen: Option<nat>)
    ensures seen == NearestIndex(Dist2sTo(b.x, b.y, preds), ThreatFlags(b.x, b.y, b.gene.perception, preds), b.gene.perception)
    ensures seen.Some? ==> seen.value < |preds| && preds[seen.value].isAlive && preds[seen.value].kind == Snake
    ensures seen.Some? && preds[seen.value].snakeState == Ambush ==>
      WithinOrOn(Dist2(preds[seen.value].x, preds[seen.value].y, b.x, b.y), b.gene.perception * 0.3)
  {
    ghost var d2s := Dist2sTo(b.x, b.y, preds);
    ghost var oks := ThreatFlags(b.x, b.y, b.gene.perception, preds);
    var p := b.gene.perception;
    seen := None;
    var minDist2 := 0.0;
    var i := 0;
    while i < |preds|
      invariant 0 <= i <= |preds|
      invariant seen == NearestIndex(d2s[..i], oks[..i], p)
      invariant seen.Some? ==> minDist2 == d2s[seen.value]
    {
      NearestIndexStep(d2s, oks, p, i);
      var q := preds[i];
      var d2 := Dist2(q.x, q.y, b.x, b.y);
      if Visible(q, d2, p) {
        if (seen.None? && Within(d2, p)) || (seen.Some? && d2 < minDist2) {
          seen := Some(i);
          minDist2 := d2;
        }
      }
      i := i + 1;
    }
    assert d2s[..i] == d2s && oks[..i] == oks;
  }

  /** Whether `o` is a neighbour of `b`: another living bird strictly within its perception. */
  predicate IsNeighbor(b: Creature, o: Creature)
    reads b, o
  {
    o != b && o.isAlive && Within(Dist2(o.x, o.y, b.x, b.y), b.gene.perception)
  }

  /** The neighbours of `b` among `birds`, in list order, as getNeighbors collects them. */
  function NeighborsOf(b: Creature, birds: seq<Creature>): (f: seq<Creature>)
    reads b, birds
    ensures |f| <= |birds|
  {
    if |birds| == 0 then []
    else
      var last := birds[|birds| - 1];
      NeighborsOf(b, birds[..|birds| - 1]) + (if IsNeighbor(b, last) then [last] else [])
  }

  /** The neighbour list holds exactly the neighbours found in `birds`. */
  lemma {:induction false} NeighborsOfMembers(b: Creature, birds: seq<Creature>)
    ensures forall n :: n in NeighborsOf(b, birds) <==> n in birds && IsNeighbor(b, n)
  {
    if |birds| > 0 {
      var init := birds[..|birds| - 1];
      NeighborsOfMembers(b, init);
      assert birds == init + [birds[|birds| - 1]];
    }
  }

  /**
   * The neighbours of `b`: every other living bird strictly within its
   * perception, in list order, and nothing else.
   */
  method GetNeighbors(b: Creature, birds: seq<Creature>) returns (neighbors: seq<Creature>)
    ensures neighbors == NeighborsOf(b, birds)
    ensures forall n :: n in neighbors <==>
      (n in birds && n != b && n.isAlive && Within(Dist2(n.x, n.y, b.x, b.y), b.gene.perception))
  {
    neighbors := [];
    var i := 0;
    while i < |birds|
      invariant 0 <= i <= |birds|
      invariant neighbors == NeighborsOf(b, birds[..i])
    {
      assert birds[..i + 1][..i] == birds[..i];
      var other := birds[i];
      if other != b && other.isAlive && Within(Dist2(other.x, other.y, b.x, b.y), b.gene.perception) {
        neighbors := neighbors + [other];
      }
      i := i + 1;
    }
    assert birds[..i] == birds;
    NeighborsOfMembers(b, birds);
  }

  /** Squared distances from the bird to the plants, then to the ants: the food candidates. */
  function FoodDist2s(x: real, y: real, plants: seq<Plant>, ants: seq<Creature>): (d: seq<real>)
    reads ants
    ensures |d| == |plants| + |ants|
  {
    PlantDist2s(plants, x, y) + Dist2sTo(x, y, ants)
  }

  /** An ant is a food candidate only when it is alive and the bird's energy is below AntHunger. */
  function AntFlags(energy: real, ants: seq<Creature>): (ok: seq<bool>)
    reads ants
    ensures |ok| == |ants|
    ensures forall i :: 0 <= i < |ants| ==> ok[i] == (ants[i].isAlive && energy < AntHunger)
  {
    seq(|ants|, i requires 0 <= i < |ants| reads ants => ants[i].isAlive && energy < AntHunger)
  }

  /** Every plant is a food candidate, then the ants as AntFlags says. */
  function FoodFlags(energy: real, plants: seq<Plant>, ants: seq<Creature>): (ok: seq<bool>)
    reads ants
    ensures |ok| == |plants| + |ants|
  {
    AllTrue(|plants|) + AntFlags(energy, ants)
  }

  /** The food candidates are the plants followed by the ants. */
  lemma FoodCandidatesSplit(x: real, y: real, energy: real, plants: seq<Plant>, ants: seq<Creature>)
    ensures FoodDist2s(x, y, plants, ants)[..|plants|] == PlantDist2s(plants, x, y)
    ensures FoodDist2s(x, y, plants, ants)[|plants|..] == Dist2sTo(x, y, ants)
    ensures FoodFlags(energy, plants, ants)[..|plants|] == AllTrue(|plants|)
    ensures FoodFlags(energy, plants, ants)[|plants|..] == AntFlags(energy, ants)
  {
  }

  /** A hungry bird considers every living ant. */
  lemma HungryBirdConsidersAnts(energy: real, ants: seq<Creature>)
    requires energy < AntHunger
    ensures AntFlags(energy, ants) == Eligible(ants, None)
  {
  }

  /** A bird that is not hungry only ever targets the nearest plant. */
  lemma SatedBirdIgnoresAnts(x: real, y: real, energy: real, plants: seq<Plant>, ants: seq<Creature>, r: real)
    requires energy >= AntHunger
    ensures NearestIndex(FoodDist2s(x, y, plants, ants), FoodFlags(energy, plants, ants), r) ==
            NearestIndex(PlantDist2s(plants, x, y), AllTrue(|plants|), r)
  {
    var d2s, oks := FoodDist2s(x, y, plants, ants), FoodFlags(energy, plants, ants);
    var n := |plants|;
    FoodCandidatesSplit(x, y, energy, plants, ants);
    forall j | n <= j < |oks|
      ensures !oks[j]
    {
      assert oks[j] == oks[n..][j - n];
    }
    NearestIndexNoLaterCandidates(d2s, oks, r, n);
  }

  /**
   * The food a flying bird steers for: the nearest plant strictly within
   * its perception, unless (when its energy is below AntHunger) a living
   * ant is strictly nearer. Answers an index into plants ++ ants.
   */
  method SeekFoodTarget(b: Creature, world: World, ants: seq<Creature>) returns (target: Option<nat>)
    ensures target == NearestIndex(FoodDist2s(b.x, b.y, world.plants, ants), FoodFlags(b.energy, world.plants, ants), b.gene.perception)
  {
    ghost var d2s := FoodDist2s(b.x, b.y, world.plants, ants);
    ghost var oks := FoodFlags(b.energy, world.plants, ants);
    var n := |world.plants|;
    var p := b.gene.perception;
    var plant := world.GetNearestPlant(b.x, b.y, p);
    FoodCandidatesSplit(b.x, b.y, b.energy, world.plants, ants);
    target := None;
    var minDist2 := 0.0;
    if plant.Some? {
      var q := world.plants[plant.value];
      var d2 := Dist2(q.x, q.y, b.x, b.y);
      if Within(d2, p) {
        target := plant;
        minDist2 := d2;
      }
    }
    if b.energy < AntHunger {
      HungryBirdConsidersAnts(b.energy, ants);
      AntCandidatesAppended(PlantDist2s(world.plants, b.x, b.y), AllTrue(n), b.x, b.y, ants);
      target := ScanAnts(b.x, b.y, p, ants, PlantDist2s(world.plants, b.x, b.y) + Dist2sTo(b.x, b.y, ants),
                         AllTrue(n) + Eligible(ants, None), n, target, minDist2);
    } else {
      SatedBirdIgnoresAnts(b.x, b.y, b.energy, world.plants, ants, p);
    }
  }

  /** Past the first `n` candidates come the ants: their squared distances to (x, y) and whether they live. */
  ghost predicate AntCandidates(d2s: seq<real>, oks: seq<bool>, n: nat, x: real, y: real, ants: seq<Creature>)
    reads ants
  {
    |d2s| == |oks| == n + |ants| &&
    (forall i :: 0 <= i < |ants| ==> d2s[n + i] == Dist2(ants[i].x, ants[i].y, x, y)) &&
    (forall i :: 0 <= i < |ants| ==> oks[n + i] == ants[i].isAlive)
  }

  /** Appending the ants' distances and liveness to other candidates yields AntCandidates. */
  lemma AntCandidatesAppended(pre: seq<real>, preOk: seq<bool>, x: real, y: real, ants: seq<Creature>)
    requires |pre| == |preOk|
    ensures (pre + Dist2sTo(x, y, ants))[..|pre|] == pre && (preOk + Eligible(ants, None))[..|pre|] == preOk
    ensures AntCandidates(pre + Dist2sTo(x, y, ants), preOk + Eligible(ants, None), |pre|, x, y, ants)
  {
    var d2s, oks, n := pre + Dist2sTo(x, y, ants), preOk + Eligible(ants, None), |pre|;
    forall i | 0 <= i < |ants|
      ensures d2s[n + i] == Dist2(ants[i].x, ants[i].y, x, y) && oks[n + i] == ants[i].isAlive
    {
      assert d2s[n + i] == Dist2sTo(x, y, ants)[i];
      assert oks[n + i] == Eligible(ants, None)[i];
    }
  }

  /**
   * Continue a nearest-candidate scan past the first `n` candidates over the
   * living `ants`: the running minimum of seekFood's ant loop, started from
   * the plant found so far.
   */
  method ScanAnts(x: real, y: real, p: real, ants: seq<Creature>, ghost d2s: seq<real>, ghost oks: seq<bool>,
                  n: nat, target0: Option<nat>, minDist0: real) returns (target: Option<nat>)
    requires AntCandidates(d2s, oks, n, x, y, ants)
    requires target0 == NearestIndex(d2s[..n], oks[..n], p)
    requires target0.Some? ==> minDist0 == d2s[target0.value]
    ensures target == NearestIndex(d2s, oks, p)
  {
    target := target0;
    var minDist2 := minDist0;
    var i := 0;
    while i < |ants|
      invariant 0 <= i <= |ants|
      invariant target == NearestIndex(d2s[..n + i], oks[..n + i], p)
      invariant target.Some? ==> minDist2 == d2s[target.value]
    {
      NearestIndexStep(d2s, oks, p, n + i);
      var a := ants[i];
      if a.isAlive {
        var d2 := Dist2(a.x, a.y, x, y);
        if (target.None? && Within(d2, p)) || (target.Some? && d2 < minDist2) {
          target := Some(n + i);
          minDist2 := d2;
        }
      }
      i := i + 1;
    }
    assert d2s[..n + i] == d2s && oks[..n + i] == oks;
  }

  /** Candidates past index `n` that are never eligible do not change the answer. */
  lemma {:induction false} NearestIndexNoLaterCandidates(d2: seq<real>, ok: seq<bool>, r: real, n: nat)
    requires |d2| == |ok| && n <= |d2|
    requires forall j :: n <= j < |ok| ==> !ok[j]
    ensures NearestIndex(d2, ok, r) == NearestIndex(d2[..n], ok[..n], r)
    decreases |d2| - n
  {
    if n < |d2| {
      NearestIndexStep(d2, ok, r, n);
      NearestIndexNoLaterCandidates(d2, ok, r, n + 1);
    } else {
      assert d2[..n] == d2 && ok[..n] == ok;
    }
  }

  /** What a bird ate this tick. */
  datatype Meal = Nothing | PlantMeal(plant: nat) | AntMeal(ant: nat)

  /** The energy a meal brings: a whole plant, or 2% of one for an ant. */
  function MealEnergy(m: Meal): (e: real)
    ensures e >= 0.0 && (m.Nothing? <==> e == 0.0)
  {
    match m
    case Nothing => 0.0
    case PlantMeal(_) => FoodEnergy
    case AntMeal(_) => FoodEnergy * 0.02
  }

  /**
   * Eat within reach (size + 3): the nearest plant if there is one, else
   * the first living ant in list order. At most one meal per tick.
   */
  method CheckFoodPickup(b: Creature, world: World, ants: seq<Creature>) returns (meal: Meal)
    modifies b`energy, world`plants, ants`isAlive
    ensures b.energy == old(b.energy) + MealEnergy(meal)
    ensures meal.PlantMeal? <==> old(NearestIndex(PlantDist2s(world.plants, b.x, b.y), AllTrue(|world.plants|), b.size + 3.0)).Some?
    ensures meal.PlantMeal? ==>
      Some(meal.plant) == old(NearestIndex(PlantDist2s(world.plants, b.x, b.y), AllTrue(|world.plants|), b.size + 3.0)) &&
      meal.plant < old(|world.plants|) &&
      world.plants == RemoveFirst(old(world.plants), old(world.plants[meal.plant]))
    ensures !meal.PlantMeal? ==> world.plants == old(world.plants)
    ensures meal.AntMeal? ==> Some(meal.ant) == old(FirstTrue(PreyFlags(b.x, b.y, b.size + 3.0, ants))) && !ants[meal.ant].isAlive
    ensures meal.Nothing? ==> old(FirstTrue(PreyFlags(b.x, b.y, b.size + 3.0, ants))).None?
    ensures forall i :: 0 <= i < |ants| && !(meal.AntMeal? && ants[i] == ants[meal.ant]) ==> ants[i].isAlive == old(ants[i].isAlive)
  {
    var eatRadius := b.size + 3.0;
    var plant := world.GetNearestPlant(b.x, b.y, eatRadius);
    if plant.Some? {
      world.RemovePlant(world.plants[plant.value]);
      b.energy := b.energy + FoodEnergy;
      return PlantMeal(plant.value);
    }
    var hit := FirstPrey(b.x, b.y, eatRadius, ants);
    if hit.Some? {
      var i := hit.value;
      ants[i].Die();
      b.energy := b.energy + FoodEnergy * 0.02;
      return AntMeal(i);
    }
    return Nothing;
  }

  /** Which way a bird's state machine moves this tick. */
  datatype FlightMove = Keep | Settle | Launch | Cruise

  /**
   * The state machine's decision, from the state, the timer after its
   * count-down, fatigue, energy, whether a snake is in sight and the draws.
   * A flying bird tired past 50 may land (never with a snake in sight); a
   * perching bird is restless when rested or starving and always takes off
   * when its rest runs out; a bird taking off resumes flying after 20 ticks.
   */
  function FlightTransition(s: FlightState, timer: real, fatigue: real, energy: real,
                            threatened: bool, d: BirdDraws): (m: FlightMove)
    ensures m == Settle <==> s == Flying && fatigue > 50.0 && d.land < fatigue / 5000.0 && !threatened
    ensures m == Settle ==> s == Flying && fatigue > 50.0 && !threatened
    ensures m == Launch <==>
      s == Perching && ((fatigue < 10.0 && d.calm < 0.01) || (energy < LowEnergy && d.hungry < 0.05) || timer <= 0.0)
    ensures m == Launch ==> s == Perching
    ensures s == Perching && timer <= 0.0 ==> m == Launch
    ensures m == Cruise <==> s == TakingOff && timer <= 0.0
  {
    match s
    case Flying =>
      if fatigue > 50.0 && d.land < fatigue / 5000.0 && !threatened then Settle else Keep
    case Perching =>
      if (fatigue < 10.0 && d.calm < 0.01) || (energy < LowEnergy && d.hungry < 0.05) || timer <= 0.0
      then Launch else Keep
    case TakingOff =>
      if timer <= 0.0 then Cruise else Keep
  }

  /** A real-valued timer counted down by one tick, stopping at zero. */
  function TickDown(t: real): (t': real)
    ensures t > 0.0 ==> t' == t - 1.0
    ensures t <= 0.0 ==> t' == t
  {
    if t > 0.0 then t - 1.0 else t
  }

  /** A state timer after n ticks of count-down. */
  function TickDownN(t: real, n: nat): real
  {
    if n == 0 then t else TickDownN(TickDown(t), n - 1)
  }

  /** Once n reaches the timer's value, n count-downs have brought it to zero or below. */
  lemma {:induction false} TickDownNExpires(t: real, n: nat)
    requires n as real >= t
    ensures TickDownN(t, n) <= 0.0
  {
    if n > 0 {
      TickDownNExpires(TickDown(t), n - 1);
    }
  }

  /**
   * A perch always ends: a bird that settled with rest timer t and is still
   * perching on tick n, with n at least t, is told to take off on that tick
   * whatever its fatigue, energy, threats and draws.
   */
  lemma PerchEndsInTime(t: real, n: nat, fatigue: real, energy: real, threatened: bool, d: BirdDraws)
    requires n as real >= t
    ensures FlightTransition(Perching, TickDownN(t, n), fatigue, energy, threatened, d) == Launch
  {
    TickDownNExpires(t, n);
  }

  /** A living snake the bird can see, as the threat search of findNearbyPredator reports it. */
  predicate SnakeInSight(b: Creature, preds: seq<Creature>)
    reads b, preds
  {
    NearestIndex(Dist2sTo(b.x, b.y, preds), ThreatFlags(b.x, b.y, b.gene.perception, preds), b.gene.perception).Some?
  }

  /** Run the state machine one tick (see FlightTransition) and carry out its decision. */
  method UpdateState(b: Creature, preds: seq<Creature>, d: BirdDraws) returns (move: FlightMove)
    modifies b`flight, b`stateTimer, b`vx, b`vy
    ensures move == FlightTransition(old(b.flight), TickDown(old(b.stateTimer)), b.fatigue, b.energy,
      old(NearestIndex(Dist2sTo(b.x, b.y, preds), ThreatFlags(b.x, b.y, b.gene.perception, preds), b.gene.perception)).Some?, d)
    ensures move == Settle ==> b.flight == Perching && b.stateTimer == 100.0 + d.rest * 200.0 && b.vx == 0.0 && b.vy == 0.0
    ensures move == Launch ==>
      (b.flight == TakingOff && b.stateTimer == 20.0 &&
       b.vx == d.takeOff.vx * b.gene.speed * 0.5 && b.vy == d.takeOff.vy * b.gene.speed * 0.5)
    ensures move == Cruise ==> b.flight == Flying
    ensures move == Keep ==> b.flight == old(b.flight)
    ensures move == Keep || move == Cruise ==>
      b.stateTimer == TickDown(old(b.stateTimer)) && b.vx == old(b.vx) && b.vy == old(b.vy)
  {
    // The threat query reads no timer, so it may run before the count-down.
    var seen := FindNearbyPredator(b, preds);
    b.stateTimer := TickDown(b.stateTimer);
    move := FlightTransition(b.flight, b.stateTimer, b.fatigue, b.energy, seen.Some?, d);
    if move == Settle {
      Land(b, d.rest);
    } else if move == Launch {
      TakeOff(b, d.takeOff);
    } else if move == Cruise {
      b.flight := Flying;
    }
  }

  /** Flight steering: the flocking, fleeing and food-seeking forces give `steered`, then the speed limit applies. */
  method UpdateFlight(b: Creature, d: BirdDraws)
    requires ValidBirdDraws(d) && b.gene.speed >= 0.0
    modifies b`vx, b`vy
    ensures (b.vx, b.vy) == LimitSpeed(d.steered.vx, d.steered.vy, d.steeredSpeed, b.gene.speed)
  {
    var v := LimitSpeed(d.steered.vx, d.steered.vy, d.steeredSpeed, b.gene.speed);
    b.vx, b.vy := v.0, v.1;
  }

  /** Fly one step along the velocity; a perching bird stays put. */
  method MoveBird(b: Creature)
    modifies b`x, b`y
    ensures b.flight != Perching ==> b.x == old(b.x) + b.vx && b.y == old(b.y) + b.vy
    ensures b.flight == Perching ==> b.x == old(b.x) && b.y == old(b.y)
  {
    if b.flight != Perching {
      b.x := b.x + b.vx;
      b.y := b.y + b.vy;
    }
  }

  /**
   * A perching bird's tick after its state machine: fatigue down by 0.5,
   * energy up by 0.1 to RestEnergyCap, take off if a snake is in sight,
   * then try to eat.
   */
  method Rest(b: Creature, world: World, preds: seq<Creature>, ants: seq<Creature>, d: BirdDraws) returns (meal: Meal)
    modifies b`flight, b`stateTimer, b`vx, b`vy, b`energy, b`fatigue, world`plants, ants`isAlive
    ensures b.fatigue == Max(0.0, old(b.fatigue) - 0.5)
    ensures b.energy == Min(RestEnergyCap, old(b.energy) + 0.1) + MealEnergy(meal)
    ensures old(NearestIndex(Dist2sTo(b.x, b.y, preds), ThreatFlags(b.x, b.y, b.gene.perception, preds), b.gene.perception)).Some? ==>
      b.flight == TakingOff && b.stateTimer == 20.0
    ensures old(NearestIndex(Dist2sTo(b.x, b.y, preds), ThreatFlags(b.x, b.y, b.gene.perception, preds), b.gene.perception)).None? ==>
      b.flight == old(b.flight) && b.stateTimer == old(b.stateTimer)
    ensures meal.AntMeal? ==> meal.ant < |ants| && !ants[meal.ant].isAlive
    ensures forall i :: 0 <= i < |ants| && !(meal.AntMeal? && ants[i] == ants[meal.ant]) ==> ants[i].isAlive == old(ants[i].isAlive)
  {
    var seen := FindNearbyPredator(b, preds);
    b.fatigue := Max(0.0, b.fatigue - 0.5);
    b.energy := Min(RestEnergyCap, b.energy + 0.1);
    if seen.Some? {
      TakeOff(b, d.alarm);
    }
    meal := CheckFoodPickup(b, world, ants);
  }

  /**
   * A flying bird's tick after its state machine: speed limited, fatigue up
   * by 0.1 to 100, energy spent, one step, then try to eat.
   */
  method Fly(b: Creature, world: World, ants: seq<Creature>, d: BirdDraws) returns (meal: Meal)
    requires ValidBirdDraws(d) && b.gene.speed >= 0.0 && b.flight != Perching
    modifies b`vx, b`vy, b`x, b`y, b`energy, b`fatigue, world`plants, ants`isAlive
    ensures (b.vx, b.vy) == LimitSpeed(d.steered.vx, d.steered.vy, d.steeredSpeed, b.gene.speed)
    ensures b.x == old(b.x) + b.vx && b.y == old(b.y) + b.vy
    ensures b.fatigue == Min(100.0, old(b.fatigue) + 0.1)
    ensures b.energy == old(b.energy) - EnergyCost(b.gene, 1.0, 0.002, 0.01) + MealEnergy(meal)
    ensures meal.AntMeal? ==> meal.ant < |ants| && !ants[meal.ant].isAlive
    ensures forall i :: 0 <= i < |ants| && !(meal.AntMeal? && ants[i] == ants[meal.ant]) ==> ants[i].isAlive == old(ants[i].isAlive)
  {
    UpdateFlight(b, d);
    b.fatigue := Min(100.0, b.fatigue + 0.1);
    b.ConsumeEnergy(1.0, 0.002, 0.01);
    MoveBird(b);
    meal := CheckFoodPickup(b, world, ants);
  }

  /**
   * The second half of a bird tick, after the state machine: a perching
   * bird rests (see Rest), any other bird flies (see Fly). Answers whether
   * it rested, and its meal.
   */
  method RestOrFly(b: Creature, world: World, preds: seq<Creature>, ants: seq<Creature>, d: BirdDraws)
    returns (rested: bool, meal: Meal)
    requires ValidBirdDraws(d) && b.gene.speed >= 0.0
    modifies b`flight, b`stateTimer, b`vx, b`vy, b`x, b`y, b`energy, b`fatigue, world`plants, ants`isAlive
    ensures rested == (old(b.flight) == Perching)
    ensures rested ==> b.fatigue == Max(0.0, old(b.fatigue) - 0.5)
    ensures rested ==> b.x == old(b.x) && b.y == old(b.y)
    ensures rested ==> b.energy == Min(RestEnergyCap, old(b.energy) + 0.1) + MealEnergy(meal)
    ensures rested && old(SnakeInSight(b, preds)) ==> b.flight == TakingOff && b.stateTimer == 20.0
    ensures !(rested && old(SnakeInSight(b, preds))) ==> b.flight == old(b.flight) && b.stateTimer == old(b.stateTimer)
    ensures !rested ==> b.fatigue == Min(100.0, old(b.fatigue) + 0.1)
    ensures !rested ==> b.energy == old(b.energy) - EnergyCost(b.gene, 1.0, 0.002, 0.01) + MealEnergy(meal)
    ensures !rested ==> (b.vx, b.vy) == LimitSpeed(d.steered.vx, d.steered.vy, d.steeredSpeed, b.gene.speed)
    ensures meal.AntMeal? ==> meal.ant < |ants| && !ants[meal.ant].isAlive
    ensures forall i :: 0 <= i < |ants| && !(meal.AntMeal? && ants[i] == ants[meal.ant]) ==> ants[i].isAlive == old(ants[i].isAlive)
  {
    if b.flight == Perching {
      rested := true;
      meal := Rest(b, world, preds, ants, d);
    } else {
      rested := false;
      meal := Fly(b, world, ants, d);
    }
  }

  /**
   * The tick of a living bird: the state machine runs (see FlightTransition),
   * the reproduction timers tick, then the bird rests or flies (see
   * RestOrFly). Answers whether it rested, and its meal.
   */
  method BirdLive(b: Creature, world: World, preds: seq<Creature>, ants: seq<Creature>, d: BirdDraws)
    returns (rested: bool, meal: Meal)
    requires ValidBirdDraws(d) && b.gene.speed >= 0.0
    modifies b`flight, b`stateTimer, b`vx, b`vy, b`x, b`y, b`energy, b`fatigue
    modifies b`reproductionCooldown, b`pregnancyTimer, world`plants, ants`isAlive
    ensures old(0.0 <= b.fatigue <= 100.0) ==> 0.0 <= b.fatigue <= 100.0
    ensures rested ==> b.fatigue == Max(0.0, old(b.fatigue) - 0.5)
    ensures rested ==> b.x == old(b.x) && b.y == old(b.y)
    ensures rested ==> b.energy == Min(RestEnergyCap, old(b.energy) + 0.1) + MealEnergy(meal)
    ensures !rested ==> b.fatigue == Min(100.0, old(b.fatigue) + 0.1)
    ensures !rested ==> b.energy == old(b.energy) - EnergyCost(b.gene, 1.0, 0.002, 0.01) + MealEnergy(meal)
    ensures !rested ==> (b.vx, b.vy) == LimitSpeed(d.steered.vx, d.steered.vy, d.steeredSpeed, b.gene.speed)
    ensures b.reproductionCooldown == Tick(old(b.reproductionCooldown))
    ensures b.pregnancyTimer == Tick(old(b.pregnancyTimer))
    ensures var move := FlightTransition(old(b.flight), TickDown(old(b.stateTimer)), old(b.fatigue), old(b.energy),
                                         old(SnakeInSight(b, preds)), d);
      rested <==> move == Settle || (move == Keep && old(b.flight) == Perching)
    ensures var move := FlightTransition(old(b.flight), TickDown(old(b.stateTimer)), old(b.fatigue), old(b.energy),
                                         old(SnakeInSight(b, preds)), d);
      var alarmed := rested && old(SnakeInSight(b, preds));
      b.flight == (if alarmed || move == Launch then TakingOff
                   else if move == Settle then Perching
                   else if move == Cruise then Flying
                   else old(b.flight)) &&
      b.stateTimer == (if alarmed || move == Launch then 20.0
                       else if move == Settle then 100.0 + d.rest * 200.0
                       else TickDown(old(b.stateTimer)))
    ensures meal.AntMeal? ==> meal.ant < |ants| && !ants[meal.ant].isAlive
    ensures forall i :: 0 <= i < |ants| && !(meal.AntMeal? && ants[i] == ants[meal.ant]) ==> ants[i].isAlive == old(ants[i].isAlive)
  {
    ghost var ds, fs := Dist2sTo(b.x, b.y, preds), ThreatFlags(b.x, b.y, b.gene.perception, preds);
    var move := UpdateState(b, preds, d);
    b.UpdateReproductionTimers();
    // The state machine and the timers move no creature, so the snake search repeats the earlier answer.
    assert Dist2sTo(b.x, b.y, preds) == ds;
    assert ThreatFlags(b.x, b.y, b.gene.perception, preds) == fs by {
      forall i | 0 <= i < |preds|
        ensures ThreatFlags(b.x, b.y, b.gene.perception, preds)[i] == fs[i]
      {
        var q := preds[i];
        assert q.isAlive == old(q.isAlive) && q.snakeState == old(q.snakeState) && q.x == old(q.x) && q.y == old(q.y);
      }
    }
    rested, meal := RestOrFly(b, world, preds, ants, d);
  }

  /**
   * One bird tick. A dead bird does nothing; a living one runs BirdLive.
   * Answers whether it rested, and its meal.
   */
  method BirdUpdate(b: Creature, world: World, preds: seq<Creature>, ants: seq<Creature>, d: BirdDraws)
    returns (rested: bool, meal: Meal)
    requires b.kind == Bird && ValidBirdDraws(d) && b.gene.speed >= 0.0
    modifies b`flight, b`stateTimer, b`vx, b`vy, b`x, b`y, b`energy, b`fatigue
    modifies b`reproductionCooldown, b`pregnancyTimer, world`plants, ants`isAlive
    ensures !old(b.isAlive) ==> !rested && meal.Nothing? && unchanged(b) && world.plants == old(world.plants)
    ensures !old(b.isAlive) ==> forall i :: 0 <= i < |ants| ==> ants[i].isAlive == old(ants[i].isAlive)
    ensures old(0.0 <= b.fatigue <= 100.0) ==> 0.0 <= b.fatigue <= 100.0
    ensures rested ==> b.fatigue == Max(0.0, old(b.fatigue) - 0.5)
    ensures rested ==> b.x == old(b.x) && b.y == old(b.y)
    ensures rested ==> b.energy == Min(RestEnergyCap, old(b.energy) + 0.1) + MealEnergy(meal)
    ensures old(b.isAlive) && !rested ==> b.fatigue == Min(100.0, old(b.fatigue) + 0.1)
    ensures old(b.isAlive) && !rested ==>
      b.energy == old(b.energy) - EnergyCost(b.gene, 1.0, 0.002, 0.01) + MealEnergy(meal)
    ensures old(b.isAlive) && !rested ==>
      (b.vx, b.vy) == LimitSpeed(d.steered.vx, d.steered.vy, d.steeredSpeed, b.gene.speed)
    ensures old(b.isAlive) ==> b.reproductionCooldown == Tick(old(b.reproductionCooldown))
    ensures old(b.isAlive) ==> b.pregnancyTimer == Tick(old(b.pregnancyTimer))
    ensures old(b.isAlive) ==>
      var move := FlightTransition(old(b.flight), TickDown(old(b.stateTimer)), old(b.fatigue), old(b.energy),
                                   old(SnakeInSight(b, preds)), d);
      (rested <==> move == Settle || (move == Keep && old(b.flight) == Perching))
    ensures old(b.isAlive) ==>
      var move := FlightTransition(old(b.flight), TickDown(old(b.stateTimer)), old(b.fatigue), old(b.energy),
                                   old(SnakeInSight(b, preds)), d);
      var alarmed := rested && old(SnakeInSight(b, preds));
      b.flight == (if alarmed || move == Launch then TakingOff
                   else if move == Settle then Perching
                   else if move == Cruise then Flying
                   else old(b.flight)) &&
      b.stateTimer == (if alarmed || move == Launch then 20.0
                       else if move == Settle then 100.0 + d.rest * 200.0
                       else TickDown(old(b.stateTimer)))
    ensures meal.AntMeal? ==> meal.ant < |ants| && !ants[meal.ant].isAlive
    ensures forall i :: 0 <= i < |ants| && !(meal.AntMeal? && ants[i] == ants[meal.ant]) ==> ants[i].isAlive == old(ants[i].isAlive)
  {
    rested, meal := false, Nothing;
    if !b.isAlive {
      return;
    }
    rested, meal := BirdLive(b, world, preds, ants, d);
  }

  /** A perching bird can only lose energy by resting when it is already above the cap. */
  lemma RestingLowersOnlyAboveCap(e: real)
    ensures Min(RestEnergyCap, e + 0.1) < e <==> e > RestEnergyCap
  {
  }

  /**
   * Give birth: pay half the cost, restart the cooldown, and create a child
   * with a mutated gene near the parent, one generation later, with the
   * species' offspring energy. `childVelocity` is the parent's velocity
   * with jitter after the speed limit.
   */
  method Reproduce(b: Creature, m: MutationDraws, offX: real, offY: real, heading: Heading, childVelocity: Heading)
    returns (child: Creature)
    requires b.kind == Bird && Unit(offX) && Unit(offY)
    modifies b`energy, b`reproductionCooldown
    ensures b.energy == old(b.energy) - ReproductionCostOf(Bird) * 0.5
    ensures b.reproductionCooldown == ReproductionCooldown(Bird)
    ensures fresh(child) && child.kind == Bird && child.isAlive
    ensures child.gene == Mutate(b.gene, MutationRate, MutationAmount, m)
    ensures child.x == b.x + SpawnOffset(Bird, offX) && child.y == b.y + SpawnOffset(Bird, offY)
    ensures child.generation == b.generation + 1 && child.energy == OffspringEnergy(Bird)
    ensures child.vx == childVelocity.vx && child.vy == childVelocity.vy
    ensures child.reproductionCooldown == 0 && child.pregnancyTimer == 0 && child.flight == Flying
  {
    var cost := ReproductionCostOf(b.kind);
    b.energy := b.energy - cost * 0.5;
    b.reproductionCooldown := ReproductionCooldown(b.kind);
    var childGene := Mutate(b.gene, MutationRate, MutationAmount, m);
    child := NewBird(b.x + SpawnOffset(b.kind, offX), b.y + SpawnOffset(b.kind, offY), Some(childGene), heading);
    child.generation := b.generation + 1;
    child.energy := OffspringEnergy(b.kind);
    child.vx, child.vy := childVelocity.vx, childVelocity.vy;
  }
}

=== FILE: config.dfy ===
/**
 * Static configuration of the ecosystem: the global constants and the
 * per-species table. The simulation reads these once and never changes them.
 */
module Config {

  /** A value or its absence (the source's `null`). */
  datatype Option<T> = None | Some(value: T)

  /** The species a creature can be; `Unknown` stands for any other type name. */
  datatype Species = Ant | Bird | Anteater | Snake | Unknown

  /** A gene: the three heritable traits of a creature. */
  datatype Gene = Gene(speed: real, perception: real, size: real)

  /** A direction or velocity produced by steering code the model treats as opaque. */
  datatype Heading = Heading(vx: real, vy: real)

  // World
  const WorldWidth: real := 2000.0
  const WorldHeight: real := 1500.0

  // Food
  const FoodSpawnRate: real := 0.5
  const MaxFood: int := 120
  const FoodEnergy: real := 100.0

  // Energy
  const InitialEnergy: real := 200.0
  const MoveCost: real := 0.03
  const ReproductionThreshold: real := 180.0
  const ReproductionCost: real := 50.0

  // Evolution
  const MutationRate: real := 0.2
  const MutationAmount: real := 0.3

  // Pheromone
  const PheromoneDeposit: real := 10.0
  const PheromoneEvaporation: real := 0.995

  /** The four species that have an entry in the species table. */
  predicate Known(s: Species) {
    s != Unknown
  }

  /** Base drawing size of a species (the table's `size` entry). */
  function SpeciesSize(s: Species): real
    requires Known(s)
  {
    match s
    case Ant => 3.0
    case Bird => 8.0
    case Anteater => 20.0
    case Snake => 18.0
  }

  /** The species' base gene (the table's `baseGene` entry). */
  function BaseGene(s: Species): Gene
    requires Known(s)
  {
    match s
    case Ant => Gene(1.8, 60.0, 1.0)
    case Bird => Gene(5.0, 60.0, 3.0)
    case Anteater => Gene(3.0, 80.0, 8.0)
    case Snake => Gene(4.0, 80.0, 5.0)
  }

  /** The species listed as predators of `s` (the table's `predators` entry). */
  function PredatorsOf(s: Species): set<Species>
    requires Known(s)
  {
    match s
    case Ant => {Anteater, Bird}
    case Bird => {Snake}
    case Anteater => {}
    case Snake => {}
  }

  /** A value Math.random() can return. */
  predicate Unit(d: real) {
    0.0 <= d < 1.0
  }

  function Min(a: real, b: real): real { if a <= b then a else b }
  function Max(a: real, b: real): real { if a >= b then a else b }

  lemma MulMono(a: real, b: real, c: real)
    requires a <= b && c >= 0.0
    ensures a * c <= b * c
  {
  }

  lemma MulStrict(a: real, b: real, c: real)
    requires a < b && c > 0.0
    ensures a * c < b * c
  {
  }

  /** Squaring is monotone on non-negative reals. */
  lemma SquareMono(a: real, b: real)
    requires 0.0 <= a <= b
    ensures a * a <= b * b
  {
    MulMono(a, b, a);
    MulMono(a, b, b);
  }

  /** Scaling a non-negative amount by a factor in [0, 1] lands between 0 and the amount. */
  lemma ScaleDown(a: real, rate: real)
    requires 0.0 <= a && 0.0 <= rate <= 1.0
    ensures 0.0 <= a * rate <= a
  {
    MulMono(rate, 1.0, a);
  }
}

=== FILE: creature.dfy ===
/**
 * The creature base class. One Dafny class carries the common state of every
 * creature together with the extra fields of each species (ant, bird,
 * anteater, snake); `kind` says which species an object is, and the species
 * modules act only on the fields their species owns.
 */
module Creatures {
  import opened Config
  import opened Spatial
  import opened Genetics

  /** A bird's flight state. */
  datatype FlightState = Flying | Perching | TakingOff

  /** A snake's ambush state. */
  datatype SnakeState = Wander | Stopping | Ambush | Strike | Recover

  /** The divisor applied to the drawing size (each species' getSizeDivisor). */
  function SizeDivisor(s: Species): (d: real)
    ensures d >= 1.0
  {
    match s
    case Bird => 3.0
    case Anteater => 8.0
    case Snake => 5.0
    case _ => 1.0
  }

  /** Energy one tick of activity costs: a base charge, a speed² term and a size term. */
  function EnergyCost(g: Gene, base: real, speedFactor: real, sizeFactor: real): (cost: real)
    ensures base > 0.0 && speedFactor >= 0.0 && sizeFactor >= 0.0 && g.size >= 0.0 ==> cost > 0.0
    ensures speedFactor >= 0.0 && sizeFactor >= 0.0 && g.size >= 0.0 ==> cost >= MoveCost * base
  {
    MoveCost * base + g.speed * g.speed * speedFactor + g.size * sizeFactor
  }

  /** A larger body costs at least as much to run, other things equal. */
  lemma EnergyCostGrowsWithSize(g1: Gene, g2: Gene, base: real, speedFactor: real, sizeFactor: real)
    requires g1.speed == g2.speed && g1.size <= g2.size && sizeFactor >= 0.0
    ensures EnergyCost(g1, base, speedFactor, sizeFactor) <= EnergyCost(g2, base, speedFactor, sizeFactor)
  {
    MulMono(g1.size, g2.size, sizeFactor);
  }

  /** A faster creature costs at least as much to run, other things equal. */
  lemma EnergyCostGrowsWithSpeed(g1: Gene, g2: Gene, base: real, speedFactor: real, sizeFactor: real)
    requires 0.0 <= g1.speed <= g2.speed && g1.size == g2.size && speedFactor >= 0.0
    ensures EnergyCost(g1, base, speedFactor, sizeFactor) <= EnergyCost(g2, base, speedFactor, sizeFactor)
  {
    MulMono(g1.speed, g2.speed, g1.speed);
    MulMono(g1.speed, g2.speed, g2.speed);
    MulMono(g1.speed * g1.speed, g2.speed * g2.speed, speedFactor);
  }

  /** One tick of a countdown timer: positive values drop by one, others stay. */
  function Tick(t: int): (t': int)
    ensures t > 0 ==> t' == t - 1
    ensures t <= 0 ==> t' == t
    ensures t >= 0 ==> 0 <= t' <= t
  {
    if t > 0 then t - 1 else t
  }

  /** `n` ticks of a countdown timer. */
  function TickN(t: int, n: nat): int
    decreases n
  {
    if n == 0 then t else TickN(Tick(t), n - 1)
  }

  /** A non-negative timer after `n` ticks reads max(0, t - n): it runs down and then rests at zero. */
  lemma {:induction false} TickNRunsDown(t: int, n: nat)
    requires t >= 0
    ensures TickN(t, n) == if t - n > 0 then t - n else 0
    decreases n
  {
    if n > 0 {
      TickNRunsDown(Tick(t), n - 1);
    }
  }

  class Creature {
    const kind: Species
    const gene: Gene
    const size: real

    var x: real
    var y: real
    var vx: real
    var vy: real
    var energy: real
    var isAlive: bool
    var generation: int
    var reproductionCooldown: int
    var pregnancyTimer: int
    /** The tick loop's flag: set while pregnant, cleared after a birth. */
    var wasPregnant: bool

    // Ant state.
    var nestX: real
    var nestY: real
    var hasFood: bool
    var fleeTimer: int
    var isInsideNest: bool
    var stayInNestTimer: int

    // Bird and snake state machines (both keep a `stateTimer`).
    var flight: FlightState
    var stateTimer: real
    var fatigue: real

    // Predator stamina and hunting.
    var huntCooldown: int
    var energyHistory: seq<real>
    var historyTimer: int
    var energyDropRate: real
    var fatigueFactor: real
    var isHunting: bool

    // Snake ambush.
    var snakeState: SnakeState
    var strikeTarget: Creature?

    /** The timers and counters each species keeps within range. */
    predicate Valid()
      reads this
    {
      reproductionCooldown >= 0 && pregnancyTimer >= 0 &&
      fleeTimer >= 0 && stayInNestTimer >= 0 &&
      0.0 <= fatigue <= 100.0 &&
      huntCooldown >= 0 && |energyHistory| <= 5 && 0 <= historyTimer < 60 &&
      0.5 <= fatigueFactor <= 1.0
    }

    /**
     * A new creature of species `k` at (x0, y0): the given gene or the
     * species' base gene, the initial energy, alive, generation 0 and both
     * reproduction timers at 0. `heading` is the random unit direction.
     */
    constructor(x0: real, y0: real, k: Species, g: Option<Gene>, heading: Heading)
      requires Known(k)
      ensures kind == k && x == x0 && y == y0 && vx == heading.vx && vy == heading.vy
      ensures gene == (if g.Some? then g.value else BaseGene(k))
      ensures size == SpeciesSize(k) * gene.size / SizeDivisor(k)
      ensures energy == InitialEnergy && isAlive && generation == 0
      ensures reproductionCooldown == 0 && pregnancyTimer == 0 && !wasPregnant
      ensures !hasFood && fleeTimer == 0 && !isInsideNest && stayInNestTimer == 0
      ensures flight == Flying && stateTimer == 0.0 && fatigue == 0.0
      ensures huntCooldown == 0 && energyHistory == [] && historyTimer == 0
      ensures energyDropRate == 0.0 && fatigueFactor == 1.0 && !isHunting
      ensures snakeState == Wander && strikeTarget == null
      ensures Valid()
    {
      kind := k;
      var g' := if g.Some? then g.value else BaseGene(k);
      gene := g';
      size := SpeciesSize(k) * g'.size / SizeDivisor(k);
      x, y := x0, y0;
      vx, vy := heading.vx, heading.vy;
      energy := InitialEnergy;
      isAlive := true;
      generation := 0;
      reproductionCooldown, pregnancyTimer := 0, 0;
      wasPregnant := false;
      nestX, nestY := 0.0, 0.0;
      hasFood, fleeTimer, isInsideNest, stayInNestTimer := false, 0, false, 0;
      flight, stateTimer, fatigue := Flying, 0.0, 0.0;
      huntCooldown, energyHistory, historyTimer := 0, [], 0;
      energyDropRate, fatigueFactor, isHunting := 0.0, 1.0, false;
      snakeState, strikeTarget := Wander, null;
    }

    /** Advance along the velocity by gene speed times `multiplier`; only the position changes. */
    method Move(multiplier: real)
      modifies this`x, this`y
      ensures x == Advance(old(x), vx, Stride(gene.speed, multiplier))
      ensures y == Advance(old(y), vy, Stride(gene.speed, multiplier))
    {
      var speed := gene.speed * multiplier;
      x := x + vx * speed;
      y := y + vy * speed;
    }

    /**
     * Steer toward (tx, ty). Within distance 1 of the target the velocity is
     * left alone; farther away it becomes `steered`, the blended and
     * renormalised heading.
     */
    method MoveTowards(tx: real, ty: real, steered: Heading)
      modifies this`vx, this`vy
      ensures Dist2(tx, ty, x, y) <= 1.0 ==> vx == old(vx) && vy == old(vy)
      ensures Dist2(tx, ty, x, y) > 1.0 ==> vx == steered.vx && vy == steered.vy
    {
      if !WithinOrOn(Dist2(tx, ty, x, y), 1.0) {
        vx, vy := steered.vx, steered.vy;
      }
    }

    /**
     * Turn away from (tx, ty). Standing exactly on it leaves the velocity
     * alone; otherwise it becomes `steered`, the away heading with jitter.
     */
    method FleeFrom(tx: real, ty: real, steered: Heading)
      modifies this`vx, this`vy
      ensures Dist2(x, y, tx, ty) == 0.0 ==> vx == old(vx) && vy == old(vy)
      ensures Dist2(x, y, tx, ty) > 0.0 ==> vx == steered.vx && vy == steered.vy
    {
      if Dist2(x, y, tx, ty) > 0.0 {
        vx, vy := steered.vx, steered.vy;
      }
    }

    /** Pay one tick's energy cost; only the energy changes. */
    method ConsumeEnergy(base: real, speedFactor: real, sizeFactor: real)
      modifies this`energy
      ensures energy == old(energy) - EnergyCost(gene, base, speedFactor, sizeFactor)
    {
      var speedCost := gene.speed * gene.speed * speedFactor;
      var sizeCost := gene.size * sizeFactor;
      energy := energy - (MoveCost * base + speedCost + sizeCost);
    }

    /** Mark the creature dead; nothing else changes. */
    method Die()
      modifies this`isAlive
      ensures !isAlive
    {
      isAlive := false;
    }

    /** Count both reproduction timers down by one tick; a timer at zero stays there. */
    method UpdateReproductionTimers()
      modifies this`reproductionCooldown, this`pregnancyTimer
      ensures reproductionCooldown == Tick(old(reproductionCooldown))
      ensures pregnancyTimer == Tick(old(pregnancyTimer))
    {
      if reproductionCooldown > 0 {
        reproductionCooldown := reproductionCooldown - 1;
      }
      if pregnancyTimer > 0 {
        pregnancyTimer := pregnancyTimer - 1;
      }
    }

    /**
     * Whether the creature may start a pregnancy: never while pregnant, never
     * for an ant (ants only multiply through their nest), otherwise the
     * reproduction rule with the species threshold.
     */
    predicate CanReproduce()
      reads this
    {
      kind != Ant && pregnancyTimer <= 0 &&
      ReproductionAllowed(isAlive, reproductionCooldown, energy, kind, None)
    }

    /**
     * Start a pregnancy if allowed: pay half the species' cost and set the
     * pregnancy timer to the species' duration. Otherwise change nothing.
     */
    method StartPregnancy() returns (started: bool)
      modifies this`energy, this`pregnancyTimer
      ensures started == old(CanReproduce())
      ensures started ==> energy == old(energy) - ReproductionCostOf(kind) * 0.5
      ensures started ==> pregnancyTimer == PregnancyDuration(kind)
      ensures started ==> energy > ReproductionCostOf(kind) * 0.5
      ensures !started ==> energy == old(energy) && pregnancyTimer == old(pregnancyTimer)
    {
      if !CanReproduce() {
        return false;
      }
      ReproductionAffordable(energy, reproductionCooldown, kind);
      var cost := ReproductionCostOf(kind);
      energy := energy - cost * 0.5;
      pregnancyTimer := PregnancyDuration(kind);
      return true;
    }
  }

  /** A creature that may reproduce is not pregnant, alive, off cooldown and at or above its threshold. */
  lemma CanReproduceMeans(c: Creature)
    requires c.CanReproduce()
    ensures c.pregnancyTimer <= 0 && c.isAlive && c.reproductionCooldown <= 0
    ensures c.energy >= SpeciesThreshold(c.kind) && c.kind != Ant
  {
  }

  /** Squared distances from (px, py) to each creature, in list order. */
  function Dist2sTo(px: real, py: real, ts: seq<Creature>): (d: seq<real>)
    reads ts
    ensures |d| == |ts|
  {
    seq(|ts|, i requires 0 <= i < |ts| reads ts => Dist2(ts[i].x, ts[i].y, px, py))
  }

  /** One entry of `Dist2sTo`. */
  lemma Dist2sToAt(px: real, py: real, ts: seq<Creature>, i: int)
    requires 0 <= i < |ts|
    ensures Dist2sTo(px, py, ts)[i] == Dist2(ts[i].x, ts[i].y, px, py)
  {
  }

  /** Which creatures `findNearest` considers: the living ones, of an allowed species if a filter is given. */
  function Eligible(ts: seq<Creature>, filter: Option<set<Species>>): (ok: seq<bool>)
    reads ts
    ensures |ok| == |ts|
  {
    seq(|ts|, i requires 0 <= i < |ts| reads ts => ts[i].isAlive && (filter.None? || ts[i].kind in filter.value))
  }

  /** One entry of `Eligible`. */
  lemma EligibleAt(ts: seq<Creature>, filter: Option<set<Species>>, i: int)
    requires 0 <= i < |ts|
    ensures Eligible(ts, filter)[i] == (ts[i].isAlive && (filter.None? || ts[i].kind in filter.value))
  {
  }

  /** Which of `ts` a hunter at (x, y) can take: the living ones strictly within `radius`, in list order. */
  function PreyFlags(x: real, y: real, radius: real, ts: seq<Creature>): (ok: seq<bool>)
    reads ts
    ensures |ok| == |ts|
  {
    seq(|ts|, i requires 0 <= i < |ts| reads ts => ts[i].isAlive && Within(Dist2(ts[i].x, ts[i].y, x, y), radius))
  }

  /** One entry of `PreyFlags`: alive and strictly within the radius. */
  lemma PreyFlagsAt(x: real, y: real, radius: real, ts: seq<Creature>, i: int)
    requires 0 <= i < |ts|
    ensures PreyFlags(x, y, radius, ts)[i] == (ts[i].isAlive && Within(Dist2(ts[i].x, ts[i].y, x, y), radius))
  {
  }

  /**
   * The index of the first creature of `ts` that a hunter at (x, y) can
   * take, defined by walking the list; FirstInReachIsFirstPrey shows it is
   * the first true entry of PreyFlags.
   */
  function FirstInReach(x: real, y: real, radius: real, ts: seq<Creature>): Option<nat>
    reads ts
    decreases |ts|
  {
    if |ts| == 0 then None
    else if ts[0].isAlive && Within(Dist2(ts[0].x, ts[0].y, x, y), radius) then Some(0)
    else match FirstInReach(x, y, radius, ts[1..])
      case None => None
      case Some(k) => Some(k + 1)
  }

  /** The walk and the flags agree on which prey comes first. */
  lemma {:induction false} FirstInReachIsFirstPrey(x: real, y: real, radius: real, ts: seq<Creature>)
    ensures FirstInReach(x, y, radius, ts) == FirstTrue(PreyFlags(x, y, radius, ts))
    decreases |ts|
  {
    if |ts| > 0 {
      var flags := PreyFlags(x, y, radius, ts);
      FirstInReachIsFirstPrey(x, y, radius, ts[1..]);
      forall i | 0 <= i < |ts| - 1
        ensures flags[1..][i] == PreyFlags(x, y, radius, ts[1..])[i]
      {
        PreyFlagsAt(x, y, radius, ts, i + 1);
        PreyFlagsAt(x, y, radius, ts[1..], i);
      }
      assert flags[1..] == PreyFlags(x, y, radius, ts[1..]);
      PreyFlagsAt(x, y, radius, ts, 0);
    }
  }

  /**
   * The first creature of `ts`, in list order, that a hunter at (x, y) can
   * take: living and strictly within `radius`. Answers its index.
   */
  method FirstPrey(x: real, y: real, radius: real, ts: seq<Creature>) returns (k: Option<nat>)
    ensures k == FirstTrue(PreyFlags(x, y, radius, ts))
  {
    ghost var flags := PreyFlags(x, y, radius, ts);
    var i := 0;
    while i < |ts| && !(ts[i].isAlive && Within(Dist2(ts[i].x, ts[i].y, x, y), radius))
      invariant 0 <= i <= |ts|
      invariant forall j :: 0 <= j < i ==> !flags[j]
    {
      PreyFlagsAt(x, y, radius, ts, i);
      i := i + 1;
    }
    if i < |ts| {
      PreyFlagsAt(x, y, radius, ts, i);
      return Some(i);
    }
    return None;
  }

  /**
   * The nearest living creature of `ts` (passing the filter) strictly within
   * `maxDistance` of `c`: a running minimum that keeps the first of equally
   * near candidates. Answers an index into `ts`.
   */
  method FindNearest(c: Creature, ts: seq<Creature>, maxDistance: real, filter: Option<set<Species>>)
    returns (nearest: Option<nat>)
    ensures nearest == NearestIndex(Dist2sTo(c.x, c.y, ts), Eligible(ts, filter), maxDistance)
    ensures nearest.Some? ==> nearest.value < |ts| && ts[nearest.value].isAlive
  {
    ghost var d2s := Dist2sTo(c.x, c.y, ts);
    ghost var oks := Eligible(ts, filter);
    nearest := None;
    var minDist2 := 0.0;
    var i := 0;
    while i < |ts|
      invariant 0 <= i <= |ts|
      invariant nearest == NearestIndex(d2s[..i], oks[..i], maxDistance)
      invariant nearest.Some? ==> minDist2 == d2s[nearest.value]
    {
      NearestIndexStep(d2s, oks, maxDistance, i);
      Dist2sToAt(c.x, c.y, ts, i);
      EligibleAt(ts, filter, i);
      var t := ts[i];
      if t.isAlive && (filter.None? || t.kind in filter.value) {
        var d2 := Dist2(t.x, t.y, c.x, c.y);
        if (nearest.None? && Within(d2, maxDistance)) || (nearest.Some? && d2 < minDist2) {
          nearest := Some(i);
          minDist2 := d2;
        }
      }
      i := i + 1;
    }
    assert d2s[..i] == d2s && oks[..i] == oks;
    if nearest.Some? {
      EligibleAt(ts, filter, nearest.value);
    }
  }
}

=== FILE: death.dfy ===
/**
 * DeathUtils.handleDeath: a creature out of energy dies, and its corpse may
 * feed the world with up to three plants nearby.
 */
module Death {
  import opened Config
  import opened Genetics
  import opened Creatures
  import opened Worlds

  /** Draws for one corpse plant: its x and y offset draws. */
  predicate UnitPairs(offsets: seq<(real, real)>) {
    forall i :: 0 <= i < |offsets| ==> Unit(offsets[i].0) && Unit(offsets[i].1)
  }

  /**
   * If the creature has no energy left it dies; then, when a world is given
   * and `grow` < 0.8, CorpsePlantCount(`count`) plants are offered to the
   * world, each within 10 of the corpse (the world's cap may refuse some).
   * A creature with energy left is untouched and so is the world.
   */
  method HandleDeath(c: Creature, world: World?, grow: real, count: real, offsets: seq<(real, real)>)
    requires Unit(grow) && Unit(count) && |offsets| >= 3 && UnitPairs(offsets)
    modifies c`isAlive, (if world == null then {} else {world})`plants
    ensures ShouldDie(c.energy) ==> !c.isAlive
    ensures !ShouldDie(c.energy) ==> c.isAlive == old(c.isAlive)
    ensures world != null ==> |world.plants| >= old(|world.plants|) && world.plants[..old(|world.plants|)] == old(world.plants)
    ensures world != null && !(ShouldDie(c.energy) && grow < 0.8) ==> world.plants == old(world.plants)
    ensures world != null ==> |world.plants| <= old(|world.plants|) + CorpsePlantCount(count)
    ensures world != null && ShouldDie(c.energy) && grow < 0.8 ==>
      (old(|world.plants|) + CorpsePlantCount(count) <= world.maxPlants ==>
        |world.plants| == old(|world.plants|) + CorpsePlantCount(count))
    ensures world != null ==> forall i :: old(|world.plants|) <= i < |world.plants| ==>
      -10.0 <= world.plants[i].x - c.x < 10.0 && -10.0 <= world.plants[i].y - c.y < 10.0
  {
    if ShouldDie(c.energy) {
      c.isAlive := false;
      if world != null && grow < 0.8 {
        var n := CorpsePlantCount(count);
        ghost var before := world.plants;
        var i := 0;
        while i < n
          invariant 0 <= i <= n && !c.isAlive
          invariant |before| <= |world.plants| <= |before| + i
          invariant world.plants[..|before|] == before
          invariant |before| + n <= world.maxPlants ==> |world.plants| == |before| + i
          invariant forall j :: |before| <= j < |world.plants| ==>
            -10.0 <= world.plants[j].x - c.x < 10.0 && -10.0 <= world.plants[j].y - c.y < 10.0
        {
          var ox := CorpseOffset(offsets[i].0);
          var oy := CorpseOffset(offsets[i].1);
          var p := world.SpawnPlant(Some((c.x + ox, c.y + oy)), (0.0, 0.0));
          i := i + 1;
        }
      }
    }
  }
}

=== FILE: gene.dfy ===
/**
 * The gene system (GeneUtils), the reproduction tables (ReproductionUtils) and
 * the death predicate (DeathUtils.shouldDie). Everything here is a pure lookup
 * or expression; random draws arrive as parameters in [0, 1).
 */
module Genetics {
  import opened Config

  /** Gene used when a species has no entry in the species table. */
  const FallbackGene: Gene := Gene(1.0, 30.0, 1.0)

  /** The gene a creature of species `s` starts with when none is given. */
  function CreateDefaultGene(s: Species): (g: Gene)
    ensures Known(s) ==> g == BaseGene(s)
    ensures !Known(s) ==> g == FallbackGene
    ensures InBounds(g)
  {
    if Known(s) then BaseGene(s) else FallbackGene
  }

  // Per-field clamp bounds applied by mutation.
  const SpeedMin: real := 0.5
  const SpeedMax: real := 15.0
  const PerceptionMin: real := 10.0
  const PerceptionMax: real := 200.0
  const SizeMin: real := 0.3
  const SizeMax: real := 10.0

  /** Every field of `g` lies within its mutation bounds. */
  predicate InBounds(g: Gene) {
    SpeedMin <= g.speed <= SpeedMax &&
    PerceptionMin <= g.perception <= PerceptionMax &&
    SizeMin <= g.size <= SizeMax
  }

  /** The two draws one field's mutation consumes: whether it mutates, and by how much. */
  datatype FieldDraw = FieldDraw(select: real, amount: real)

  predicate ValidDraw(d: FieldDraw) {
    Unit(d.select) && Unit(d.amount)
  }

  /** The relative change a mutation applies: uniform in [-amount, amount). */
  function Change(d: FieldDraw, mutationAmount: real): real {
    (d.amount - 0.5) * 2.0 * mutationAmount
  }

  /**
   * One field's mutation: with probability `rate` the value is scaled by
   * 1 + change and clamped to [lo, hi]; otherwise it is returned as is.
   */
  function MutateValue(value: real, lo: real, hi: real, rate: real, mutationAmount: real, d: FieldDraw): (r: real)
    ensures d.select >= rate ==> r == value
    ensures d.select < rate && lo <= hi ==> lo <= r <= hi
    ensures d.select < rate && lo <= value * (1.0 + Change(d, mutationAmount)) <= hi ==>
      r == value * (1.0 + Change(d, mutationAmount))
    ensures lo <= value <= hi ==> lo <= r <= hi
  {
    if d.select < rate then
      Max(lo, Min(hi, value * (1.0 + Change(d, mutationAmount))))
    else
      value
  }

  /** The draws of one call to `mutate`, one pair per field. */
  datatype MutationDraws = MutationDraws(speed: FieldDraw, perception: FieldDraw, size: FieldDraw)

  predicate ValidMutationDraws(m: MutationDraws) {
    ValidDraw(m.speed) && ValidDraw(m.perception) && ValidDraw(m.size)
  }

  /** A child gene: each field of the parent mutated independently within its bounds. */
  function Mutate(parent: Gene, rate: real, mutationAmount: real, m: MutationDraws): (child: Gene)
    ensures m.speed.select >= rate ==> child.speed == parent.speed
    ensures m.perception.select >= rate ==> child.perception == parent.perception
    ensures m.size.select >= rate ==> child.size == parent.size
    ensures m.speed.select < rate ==> SpeedMin <= child.speed <= SpeedMax
    ensures m.perception.select < rate ==> PerceptionMin <= child.perception <= PerceptionMax
    ensures m.size.select < rate ==> SizeMin <= child.size <= SizeMax
    ensures InBounds(parent) ==> InBounds(child)
  {
    Gene(MutateValue(parent.speed, SpeedMin, SpeedMax, rate, mutationAmount, m.speed),
         MutateValue(parent.perception, PerceptionMin, PerceptionMax, rate, mutationAmount, m.perception),
         MutateValue(parent.size, SizeMin, SizeMax, rate, mutationAmount, m.size))
  }

  /** A mutation that never fires (every selection draw at or above the rate) copies the parent. */
  lemma MutateWithoutHitsCopies(parent: Gene, rate: real, mutationAmount: real, m: MutationDraws)
    requires m.speed.select >= rate && m.perception.select >= rate && m.size.select >= rate
    ensures Mutate(parent, rate, mutationAmount, m) == parent
  {
  }

  /** Lines of descent stay within bounds: repeated mutation from an in-bounds gene never leaves them. */
  lemma {:induction false} MutationChainInBounds(g: Gene, rate: real, mutationAmount: real, ms: seq<MutationDraws>)
    requires InBounds(g)
    ensures InBounds(MutateChain(g, rate, mutationAmount, ms))
    decreases |ms|
  {
    if |ms| > 0 {
      MutationChainInBounds(Mutate(g, rate, mutationAmount, ms[0]), rate, mutationAmount, ms[1..]);
    }
  }

  /** The gene after a line of `|ms|` generations, each mutating its parent's gene. */
  function MutateChain(g: Gene, rate: real, mutationAmount: real, ms: seq<MutationDraws>): Gene
    decreases |ms|
  {
    if |ms| == 0 then g else MutateChain(Mutate(g, rate, mutationAmount, ms[0]), rate, mutationAmount, ms[1..])
  }

  /** Crossover: each field comes from the first parent when its draw is below 0.5, else from the second. */
  function Crossover(g1: Gene, g2: Gene, d1: real, d2: real, d3: real): (child: Gene)
    ensures child.speed == g1.speed || child.speed == g2.speed
    ensures child.perception == g1.perception || child.perception == g2.perception
    ensures child.size == g1.size || child.size == g2.size
    ensures InBounds(g1) && InBounds(g2) ==> InBounds(child)
  {
    Gene(if d1 < 0.5 then g1.speed else g2.speed,
         if d2 < 0.5 then g1.perception else g2.perception,
         if d3 < 0.5 then g1.size else g2.size)
  }

  /** Crossing a gene with itself gives it back, whatever the draws. */
  lemma CrossoverIdempotent(g: Gene, d1: real, d2: real, d3: real)
    ensures Crossover(g, g, d1, d2, d3) == g
  {
  }

  /** The fitness weights of a species (the default row for species outside the table). */
  function FitnessWeights(s: Species): (w: Gene)
    ensures w.speed > 0.0 && w.perception > 0.0 && w.size > 0.0
    ensures w.speed + w.perception + w.size == 1.0
  {
    match s
    case Ant => Gene(0.3, 0.4, 0.3)
    case Bird => Gene(0.4, 0.3, 0.3)
    case Anteater => Gene(0.2, 0.5, 0.3)
    case Snake => Gene(0.3, 0.4, 0.3)
    case Unknown => Gene(0.33, 0.33, 0.34)
  }

  /** Weighted sum of the gene's fields, each normalised by the species' base gene. */
  function CalculateFitness(g: Gene, s: Species): real {
    var w := FitnessWeights(s);
    var b := CreateDefaultGene(s);
    g.speed / b.speed * w.speed + g.perception / b.perception * w.perception + g.size / b.size * w.size
  }

  /** A species' own base gene scores exactly 1, because each weight row sums to 1. */
  lemma FitnessOfBaseGene(s: Species)
    ensures CalculateFitness(CreateDefaultGene(s), s) == 1.0
  {
    var w := FitnessWeights(s);
    var b := CreateDefaultGene(s);
    assert b.speed / b.speed == 1.0 && b.perception / b.perception == 1.0 && b.size / b.size == 1.0;
  }

  /** A gene at least as large in every field scores at least as high. */
  lemma FitnessMonotone(g1: Gene, g2: Gene, s: Species)
    requires g1.speed <= g2.speed && g1.perception <= g2.perception && g1.size <= g2.size
    ensures CalculateFitness(g1, s) <= CalculateFitness(g2, s)
  {
    var w := FitnessWeights(s);
    var b := CreateDefaultGene(s);
    ScaledMono(g1.speed, g2.speed, b.speed, w.speed);
    ScaledMono(g1.perception, g2.perception, b.perception, w.perception);
    ScaledMono(g1.size, g2.size, b.size, w.size);
  }

  lemma ScaledMono(a: real, c: real, b: real, w: real)
    requires a <= c && b > 0.0 && w > 0.0
    ensures a / b * w <= c / b * w
  {
    assert a / b <= c / b;
    MulMono(a / b, c / b, w);
  }

  // ---------------------------------------------------------------- reproduction

  /** The energy a species needs before it may reproduce. */
  function SpeciesThreshold(s: Species): (t: real)
    ensures t >= ReproductionThreshold
  {
    match s
    case Ant => ReproductionThreshold
    case Bird => ReproductionThreshold * 1.2
    case Anteater => ReproductionThreshold * 1.8
    case Snake => ReproductionThreshold * 1.8
    case Unknown => ReproductionThreshold
  }

  /**
   * The threshold actually applied: an explicit threshold wins unless it is
   * absent or zero (both are falsy for `||`), then the species threshold.
   */
  function RequiredEnergy(s: Species, threshold: Option<real>): (t: real)
    ensures threshold.Some? && threshold.value != 0.0 ==> t == threshold.value
    ensures threshold.None? || threshold.value == 0.0 ==> t == SpeciesThreshold(s)
  {
    if threshold.Some? && threshold.value != 0.0 then threshold.value else SpeciesThreshold(s)
  }

  /** ReproductionUtils.canReproduce on a creature's state. */
  predicate ReproductionAllowed(isAlive: bool, cooldown: int, energy: real, s: Species, threshold: Option<real>) {
    isAlive && cooldown <= 0 && energy >= RequiredEnergy(s, threshold)
  }

  /**
   * Without an explicit threshold a living creature off cooldown may
   * reproduce exactly when its energy reaches its species' threshold, and
   * more energy never takes that permission away.
   */
  lemma SpeciesThresholdDecides(isAlive: bool, cooldown: int, energy: real, more: real, s: Species)
    ensures ReproductionAllowed(isAlive, cooldown, energy, s, None) <==>
      isAlive && cooldown <= 0 && energy >= SpeciesThreshold(s)
    ensures ReproductionAllowed(isAlive, cooldown, energy, s, None) && energy <= more ==>
      ReproductionAllowed(isAlive, cooldown, more, s, None)
  {
  }

  /** Frames to wait after a birth before the next pregnancy. */
  function ReproductionCooldown(s: Species): (n: int)
    ensures n > 0
    ensures !Known(s) ==> n == 600
  {
    match s
    case Ant => 300
    case Bird => 600
    case Anteater => 1200
    case Snake => 1200
    case Unknown => 600
  }

  /** Frames a pregnancy lasts. */
  function PregnancyDuration(s: Species): (n: int)
    ensures n > 0
    ensures !Known(s) ==> n == 300
  {
    match s
    case Ant => 180
    case Bird => 360
    case Anteater => 600
    case Snake => 480
    case Unknown => 300
  }

  /** Energy a parent spends on one offspring (half at conception, half at birth). */
  function ReproductionCostOf(s: Species): (c: real)
    ensures c >= ReproductionCost
  {
    match s
    case Ant => ReproductionCost
    case Bird => ReproductionCost * 1.2
    case Anteater => ReproductionCost * 2.0
    case Snake => ReproductionCost * 2.0
    case Unknown => ReproductionCost
  }

  /** A newborn's energy: 80% of what its parent spent. */
  function OffspringEnergy(s: Species): (e: real)
    ensures e * 5.0 == ReproductionCostOf(s) * 4.0
    ensures 0.0 < e < ReproductionCostOf(s)
  {
    ReproductionCostOf(s) * 0.8
  }

  /**
   * Reproduction never exhausts a parent: with the species' own threshold,
   * a parent allowed to reproduce still holds positive energy after paying
   * both halves of the cost.
   */
  lemma ReproductionAffordable(energy: real, cooldown: int, s: Species)
    requires ReproductionAllowed(true, cooldown, energy, s, None)
    ensures energy - ReproductionCostOf(s) > 0.0
  {
    assert SpeciesThreshold(s) - ReproductionCostOf(s) >= 130.0;
  }

  /** Range of the random birth offset along one axis. */
  function SpawnRange(s: Species): (r: real)
    ensures r > 0.0
    ensures !Known(s) ==> r == 25.0
  {
    match s
    case Ant => 20.0
    case Bird => 30.0
    case Anteater => 40.0
    case Snake => 50.0
    case Unknown => 25.0
  }

  /** The offset a draw in [0, 1) gives along one axis. */
  function SpawnOffset(s: Species, d: real): (o: real)
    requires Unit(d)
    ensures -SpawnRange(s) / 2.0 <= o < SpawnRange(s) / 2.0
  {
    (d - 0.5) * SpawnRange(s)
  }

  // ---------------------------------------------------------------- death

  /** DeathUtils.shouldDie: the creature has run out of energy. */
  predicate ShouldDie(energy: real) {
    energy <= 0.0
  }

  /** Plants a corpse grows into for a draw in [0, 1): one to three. */
  function CorpsePlantCount(d: real): (n: int)
    requires Unit(d)
    ensures 1 <= n <= 3
  {
    (d * 3.0).Floor + 1
  }

  /** Offset of a corpse plant along one axis: within 10 of the corpse. */
  function CorpseOffset(d: real): (o: real)
    requires Unit(d)
    ensures -10.0 <= o < 10.0
  {
    (d - 0.5) * 20.0
  }
}

=== FILE: pheromone.dfy ===
/**
 * The sparse pheromone field: a map from grid cell (row, col) to strength.
 * Deposits add and clamp to the maximum strength; evaporation scales every
 * stored cell and drops those that fall below 0.1, so storage stays
 * proportional to the active trails.
 */
module Pheromone {
  import opened Config

  /** A grid cell as the map key "row,col" names it. */
  type Cell = (int, int)

  /** One neighbour reported by the neighbourhood scan. */
  datatype CellInfo = CellInfo(row: int, col: int, strength: real, worldX: real, worldY: real)

  /** The answer of the strongest-direction query: a cell centre and its strength. */
  datatype Direction = Direction(x: real, y: real, strength: real)

  datatype Stats = Stats(totalStrength: real, activeCells: int)

  const MaxStrength: real := 255.0

  /** Cells whose strength falls below this after evaporation are deleted. */
  const Epsilon: real := 0.1

  /** `grid.get(key) || 0`: the stored strength, or 0 for an absent cell. */
  function Strength(g: map<Cell, real>, c: Cell): real {
    if c in g then g[c] else 0.0
  }

  /** Every stored strength lies in [0, MaxStrength]. */
  predicate Bounded(g: map<Cell, real>) {
    forall c :: c in g ==> 0.0 <= g[c] <= MaxStrength
  }

  /** The field after adding `amount` at cell `c`, clamped to MaxStrength. */
  function Deposited(g: map<Cell, real>, c: Cell, amount: real): (g': map<Cell, real>)
    ensures g'.Keys == g.Keys + {c}
    ensures Strength(g', c) == Min(MaxStrength, Strength(g, c) + amount)
    ensures forall c' :: c' != c ==> Strength(g', c') == Strength(g, c')
    ensures amount >= 0.0 && Strength(g, c) <= MaxStrength ==> Strength(g, c) <= Strength(g', c) <= MaxStrength
    ensures Bounded(g) && amount >= 0.0 ==> Bounded(g')
  {
    g[c := Min(MaxStrength, Strength(g, c) + amount)]
  }

  /** The field after one evaporation step at `rate`. */
  function Evaporated(g: map<Cell, real>, rate: real): (g': map<Cell, real>)
    ensures g'.Keys <= g.Keys
  {
    map c | c in g && g[c] * rate >= Epsilon :: g[c] * rate
  }

  /**
   * One evaporation step keeps exactly the cells whose scaled strength is at
   * least Epsilon, each holding its old strength times the rate.
   */
  lemma EvaporatedAt(g: map<Cell, real>, rate: real, c: Cell)
    ensures c in Evaporated(g, rate) <==> c in g && g[c] * rate >= Epsilon
    ensures c in Evaporated(g, rate) ==> Evaporated(g, rate)[c] == g[c] * rate
  {
  }

  /** For a rate in [0, 1] one cell never gets stronger and stays within bounds. */
  lemma EvaporationShrinksAt(g: map<Cell, real>, rate: real, c: Cell)
    requires Bounded(g) && 0.0 <= rate <= 1.0
    ensures 0.0 <= Strength(Evaporated(g, rate), c) <= Strength(g, c) <= MaxStrength
  {
    if c in Evaporated(g, rate) {
      EvaporatedAt(g, rate, c);
      ScaleDown(g[c], rate);
    }
  }

  /** For a rate in [0, 1] evaporation never makes a cell stronger and keeps the field bounded. */
  lemma EvaporationShrinks(g: map<Cell, real>, rate: real)
    requires Bounded(g) && 0.0 <= rate <= 1.0
    ensures Bounded(Evaporated(g, rate))
    ensures forall c :: Strength(Evaporated(g, rate), c) <= Strength(g, c)
  {
    var g' := Evaporated(g, rate);
    forall c
      ensures 0.0 <= Strength(g', c) <= Strength(g, c) <= MaxStrength
      ensures c in g' ==> 0.0 <= g'[c] <= MaxStrength
    {
      EvaporationShrinksAt(g, rate, c);
    }
  }

  /**
   * The field part-way through an evaporation pass: cells in `pending` still
   * hold their old strength, the others have been scaled or deleted.
   */
  ghost function PartlyEvaporated(g0: map<Cell, real>, rate: real, pending: set<Cell>): map<Cell, real> {
    map c | c in g0 && (c in pending || g0[c] * rate >= Epsilon) :: if c in pending then g0[c] else g0[c] * rate
  }

  lemma PartlyEvaporatedStart(g0: map<Cell, real>, rate: real)
    ensures PartlyEvaporated(g0, rate, g0.Keys) == g0
  {
  }

  lemma PartlyEvaporatedEnd(g0: map<Cell, real>, rate: real)
    ensures PartlyEvaporated(g0, rate, {}) == Evaporated(g0, rate)
  {
  }

  /** Processing one cell: scale it, or delete it when it falls below Epsilon. */
  function EvaporateCell(g: map<Cell, real>, key: Cell, rate: real): (g': map<Cell, real>)
    requires key in g
    ensures forall c :: c != key ==> (c in g' <==> c in g) && (c in g' ==> g'[c] == g[c])
    ensures key in g' <==> g[key] * rate >= Epsilon
    ensures key in g' ==> g'[key] == g[key] * rate
  {
    if g[key] * rate < Epsilon then g - {key} else g[key := g[key] * rate]
  }

  lemma PartlyEvaporatedStepAt(g0: map<Cell, real>, rate: real, pending: set<Cell>, key: Cell, c: Cell)
    requires pending <= g0.Keys && key in pending
    ensures key in PartlyEvaporated(g0, rate, pending)
    ensures var g, g' := PartlyEvaporated(g0, rate, pending), PartlyEvaporated(g0, rate, pending - {key});
      (c in g' <==> c in EvaporateCell(g, key, rate)) && (c in g' ==> g'[c] == EvaporateCell(g, key, rate)[c])
  {
    var g := PartlyEvaporated(g0, rate, pending);
    var g' := PartlyEvaporated(g0, rate, pending - {key});
    assert g[key] == g0[key];
    if c == key {
      if g0[key] * rate < Epsilon {
        assert c !in g';
      } else {
        assert c in g';
      }
    } else if c in g0 {
      assert c in g' <==> c in g;
    }
  }

  /** Processing one pending cell moves the pass one cell further. */
  lemma PartlyEvaporatedStep(g0: map<Cell, real>, rate: real, pending: set<Cell>, key: Cell)
    requires pending <= g0.Keys && key in pending
    ensures key in PartlyEvaporated(g0, rate, pending)
    ensures PartlyEvaporated(g0, rate, pending - {key}) == EvaporateCell(PartlyEvaporated(g0, rate, pending), key, rate)
  {
    var g := PartlyEvaporated(g0, rate, pending);
    var g' := PartlyEvaporated(g0, rate, pending - {key});
    forall c
      ensures c in g' <==> c in EvaporateCell(g, key, rate)
      ensures c in g' ==> g'[c] == EvaporateCell(g, key, rate)[c]
    {
      PartlyEvaporatedStepAt(g0, rate, pending, key, c);
    }
  }

  /** A strength scaled `n` times by the rate. */
  function Decay(s: real, rate: real, n: nat): real {
    if n == 0 then s else Decay(s, rate, n - 1) * rate
  }

  /** The field after `n` evaporation steps at the same rate. */
  function EvaporatedN(g: map<Cell, real>, rate: real, n: nat): map<Cell, real> {
    if n == 0 then g else Evaporated(EvaporatedN(g, rate, n - 1), rate)
  }

  /** One more evaporation step scales a surviving cell once more. */
  lemma EvaporatedNStep(g: map<Cell, real>, rate: real, n: nat, c: Cell)
    requires n > 0
    requires c in EvaporatedN(g, rate, n)
    requires c in g && EvaporatedN(g, rate, n - 1)[c] == Decay(g[c], rate, n - 1)
    ensures EvaporatedN(g, rate, n)[c] == Decay(g[c], rate, n)
  {
  }

  /** A cell that survives `n` evaporations was present before and now holds its initial strength scaled n times. */
  lemma {:induction false} EvaporatedNExact(g: map<Cell, real>, rate: real, n: nat, c: Cell)
    requires c in EvaporatedN(g, rate, n)
    ensures c in g && EvaporatedN(g, rate, n)[c] == Decay(g[c], rate, n)
  {
    if n > 0 {
      var prev := EvaporatedN(g, rate, n - 1);
      assert c in prev;
      EvaporatedNExact(g, rate, n - 1, c);
      EvaporatedNStep(g, rate, n, c);
    }
  }

  /** Scaling repeatedly by a rate in [0, 1] never increases a non-negative strength. */
  lemma {:induction false} DecayShrinks(s: real, rate: real, n: nat)
    requires 0.0 <= s && 0.0 <= rate <= 1.0
    ensures 0.0 <= Decay(s, rate, n) <= s
  {
    if n > 0 {
      var d := Decay(s, rate, n - 1);
      DecayShrinks(s, rate, n - 1);
      ScaleDown(d, rate);
      assert Decay(s, rate, n) == d * rate;
    }
  }

  /** With a rate in [0, 1] no cell of a bounded field grows over any number of evaporation steps. */
  lemma EvaporatedNShrinks(g: map<Cell, real>, rate: real, n: nat, c: Cell)
    requires Bounded(g) && 0.0 <= rate <= 1.0
    ensures Strength(EvaporatedN(g, rate, n), c) <= Strength(g, c)
  {
    if c in EvaporatedN(g, rate, n) {
      EvaporatedNExact(g, rate, n, c);
      DecayShrinks(g[c], rate, n);
    } else {
      assert Strength(g, c) >= 0.0;
    }
  }

  // ---------------------------------------------------------------------
  // The neighbourhood scan: offsets (dr, dc) in row-major order, centre skipped

  /** Offsets of row `dr` for columns -r .. c-1, the centre left out. */
  function RowPart(dr: int, r: int, c: int): seq<Cell>
    decreases c + r
  {
    if c <= -r then [] else RowPart(dr, r, c - 1) + (if dr == 0 && c - 1 == 0 then [] else [(dr, c - 1)])
  }

  /** Offsets of rows -r .. d-1. */
  function RowsBefore(r: int, d: int): seq<Cell>
    decreases d + r
  {
    if d <= -r then [] else RowsBefore(r, d - 1) + RowPart(d - 1, r, r + 1)
  }

  /** All offsets the scan of radius `r` visits, in the order it visits them. */
  function Offsets(r: int): seq<Cell> {
    RowsBefore(r, r + 1)
  }

  /** Lexicographic (row-major) order on offsets. */
  predicate Before(a: Cell, b: Cell) {
    a.0 < b.0 || (a.0 == b.0 && a.1 < b.1)
  }

  /** One more column: the row so far, then (dr, c-1) unless that is the centre. */
  lemma RowPartUnfold(dr: int, r: int, c: int)
    requires -r < c
    ensures RowPart(dr, r, c) == RowPart(dr, r, c - 1) + (if dr == 0 && c - 1 == 0 then [] else [(dr, c - 1)])
  {
  }

  lemma {:induction false} RowPartLength(dr: int, r: int, c: int)
    requires -r <= c <= r + 1
    ensures |RowPart(dr, r, c)| == (c + r) - (if dr == 0 && 0 < c then 1 else 0)
    decreases c + r
  {
    if -r < c {
      RowPartLength(dr, r, c - 1);
    }
  }

  lemma {:induction false} RowPartMembers(dr: int, r: int, c: int)
    ensures forall o :: o in RowPart(dr, r, c) ==> o.0 == dr && -r <= o.1 < c && o != (0, 0)
    decreases c + r
  {
    if -r < c {
      RowPartMembers(dr, r, c - 1);
      RowPartUnfold(dr, r, c);
    }
  }

  lemma {:induction false} RowPartOrdered(dr: int, r: int, c: int)
    ensures forall i, j :: 0 <= i < j < |RowPart(dr, r, c)| ==> RowPart(dr, r, c)[i].1 < RowPart(dr, r, c)[j].1
    decreases c + r
  {
    if -r < c {
      var prev := RowPart(dr, r, c - 1);
      RowPartOrdered(dr, r, c - 1);
      RowPartMembers(dr, r, c - 1);
      RowPartUnfold(dr, r, c);
      forall i | 0 <= i < |prev|
        ensures prev[i].1 < c - 1
      {
        assert prev[i] in prev;
      }
    }
  }

  lemma {:induction false} RowPartComplete(dr: int, r: int, c: int)
    ensures forall k :: -r <= k < c && (dr, k) != (0, 0) ==> (dr, k) in RowPart(dr, r, c)
    decreases c + r
  {
    if -r < c {
      RowPartComplete(dr, r, c - 1);
      RowPartUnfold(dr, r, c);
    }
  }

  /** Appending one row's offsets to the earlier rows. */
  lemma RowsBeforeUnfold(r: int, d: int)
    requires -r < d
    ensures RowsBefore(r, d) == RowsBefore(r, d - 1) + RowPart(d - 1, r, r + 1)
  {
  }

  lemma MulStep(a: int, w: int)
    ensures (a + 1) * w == a * w + w
  {
  }

  lemma {:induction false} RowsBeforeLength(r: int, d: int)
    requires 0 <= r && -r <= d <= r + 1
    ensures |RowsBefore(r, d)| == (d + r) * (2 * r + 1) - (if 0 < d then 1 else 0)
    decreases d + r
  {
    if -r < d {
      RowsBeforeUnfold(r, d);
      RowsBeforeLength(r, d - 1);
      RowPartLength(d - 1, r, r + 1);
      MulStep(d - 1 + r, 2 * r + 1);
    }
  }

  lemma {:induction false} RowsBeforeMembers(r: int, d: int)
    ensures forall o :: o in RowsBefore(r, d) ==> -r <= o.0 < d && -r <= o.1 <= r && o != (0, 0)
    decreases d + r
  {
    if -r < d {
      RowsBeforeUnfold(r, d);
      RowsBeforeMembers(r, d - 1);
      RowPartMembers(d - 1, r, r + 1);
    }
  }

  lemma {:induction false} RowsBeforeOrdered(r: int, d: int)
    ensures forall i, j :: 0 <= i < j < |RowsBefore(r, d)| ==> Before(RowsBefore(r, d)[i], RowsBefore(r, d)[j])
    decreases d + r
  {
    if -r < d {
      var prev := RowsBefore(r, d - 1);
      var row := RowPart(d - 1, r, r + 1);
      var all := RowsBefore(r, d);
      RowsBeforeUnfold(r, d);
      RowsBeforeOrdered(r, d - 1);
      RowsBeforeMembers(r, d - 1);
      RowPartMembers(d - 1, r, r + 1);
      RowPartOrdered(d - 1, r, r + 1);
      forall i, j | 0 <= i < j < |all|
        ensures Before(all[i], all[j])
      {
        if j < |prev| {
          assert all[i] == prev[i] && all[j] == prev[j];
        } else if i < |prev| {
          assert all[i] == prev[i] && prev[i] in prev;
          assert all[j] == row[j - |prev|] && row[j - |prev|] in row;
        } else {
          assert all[i] == row[i - |prev|] && all[j] == row[j - |prev|];
        }
      }
    }
  }

  lemma {:induction false} RowsBeforeComplete(r: int, d: int)
    ensures forall a, b :: -r <= a < d && -r <= b <= r && (a, b) != (0, 0) ==> (a, b) in RowsBefore(r, d)
    decreases d + r
  {
    if -r < d {
      var prev := RowsBefore(r, d - 1);
      var row := RowPart(d - 1, r, r + 1);
      RowsBeforeUnfold(r, d);
      RowsBeforeComplete(r, d - 1);
      RowPartComplete(d - 1, r, r + 1);
      forall a, b | -r <= a < d && -r <= b <= r && (a, b) != (0, 0)
        ensures (a, b) in RowsBefore(r, d)
      {
        if a < d - 1 {
          assert (a, b) in prev;
        } else {
          assert (a, b) in row;
        }
      }
    }
  }

  /** The scan of radius r >= 0 visits (2r+1)^2 - 1 offsets. */
  lemma OffsetsLength(r: int)
    requires r >= 0
    ensures |Offsets(r)| == (2 * r + 1) * (2 * r + 1) - 1
  {
    RowsBeforeLength(r, r + 1);
    SameProduct(r + 1 + r, 2 * r + 1, 2 * r + 1);
  }

  lemma SameProduct(a: int, b: int, w: int)
    requires a == b
    ensures a * w == b * w
  {
  }

  /** Every visited offset lies in the square of radius r and is not the centre. */
  lemma OffsetsMembers(r: int)
    ensures forall o :: o in Offsets(r) ==> -r <= o.0 <= r && -r <= o.1 <= r && o != (0, 0)
  {
    RowsBeforeMembers(r, r + 1);
  }

  /** Every offset of the square except the centre is visited. */
  lemma OffsetsComplete(r: int)
    ensures forall a, b :: -r <= a <= r && -r <= b <= r && (a, b) != (0, 0) ==> (a, b) in Offsets(r)
  {
    RowsBeforeComplete(r, r + 1);
  }

  /** Offsets are visited in strictly increasing row-major order, so none twice. */
  lemma OffsetsOrdered(r: int)
    ensures forall i, j :: 0 <= i < j < |Offsets(r)| ==> Before(Offsets(r)[i], Offsets(r)[j])
  {
    RowsBeforeOrdered(r, r + 1);
  }

  /** A negative radius visits nothing. */
  lemma OffsetsNegative(r: int)
    requires r < 0
    ensures Offsets(r) == []
  {
  }

  /** The report for the cell at (row, col). */
  function Info(g: map<Cell, real>, cellSize: real, row: int, col: int): CellInfo {
    CellInfo(row, col, Strength(g, (row, col)), (col as real + 0.5) * cellSize, (row as real + 0.5) * cellSize)
  }

  /** Reports for the cells at the given offsets from (row, col). */
  function Infos(g: map<Cell, real>, cellSize: real, row: int, col: int, offs: seq<Cell>): seq<CellInfo> {
    seq(|offs|, i requires 0 <= i < |offs| => Info(g, cellSize, row + offs[i].0, col + offs[i].1))
  }

  /** What the neighbourhood scan of radius `r` around (row, col) reports. */
  function Surrounding(g: map<Cell, real>, cellSize: real, row: int, col: int, r: int): seq<CellInfo> {
    Infos(g, cellSize, row, col, Offsets(r))
  }

  lemma InfosSnoc(g: map<Cell, real>, cellSize: real, row: int, col: int, offs: seq<Cell>, o: Cell)
    ensures Infos(g, cellSize, row, col, offs + [o]) == Infos(g, cellSize, row, col, offs) + [Info(g, cellSize, row + o.0, col + o.1)]
  {
  }

  /** The scan reports (2r+1)^2 - 1 cells for a radius r >= 0 and none for a negative one. */
  lemma SurroundingLength(g: map<Cell, real>, cellSize: real, row: int, col: int, r: int)
    ensures |Surrounding(g, cellSize, row, col, r)| == if r >= 0 then (2 * r + 1) * (2 * r + 1) - 1 else 0
  {
    if r >= 0 {
      OffsetsLength(r);
    }
  }

  /**
   * Each reported cell lies in the square of radius r around (row, col), is
   * not the centre, and carries its stored strength and the world
   * coordinates of its centre.
   */
  lemma SurroundingMembers(g: map<Cell, real>, cellSize: real, row: int, col: int, r: int)
    ensures forall info :: info in Surrounding(g, cellSize, row, col, r) ==>
      (info.row, info.col) != (row, col) &&
      row - r <= info.row <= row + r && col - r <= info.col <= col + r &&
      info.strength == Strength(g, (info.row, info.col)) &&
      info.worldX == (info.col as real + 0.5) * cellSize &&
      info.worldY == (info.row as real + 0.5) * cellSize
  {
    var offs := Offsets(r);
    var s := Surrounding(g, cellSize, row, col, r);
    OffsetsMembers(r);
    forall info | info in s
      ensures (info.row, info.col) != (row, col) && row - r <= info.row <= row + r && col - r <= info.col <= col + r
    {
      var i :| 0 <= i < |s| && s[i] == info;
      assert offs[i] in offs;
    }
  }

  /** Each cell of the square except the centre is reported. */
  lemma SurroundingComplete(g: map<Cell, real>, cellSize: real, row: int, col: int, r: int)
    ensures forall a, b :: -r <= a <= r && -r <= b <= r && (a, b) != (0, 0) ==>
      Info(g, cellSize, row + a, col + b) in Surrounding(g, cellSize, row, col, r)
  {
    var offs := Offsets(r);
    var s := Surrounding(g, cellSize, row, col, r);
    OffsetsComplete(r);
    forall a, b | -r <= a <= r && -r <= b <= r && (a, b) != (0, 0)
      ensures Info(g, cellSize, row + a, col + b) in s
    {
      var i :| 0 <= i < |offs| && offs[i] == (a, b);
      assert s[i] == Info(g, cellSize, row + a, col + b);
    }
  }

  // ---------------------------------------------------------------------
  // The strongest-direction query

  /** The index a strict-`>` maximum scan ends on: the first cell of maximal strength. */
  function FirstMax(cells: seq<CellInfo>): (k: nat)
    requires |cells| > 0
    ensures k < |cells|
    ensures forall j :: 0 <= j < |cells| ==> cells[j].strength <= cells[k].strength
    ensures forall j :: 0 <= j < k ==> cells[j].strength < cells[k].strength
  {
    if |cells| == 1 then 0
    else
      var n := |cells| - 1;
      var b := FirstMax(cells[..n]);
      if cells[n].strength > cells[b].strength then n else b
  }

  /** The query's answer for a list of neighbours: the first strongest, unless it is empty or has strength 0. */
  function Strongest(cells: seq<CellInfo>): Option<Direction> {
    if |cells| == 0 then None
    else
      var c := cells[FirstMax(cells)];
      if c.strength == 0.0 then None else Some(Direction(c.worldX, c.worldY, c.strength))
  }

  /** Over non-negative strengths the query answers none exactly when every neighbour is 0. */
  lemma StrongestNoneIffAllZero(cells: seq<CellInfo>)
    requires forall i :: 0 <= i < |cells| ==> cells[i].strength >= 0.0
    ensures Strongest(cells).None? <==> forall i :: 0 <= i < |cells| ==> cells[i].strength == 0.0
  {
    if |cells| > 0 {
      var k := FirstMax(cells);
      if cells[k].strength != 0.0 {
        assert cells[k].strength > 0.0;
      }
    }
  }

  /** With exactly one non-zero neighbour among non-negative ones, the query answers that neighbour. */
  lemma StrongestSingle(cells: seq<CellInfo>, k: nat)
    requires k < |cells| && cells[k].strength > 0.0
    requires forall i :: 0 <= i < |cells| && i != k ==> cells[i].strength == 0.0
    ensures Strongest(cells) == Some(Direction(cells[k].worldX, cells[k].worldY, cells[k].strength))
  {
  }

  // ---------------------------------------------------------------------
  // Statistics

  /** The sum of the strengths stored under `keys`. */
  ghost function SumOn(g: map<Cell, real>, keys: set<Cell>): real
    requires keys <= g.Keys
    decreases keys
  {
    if keys == {} then 0.0 else var c :| c in keys; g[c] + SumOn(g, keys - {c})
  }

  /** Any key may be taken out first. */
  lemma {:induction false} SumOnRemove(g: map<Cell, real>, keys: set<Cell>, c: Cell)
    requires keys <= g.Keys && c in keys
    ensures SumOn(g, keys) == g[c] + SumOn(g, keys - {c})
    decreases keys
  {
    var c' :| c' in keys && SumOn(g, keys) == g[c'] + SumOn(g, keys - {c'});
    if c' != c {
      SumOnRemove(g, keys - {c'}, c);
      SumOnRemove(g, keys - {c}, c');
      assert keys - {c'} - {c} == keys - {c} - {c'};
    }
  }

  /** In a bounded field the total lies between 0 and MaxStrength per stored cell. */
  lemma {:induction false} SumOnBounds(g: map<Cell, real>, keys: set<Cell>)
    requires keys <= g.Keys && Bounded(g)
    ensures 0.0 <= SumOn(g, keys) <= MaxStrength * |keys| as real
    decreases keys
  {
    if keys != {} {
      var c :| c in keys;
      SumOnRemove(g, keys, c);
      SumOnBounds(g, keys - {c});
    }
  }

  /** After an evaporation step the total is at least Epsilon per stored cell. */
  lemma {:induction false} SumOnAfterEvaporation(g: map<Cell, real>, keys: set<Cell>)
    requires keys <= g.Keys
    requires forall c :: c in g ==> g[c] >= Epsilon
    ensures SumOn(g, keys) >= Epsilon * |keys| as real
    decreases keys
  {
    if keys != {} {
      var c :| c in keys;
      SumOnRemove(g, keys, c);
      SumOnAfterEvaporation(g, keys - {c});
    }
  }

  // ---------------------------------------------------------------------

  /** Visiting column dc of row dr extends the report by that cell, unless it is the centre. */
  lemma ScanColumn(g: map<Cell, real>, cs: real, row: int, col: int, radius: int, dr: int, dc: int)
    requires -radius <= dc
    ensures Infos(g, cs, row, col, RowsBefore(radius, dr) + RowPart(dr, radius, dc + 1)) ==
      Infos(g, cs, row, col, RowsBefore(radius, dr) + RowPart(dr, radius, dc)) +
      (if dr == 0 && dc == 0 then [] else [Info(g, cs, row + dr, col + dc)])
  {
    var offs := RowsBefore(radius, dr) + RowPart(dr, radius, dc);
    RowPartUnfold(dr, radius, dc + 1);
    if dr == 0 && dc == 0 {
      assert RowsBefore(radius, dr) + RowPart(dr, radius, dc + 1) == offs;
    } else {
      assert RowsBefore(radius, dr) + RowPart(dr, radius, dc + 1) == offs + [(dr, dc)];
      InfosSnoc(g, cs, row, col, offs, (dr, dc));
    }
  }

  /** Finishing row dr: the rows before dr + 1 are those before dr followed by row dr. */
  lemma ScanRow(g: map<Cell, real>, cs: real, row: int, col: int, radius: int, dr: int)
    requires -radius <= dr
    ensures Infos(g, cs, row, col, RowsBefore(radius, dr + 1)) ==
      Infos(g, cs, row, col, RowsBefore(radius, dr) + RowPart(dr, radius, radius + 1))
  {
    RowsBeforeUnfold(radius, dr + 1);
  }

  /** The inner loop of the scan: the columns of row dr, appended to the report so far. */
  method ScanRowCells(g: map<Cell, real>, cs: real, row: int, col: int, radius: int, dr: int, s0: seq<CellInfo>)
    returns (s: seq<CellInfo>)
    requires -radius <= dr <= radius
    requires s0 == Infos(g, cs, row, col, RowsBefore(radius, dr))
    ensures s == Infos(g, cs, row, col, RowsBefore(radius, dr + 1))
  {
    s := s0;
    var dc := -radius;
    assert RowsBefore(radius, dr) + RowPart(dr, radius, dc) == RowsBefore(radius, dr);
    while dc <= radius
      invariant -radius <= dc <= radius + 1
      invariant s == Infos(g, cs, row, col, RowsBefore(radius, dr) + RowPart(dr, radius, dc))
    {
      ScanColumn(g, cs, row, col, radius, dr, dc);
      if !(dr == 0 && dc == 0) {
        s := s + [Info(g, cs, row + dr, col + dc)];
      }
      dc := dc + 1;
    }
    ScanRow(g, cs, row, col, radius, dr);
  }

  /**
   * The nested scan over rows dr, then columns dc, from -radius to radius,
   * skipping the centre, collecting the report of each cell it visits.
   */
  method ScanNeighbourhood(g: map<Cell, real>, cs: real, row: int, col: int, radius: int) returns (s: seq<CellInfo>)
    ensures s == Surrounding(g, cs, row, col, radius)
  {
    s := [];
    var dr := -radius;
    while dr <= radius
      invariant dr == -radius || -radius <= dr <= radius + 1
      invariant s == Infos(g, cs, row, col, RowsBefore(radius, dr))
    {
      s := ScanRowCells(g, cs, row, col, radius, dr, s);
      dr := dr + 1;
    }
  }

  class PheromoneGrid {
    const width: real
    const height: real
    const cellSize: real
    /** The sparse field; an absent cell has strength 0. */
    var grid: map<Cell, real>
    const evaporationRate: real
    const maxStrength: real

    ghost predicate Valid()
      reads this
    {
      cellSize > 0.0 && maxStrength == MaxStrength
    }

    constructor (width: real, height: real, cellSize: real)
      requires cellSize > 0.0
      ensures Valid()
      ensures this.width == width && this.height == height && this.cellSize == cellSize
      ensures grid == map[] && evaporationRate == PheromoneEvaporation
    {
      this.width := width;
      this.height := height;
      this.cellSize := cellSize;
      grid := map[];
      evaporationRate := PheromoneEvaporation;
      maxStrength := MaxStrength;
    }

    method InitGrid()
      modifies this`grid
      ensures grid == map[]
    {
      grid := map[];
    }

    /** The cell containing world point (x, y); negative coordinates are allowed. */
    function WorldToGrid(x: real, y: real): (cell: Cell)
      requires cellSize > 0.0
      ensures cell.1 as real * cellSize <= x < (cell.1 + 1) as real * cellSize
      ensures cell.0 as real * cellSize <= y < (cell.0 + 1) as real * cellSize
    {
      FloorDiv(x, cellSize);
      FloorDiv(y, cellSize);
      ((y / cellSize).Floor, (x / cellSize).Floor)
    }

    method Deposit(x: real, y: real, amount: real)
      requires Valid()
      modifies this`grid
      ensures grid == Deposited(old(grid), WorldToGrid(x, y), amount)
    {
      var key := WorldToGrid(x, y);
      var currentStrength := if key in grid then grid[key] else 0.0;
      grid := grid[key := Min(maxStrength, currentStrength + amount)];
    }

    method Evaporate(rate: real)
      modifies this`grid
      ensures grid == Evaporated(old(grid), rate)
    {
      ghost var g0 := grid;
      var pending := grid.Keys;
      PartlyEvaporatedStart(g0, rate);
      while pending != {}
        invariant pending <= g0.Keys
        invariant grid == PartlyEvaporated(g0, rate, pending)
        decreases pending
      {
        var key :| key in pending;
        PartlyEvaporatedStep(g0, rate, pending, key);
        grid := EvaporateCell(grid, key, rate);
        pending := pending - {key};
      }
      PartlyEvaporatedEnd(g0, rate);
    }

    function GetStrength(x: real, y: real): (s: real)
      requires cellSize > 0.0
      reads this`grid
      ensures WorldToGrid(x, y) !in grid ==> s == 0.0
      ensures WorldToGrid(x, y) in grid ==> s == grid[WorldToGrid(x, y)]
      ensures Bounded(grid) ==> 0.0 <= s <= MaxStrength
    {
      Strength(grid, WorldToGrid(x, y))
    }

    method GetSurroundingStrength(x: real, y: real, radius: int) returns (s: seq<CellInfo>)
      requires Valid()
      ensures s == Surrounding(grid, cellSize, WorldToGrid(x, y).0, WorldToGrid(x, y).1, radius)
    {
      var cell := WorldToGrid(x, y);
      s := ScanNeighbourhood(grid, cellSize, cell.0, cell.1, radius);
    }

    method GetStrongestDirection(x: real, y: real, radius: int) returns (d: Option<Direction>)
      requires Valid()
      ensures d == Strongest(Surrounding(grid, cellSize, WorldToGrid(x, y).0, WorldToGrid(x, y).1, radius))
    {
      var surrounding := GetSurroundingStrength(x, y, radius);
      if |surrounding| == 0 {
        return None;
      }
      var strongest := 0;
      for i := 0 to |surrounding|
        invariant i == 0 ==> strongest == 0
        invariant i > 0 ==> strongest == FirstMax(surrounding[..i])
      {
        if surrounding[i].strength > surrounding[strongest].strength {
          strongest := i;
        }
        assert surrounding[..i + 1][..i] == surrounding[..i];
      }
      assert surrounding[..|surrounding|] == surrounding;
      var c := surrounding[strongest];
      if c.strength == 0.0 {
        return None;
      }
      return Some(Direction(c.worldX, c.worldY, c.strength));
    }

    method GetStats() returns (st: Stats)
      ensures st.activeCells == |grid|
      ensures st.totalStrength == SumOn(grid, grid.Keys)
      ensures Bounded(grid) ==> 0.0 <= st.totalStrength <= MaxStrength * st.activeCells as real
    {
      var total := 0.0;
      var pending := grid.Keys;
      while pending != {}
        invariant pending <= grid.Keys
        invariant total + SumOn(grid, pending) == SumOn(grid, grid.Keys)
        decreases pending
      {
        var key :| key in pending;
        SumOnRemove(grid, pending, key);
        total := total + grid[key];
        pending := pending - {key};
      }
      if Bounded(grid) {
        SumOnBounds(grid, grid.Keys);
        assert |grid.Keys| == |grid|;
      }
      st := Stats(total, |grid|);
    }
  }

  /** `Math.floor(x / cs)` brackets x between consecutive multiples of cs. */
  lemma FloorDiv(x: real, cs: real)
    requires cs > 0.0
    ensures (x / cs).Floor as real * cs <= x < ((x / cs).Floor + 1) as real * cs
  {
    ScaledBracket((x / cs).Floor as real, x / cs, ((x / cs).Floor + 1) as real, cs, x);
  }

  /** Scaling `f <= q < g` by a positive `cs`, where `q * cs` is `x`. */
  lemma ScaledBracket(f: real, q: real, g: real, cs: real, x: real)
    requires f <= q < g && cs > 0.0 && q == x / cs
    ensures f * cs <= x < g * cs
  {
    MulMono(f, q, cs);
    MulStrict(q, g, cs);
    assert q * cs == x;
  }

}

=== FILE: predator.dfy ===
/**
 * Predators: the anteater, which hunts ants, and the snake, an ambush
 * hunter of birds. Both share a stamina monitor that tires a predator whose
 * energy falls fast, the catch rules with their cooldown, and reproduction.
 */
module Predators {
  import opened Config
  import opened Spatial
  import opened Genetics
  import opened Creatures

  /** A predator starts with 1.5 times the initial energy. */
  const PredatorEnergy: real := InitialEnergy * 1.5
  /** The stamina monitor records the energy once every this many ticks. */
  const SampleInterval: int := 60
  /** The stamina monitor keeps at most this many samples. */
  const HistoryLength: nat := 5
  /** An energy drop per sample above this tires the predator. */
  const HighStress: real := 3.0
  /** A snake lying in ambush strikes at birds within this distance. */
  const StrikeRange: real := 150.0

  predicate IsPredator(k: Species) {
    k == Anteater || k == Snake
  }

  /**
   * A new anteater or snake at (x, y): a creature of that species whose
   * energy is raised to PredatorEnergy, with an empty stamina history and a
   * snake in the wander state. `heading` is its random initial direction.
   */
  method NewPredator(x: real, y: real, k: Species, g: Option<Gene>, heading: Heading) returns (c: Creature)
    requires IsPredator(k)
    ensures fresh(c) && c.kind == k && c.x == x && c.y == y && c.vx == heading.vx && c.vy == heading.vy
    ensures c.gene == (if g.Some? then g.value else BaseGene(k))
    ensures c.energy == PredatorEnergy && c.isAlive && c.generation == 0
    ensures c.reproductionCooldown == 0 && c.pregnancyTimer == 0 && !c.wasPregnant
    ensures c.huntCooldown == 0 && c.energyHistory == [] && c.historyTimer == 0
    ensures c.energyDropRate == 0.0 && c.fatigueFactor == 1.0 && !c.isHunting
    ensures c.snakeState == Wander && c.stateTimer == 0.0 && c.strikeTarget == null
    ensures c.Valid()
  {
    c := new Creature(x, y, k, g, heading);
    c.energy := PredatorEnergy;
  }

  // ---------------------------------------------------------------- stamina

  /** The sample window after recording `e`: appended, the oldest dropped once there are more than five. */
  function PushSample(h: seq<real>, e: real): (h': seq<real>)
    ensures |h| < HistoryLength ==> h' == h + [e]
    ensures |h| == HistoryLength ==> h' == h[1..] + [e]
    ensures |h| <= HistoryLength ==> 0 < |h'| <= HistoryLength
    ensures |h'| > 0 && h'[|h'| - 1] == e
  {
    var h1 := h + [e];
    if |h1| > HistoryLength then
      assert h1[1..] == h[1..] + [e];
      h1[1..]
    else
      h1
  }

  /** Recording the samples `es` one after another into `h`. */
  function PushAll(h: seq<real>, es: seq<real>): seq<real>
    decreases |es|
  {
    if |es| == 0 then h else PushAll(PushSample(h, es[0]), es[1..])
  }

  /** The last `n` elements of `s` (all of `s` when it is shorter). */
  function LastN(s: seq<real>, n: nat): (t: seq<real>)
    ensures |t| == if |s| < n then |s| else n
  {
    if |s| <= n then s else s[|s| - n..]
  }

  /** Dropping the first element of a sequence longer than `n` keeps its last `n`. */
  lemma LastNDropFirst(s: seq<real>, n: nat)
    requires |s| > n
    ensures LastN(s[1..], n) == LastN(s, n)
  {
    assert s[1..][|s| - 1 - n..] == s[|s| - n..];
  }

  /** However many samples are recorded, the window holds exactly the five most recent. */
  lemma {:induction false} PushAllKeepsRecent(h: seq<real>, es: seq<real>)
    requires |h| <= HistoryLength
    ensures PushAll(h, es) == LastN(h + es, HistoryLength)
    decreases |es|
  {
    if |es| == 0 {
      assert h + es == h;
    } else {
      var h' := PushSample(h, es[0]);
      PushAllKeepsRecent(h', es[1..]);
      assert LastN(h' + es[1..], HistoryLength) == LastN(h + es, HistoryLength) by {
        assert h + es == (h + [es[0]]) + es[1..];
        if |h| == HistoryLength {
          assert h' + es[1..] == (h + es)[1..];
          LastNDropFirst(h + es, HistoryLength);
        }
      }
    }
  }

  /** The energy lost per sampling interval since the oldest sample. */
  function DropRate(h: seq<real>, e: real): real
    requires |h| >= 2
  {
    (h[0] - e) / (|h| - 1) as real
  }

  /**
   * The new fatigue factor for a drop rate: down by 0.1 (not below 0.5)
   * under high stress, up by 0.05 (not above 1) when the drop is below 1,
   * unchanged in between.
   */
  function FatigueAdjust(factor: real, rate: real): (f: real)
    ensures 0.5 <= factor <= 1.0 ==> 0.5 <= f <= 1.0
    ensures 0.5 <= factor && rate > HighStress ==> f <= factor
    ensures factor <= 1.0 && rate < 1.0 ==> f >= factor
    ensures 1.0 <= rate <= HighStress ==> f == factor
  {
    if rate > HighStress then Max(0.5, factor - 0.1)
    else if rate < 1.0 then Min(1.0, factor + 0.05)
    else factor
  }

  /** A sampling timer that starts in range samples once every SampleInterval calls. */
  function HistoryTimerStep(t: int): (t': int)
    ensures 0 <= t < SampleInterval ==> 0 <= t' < SampleInterval
    ensures 0 <= t < SampleInterval ==> (t' == 0 <==> t == SampleInterval - 1)
  {
    if t + 1 >= SampleInterval then 0 else t + 1
  }

  /** `n` calls of the sampling timer from `t`. */
  function HistoryTimerSteps(t: int, n: nat): int
    decreases n
  {
    if n == 0 then t else HistoryTimerSteps(HistoryTimerStep(t), n - 1)
  }

  /** From a fresh timer, the timer after `n` calls is `n` modulo the interval: a sample every 60th call. */
  lemma {:induction false} HistoryTimerCounts(n: nat)
    ensures HistoryTimerSteps(0, n) == n % SampleInterval
  {
    if n > 0 {
      HistoryTimerCounts(n - 1);
      StepsLast(0, n - 1);
    }
  }

  /** Taking one more call after `n` calls. */
  lemma {:induction false} StepsLast(t: int, n: nat)
    ensures HistoryTimerSteps(t, n + 1) == HistoryTimerStep(HistoryTimerSteps(t, n))
    decreases n
  {
    if n > 0 {
      StepsLast(HistoryTimerStep(t), n - 1);
    }
  }

  /**
   * One call of the stamina monitor. Every SampleInterval-th call the
   * current energy is recorded into the five-sample window and, once there
   * are two samples, the drop rate is measured and the fatigue factor
   * adjusted. The window never exceeds five samples and the factor stays
   * within [0.5, 1].
   */
  method UpdateStamina(c: Creature)
    modifies c`historyTimer, c`energyHistory, c`energyDropRate, c`fatigueFactor
    ensures c.historyTimer == HistoryTimerStep(old(c.historyTimer))
    ensures old(c.historyTimer) + 1 < SampleInterval ==>
      (c.energyHistory == old(c.energyHistory) && c.energyDropRate == old(c.energyDropRate) &&
       c.fatigueFactor == old(c.fatigueFactor))
    ensures old(c.historyTimer) + 1 >= SampleInterval ==> c.energyHistory == PushSample(old(c.energyHistory), c.energy)
    ensures old(c.historyTimer) + 1 >= SampleInterval && |c.energyHistory| >= 2 ==>
      (c.energyDropRate == DropRate(c.energyHistory, c.energy) &&
       c.fatigueFactor == FatigueAdjust(old(c.fatigueFactor), c.energyDropRate))
    ensures |c.energyHistory| < 2 ==> c.energyDropRate == old(c.energyDropRate) && c.fatigueFactor == old(c.fatigueFactor)
    ensures old(|c.energyHistory|) <= HistoryLength ==> |c.energyHistory| <= HistoryLength
    ensures old(0.5 <= c.fatigueFactor <= 1.0) ==> 0.5 <= c.fatigueFactor <= 1.0
  {
    c.historyTimer := c.historyTimer + 1;
    if c.historyTimer >= SampleInterval {
      c.historyTimer := 0;
      c.energyHistory := c.energyHistory + [c.energy];
      if |c.energyHistory| > HistoryLength {
        c.energyHistory := c.energyHistory[1..];
      }
      if |c.energyHistory| >= 2 {
        var oldest := c.energyHistory[0];
        c.energyDropRate := (oldest - c.energy) / (|c.energyHistory| - 1) as real;
        if c.energyDropRate > HighStress {
          c.fatigueFactor := Max(0.5, c.fatigueFactor - 0.1);
        } else if c.energyDropRate < 1.0 {
          c.fatigueFactor := Min(1.0, c.fatigueFactor + 0.05);
        }
      }
    }
  }

  // ---------------------------------------------------------------- catching

  /** The rest after a catch: 120 ticks for a predator now above PredatorEnergy, 10 otherwise. */
  function CatchCooldown(energy: real): (t: int)
    ensures 10 <= t <= 120
  {
    if energy > PredatorEnergy then 120 else 10
  }

  /** A better-fed predator rests at least as long after a catch. */
  lemma CatchCooldownMonotone(e1: real, e2: real)
    requires e1 <= e2
    ensures CatchCooldown(e1) <= CatchCooldown(e2)
  {
  }

  /**
   * Eat `prey`: a dead prey is refused and nothing changes; a living one
   * dies, the predator gains FoodEnergy * `gain` and rests for
   * CatchCooldown of its new energy.
   */
  method CatchPrey(c: Creature, prey: Creature, gain: real) returns (caught: bool)
    modifies c`energy, c`huntCooldown, prey`isAlive
    ensures caught == old(prey.isAlive)
    ensures !caught ==> c.energy == old(c.energy) && c.huntCooldown == old(c.huntCooldown) && !prey.isAlive
    ensures caught ==> !prey.isAlive && c.energy == old(c.energy) + FoodEnergy * gain
    ensures caught ==> c.huntCooldown == CatchCooldown(c.energy)
  {
    if !prey.isAlive {
      return false;
    }
    prey.Die();
    c.energy := c.energy + FoodEnergy * gain;
    if c.energy > PredatorEnergy {
      c.huntCooldown := 120;
    } else {
      c.huntCooldown := 10;
    }
    return true;
  }

  /**
   * Try to catch one prey: nothing while the hunt cooldown runs; otherwise
   * the first living prey in list order strictly within `radius` is eaten.
   * At most one prey is caught per call. Answers its index.
   */
  method CheckCatch(c: Creature, preys: seq<Creature>, radius: real, gain: real) returns (caught: Option<nat>)
    modifies c`energy, c`huntCooldown, preys`isAlive
    ensures old(c.huntCooldown) > 0 ==> caught.None?
    ensures old(c.huntCooldown) <= 0 ==> caught == old(FirstTrue(PreyFlags(c.x, c.y, radius, preys)))
    ensures caught.None? ==> c.energy == old(c.energy) && c.huntCooldown == old(c.huntCooldown)
    ensures caught.Some? ==>
      (caught.value < |preys| && !preys[caught.value].isAlive &&
       c.energy == old(c.energy) + FoodEnergy * gain && c.huntCooldown == CatchCooldown(c.energy))
    ensures forall i :: 0 <= i < |preys| && !(caught.Some? && preys[i] == preys[caught.value]) ==>
      preys[i].isAlive == old(preys[i].isAlive)
  {
    if c.huntCooldown > 0 {
      return None;
    }
    var hit := FirstPrey(c.x, c.y, radius, preys);
    if hit.Some? {
      var i := hit.value;
      var ok := CatchPrey(c, preys[i], gain);
      return Some(i);
    }
    return None;
  }

  /**
   * Give birth: pay half the species' cost, restart the cooldown, and
   * create a predator of the same species with a mutated gene near the
   * parent, one generation later, with the species' offspring energy.
   */
  method ReproduceChild(c: Creature, m: MutationDraws, offX: real, offY: real, heading: Heading)
    returns (child: Creature)
    requires IsPredator(c.kind) && Unit(offX) && Unit(offY)
    modifies c`energy, c`reproductionCooldown
    ensures c.energy == old(c.energy) - ReproductionCostOf(c.kind) * 0.5
    ensures c.reproductionCooldown == ReproductionCooldown(c.kind)
    ensures fresh(child) && child.kind == c.kind && child.isAlive
    ensures child.gene == Mutate(c.gene, MutationRate, MutationAmount, m)
    ensures child.x == c.x + SpawnOffset(c.kind, offX) && child.y == c.y + SpawnOffset(c.kind, offY)
    ensures child.generation == c.generation + 1 && child.energy == OffspringEnergy(c.kind)
    ensures child.reproductionCooldown == 0 && child.pregnancyTimer == 0 && child.huntCooldown == 0
    ensures child.Valid()
  {
    var cost := ReproductionCostOf(c.kind);
    c.energy := c.energy - cost * 0.5;
    c.reproductionCooldown := ReproductionCooldown(c.kind);
    var childGene := Mutate(c.gene, MutationRate, MutationAmount, m);
    child := NewPredator(c.x + SpawnOffset(c.kind, offX), c.y + SpawnOffset(c.kind, offY), c.kind, Some(childGene), heading);
    child.generation := c.generation + 1;
    child.energy := OffspringEnergy(c.kind);
  }

  // ---------------------------------------------------------------- anteater

  /** The opaque headings of an anteater tick: toward its target, or its smooth wander. */
  datatype AnteaterSteering = AnteaterSteering(hunt: Heading, wander: Heading)

  /**
   * The hunting half of an anteater tick: the hunt cooldown and the
   * reproduction timers run down; at cooldown 0 the nearest living ant
   * within perception becomes the target and the anteater steers toward
   * it, otherwise it wanders.
   */
  method AnteaterSeek(a: Creature, ants: seq<Creature>, steer: AnteaterSteering) returns (target: Option<nat>)
    modifies a`huntCooldown, a`reproductionCooldown, a`pregnancyTimer, a`isHunting, a`vx, a`vy
    ensures a.huntCooldown == Tick(old(a.huntCooldown))
    ensures a.reproductionCooldown == Tick(old(a.reproductionCooldown)) && a.pregnancyTimer == Tick(old(a.pregnancyTimer))
    ensures target == if a.huntCooldown == 0
      then old(NearestIndex(Dist2sTo(a.x, a.y, ants), Eligible(ants, None), a.gene.perception))
      else None
    ensures a.isHunting <==> target.Some?
    ensures target.Some? ==> target.value < |ants|
    ensures target.Some? && Dist2(ants[target.value].x, ants[target.value].y, a.x, a.y) > 1.0 ==>
      a.vx == steer.hunt.vx && a.vy == steer.hunt.vy
    ensures target.Some? && Dist2(ants[target.value].x, ants[target.value].y, a.x, a.y) <= 1.0 ==>
      a.vx == old(a.vx) && a.vy == old(a.vy)
    ensures target.None? ==> a.vx == steer.wander.vx && a.vy == steer.wander.vy
    ensures old(a.Valid()) ==> a.Valid()
  {
    // The target query reads no timer, so it may run first; its answer is used only at cooldown 0.
    var nearest := FindNearest(a, ants, a.gene.perception, None);
    if a.huntCooldown > 0 {
      a.huntCooldown := a.huntCooldown - 1;
    }
    a.UpdateReproductionTimers();
    a.isHunting := false;
    target := None;
    if a.huntCooldown == 0 {
      target := nearest;
    }
    if target.Some? {
      a.isHunting := true;
      var t := ants[target.value];
      a.MoveTowards(t.x, t.y, steer.hunt);
    } else {
      a.vx, a.vy := steer.wander.vx, steer.wander.vy;
    }
  }

  /** The anteater's speed multiplier: full speed while hunting, its fatigue factor otherwise. */
  function AnteaterPace(hunting: bool, fatigueFactor: real): (m: real)
    ensures 0.5 <= fatigueFactor <= 1.0 ==> 0.5 <= m <= 1.0
    ensures hunting ==> m == 1.0
  {
    if hunting then 1.0 else fatigueFactor
  }

  /**
   * The close of a predator tick: the stamina monitor runs, then the
   * creature pays the energy cost of moving with the given factors.
   */
  method Exert(c: Creature, base: real, speedFactor: real, sizeFactor: real)
    modifies c`historyTimer, c`energyHistory, c`energyDropRate, c`fatigueFactor, c`energy
    ensures c.energy == old(c.energy) - EnergyCost(c.gene, base, speedFactor, sizeFactor)
    ensures c.historyTimer == HistoryTimerStep(old(c.historyTimer))
    ensures old(|c.energyHistory|) <= HistoryLength ==> |c.energyHistory| <= HistoryLength
    ensures old(0.5 <= c.fatigueFactor <= 1.0) ==> 0.5 <= c.fatigueFactor <= 1.0
  {
    UpdateStamina(c);
    c.ConsumeEnergy(base, speedFactor, sizeFactor);
  }

  /**
   * The acting half of an anteater tick, after its move: try to catch an ant
   * within size + 5 for 40% of a plant's energy, update the stamina monitor
   * and pay the energy cost.
   */
  method AnteaterAct(a: Creature, ants: seq<Creature>) returns (caught: Option<nat>)
    requires a !in ants
    modifies a`energy, a`huntCooldown, a`historyTimer, a`energyHistory, a`energyDropRate, a`fatigueFactor
    modifies ants`isAlive
    ensures old(a.huntCooldown) > 0 ==> caught.None?
    ensures caught.Some? ==> caught.value < |ants| && !ants[caught.value].isAlive && a.huntCooldown > 0
    ensures caught.None? ==> a.huntCooldown == old(a.huntCooldown)
    ensures forall i :: 0 <= i < |ants| && !(caught.Some? && ants[i] == ants[caught.value]) ==>
      ants[i].isAlive == old(ants[i].isAlive)
    ensures old(a.huntCooldown) <= 0 ==> caught == old(FirstInReach(a.x, a.y, a.size + 5.0, ants))
    ensures a.energy == old(a.energy) + (if caught.Some? then FoodEnergy * 0.4 else 0.0) - EnergyCost(a.gene, 2.0, 0.005, 0.02)
    ensures old(|a.energyHistory|) <= HistoryLength ==> |a.energyHistory| <= HistoryLength
    ensures old(0.5 <= a.fatigueFactor <= 1.0) ==> 0.5 <= a.fatigueFactor <= 1.0
    ensures a.historyTimer == HistoryTimerStep(old(a.historyTimer))
    ensures old(a.Valid()) ==> a.Valid()
  {
    FirstInReachIsFirstPrey(a.x, a.y, a.size + 5.0, ants);
    caught := CheckCatch(a, ants, a.size + 5.0, 0.4);
    Exert(a, 2.0, 0.005, 0.02);
  }

  /**
   * One tick of a living anteater: it seeks (see AnteaterSeek), moves at
   * full speed while hunting and at its fatigue factor otherwise, then acts
   * (see AnteaterAct). Answers the index of the ant caught, if any.
   */
  method AnteaterLive(a: Creature, ants: seq<Creature>, steer: AnteaterSteering) returns (caught: Option<nat>)
    requires a !in ants
    modifies a`huntCooldown, a`reproductionCooldown, a`pregnancyTimer, a`isHunting, a`vx, a`vy, a`x, a`y
    modifies a`energy, a`historyTimer, a`energyHistory, a`energyDropRate, a`fatigueFactor, ants`isAlive
    ensures a.isHunting <==>
      Tick(old(a.huntCooldown)) == 0 &&
      old(NearestIndex(Dist2sTo(a.x, a.y, ants), Eligible(ants, None), a.gene.perception)).Some?
    ensures a.x == Advance(old(a.x), a.vx, Stride(a.gene.speed, AnteaterPace(a.isHunting, old(a.fatigueFactor))))
    ensures a.y == Advance(old(a.y), a.vy, Stride(a.gene.speed, AnteaterPace(a.isHunting, old(a.fatigueFactor))))
    ensures caught.Some? ==> Tick(old(a.huntCooldown)) <= 0 && caught.value < |ants| && !ants[caught.value].isAlive
    ensures caught.Some? ==> a.huntCooldown > 0
    ensures caught.None? ==> a.huntCooldown == Tick(old(a.huntCooldown))
    ensures var px, py := a.x, a.y;
      Tick(old(a.huntCooldown)) <= 0 ==> caught == old(FirstInReach(px, py, a.size + 5.0, ants))
    ensures forall i :: 0 <= i < |ants| && !(caught.Some? && ants[i] == ants[caught.value]) ==>
      ants[i].isAlive == old(ants[i].isAlive)
    ensures a.energy == old(a.energy) + (if caught.Some? then FoodEnergy * 0.4 else 0.0) - EnergyCost(a.gene, 2.0, 0.005, 0.02)
    ensures a.reproductionCooldown == Tick(old(a.reproductionCooldown))
    ensures a.pregnancyTimer == Tick(old(a.pregnancyTimer))
    ensures !a.isHunting ==> a.vx == steer.wander.vx && a.vy == steer.wander.vy
    ensures a.isHunting ==>
      var t := old(NearestIndex(Dist2sTo(a.x, a.y, ants), Eligible(ants, None), a.gene.perception)).value;
      t < |ants| &&
      (old(Dist2(ants[t].x, ants[t].y, a.x, a.y)) > 1.0 ==> a.vx == steer.hunt.vx && a.vy == steer.hunt.vy) &&
      (old(Dist2(ants[t].x, ants[t].y, a.x, a.y)) <= 1.0 ==> a.vx == old(a.vx) && a.vy == old(a.vy))
    ensures old(a.Valid()) ==> a.Valid()
  {
    var target := AnteaterSeek(a, ants, steer);
    a.Move(AnteaterPace(a.isHunting, a.fatigueFactor));
    caught := AnteaterAct(a, ants);
  }

  /** One anteater tick: a dead anteater does nothing, a living one runs AnteaterLive. */
  method AnteaterUpdate(a: Creature, ants: seq<Creature>, steer: AnteaterSteering) returns (caught: Option<nat>)
    requires a.kind == Anteater && a !in ants
    modifies a`huntCooldown, a`reproductionCooldown, a`pregnancyTimer, a`isHunting, a`vx, a`vy, a`x, a`y
    modifies a`energy, a`historyTimer, a`energyHistory, a`energyDropRate, a`fatigueFactor, ants`isAlive
    ensures !old(a.isAlive) ==> caught.None? && unchanged(a)
    ensures !old(a.isAlive) ==> forall i :: 0 <= i < |ants| ==> ants[i].isAlive == old(ants[i].isAlive)
    ensures old(a.isAlive) ==>
      (a.isHunting <==>
        Tick(old(a.huntCooldown)) == 0 &&
        old(NearestIndex(Dist2sTo(a.x, a.y, ants), Eligible(ants, None), a.gene.perception)).Some?)
    ensures old(a.isAlive) ==>
      (a.x == Advance(old(a.x), a.vx, Stride(a.gene.speed, AnteaterPace(a.isHunting, old(a.fatigueFactor)))) &&
       a.y == Advance(old(a.y), a.vy, Stride(a.gene.speed, AnteaterPace(a.isHunting, old(a.fatigueFactor)))))
    ensures caught.Some? ==> Tick(old(a.huntCooldown)) <= 0 && caught.value < |ants| && !ants[caught.value].isAlive
    ensures old(a.isAlive) && caught.Some? ==> a.huntCooldown > 0
    ensures old(a.isAlive) && caught.None? ==> a.huntCooldown == Tick(old(a.huntCooldown))
    ensures var px, py := a.x, a.y;
      old(a.isAlive) && Tick(old(a.huntCooldown)) <= 0 ==> caught == old(FirstInReach(px, py, a.size + 5.0, ants))
    ensures forall i :: 0 <= i < |ants| && !(caught.Some? && ants[i] == ants[caught.value]) ==>
      ants[i].isAlive == old(ants[i].isAlive)
    ensures old(a.isAlive) ==>
      a.energy == old(a.energy) + (if caught.Some? then FoodEnergy * 0.4 else 0.0) - EnergyCost(a.gene, 2.0, 0.005, 0.02)
    ensures old(a.isAlive) ==> a.reproductionCooldown == Tick(old(a.reproductionCooldown))
    ensures old(a.isAlive) ==> a.pregnancyTimer == Tick(old(a.pregnancyTimer))
    ensures old(a.isAlive) && !a.isHunting ==> a.vx == steer.wander.vx && a.vy == steer.wander.vy
    ensures old(a.isAlive) && a.isHunting ==>
      var t := old(NearestIndex(Dist2sTo(a.x, a.y, ants), Eligible(ants, None), a.gene.perception)).value;
      t < |ants| &&
      (old(Dist2(ants[t].x, ants[t].y, a.x, a.y)) > 1.0 ==> a.vx == steer.hunt.vx && a.vy == steer.hunt.vy) &&
      (old(Dist2(ants[t].x, ants[t].y, a.x, a.y)) <= 1.0 ==> a.vx == old(a.vx) && a.vy == old(a.vy))
    ensures old(a.Valid()) ==> a.Valid()
  {
    caught := None;
    if !a.isAlive {
      return;
    }
    caught := AnteaterLive(a, ants, steer);
  }

  // ---------------------------------------------------------------- snake

  /**
   * What a snake's ambush machine observes in one tick besides its state
   * and timer: a bird within strike range (in ambush), whether the strike
   * target still lives and whether the strike lands (in strike), and the
   * draws for the ambush and wander lengths.
   */
  datatype SnakeInput = SnakeInput(seen: bool, targetLive: bool, caught: bool, ambushDraw: real, wanderDraw: real)

  /**
   * The ambush machine's next state and timer from the state, the timer
   * before this tick's count-down, and the observation. Every state but
   * ambush-with-a-bird-in-range is left once its timer runs out.
   */
  function SnakeNext(st: SnakeState, timer: real, o: SnakeInput): (next: (SnakeState, real))
    ensures next.0 == st ==> next.1 == timer - 1.0 && next.1 > 0.0
    ensures next.0 == Strike ==> st == Strike || (st == Ambush && o.seen)
    ensures st == Ambush && o.seen ==> next == (Strike, 90.0)
    ensures next.0 == Ambush && st != Ambush ==> st == Stopping && (Unit(o.ambushDraw) ==> 200.0 <= next.1 < 500.0)
    ensures next.0 == Recover && st != Recover ==> st == Strike && (next.1 == 60.0 <==> !o.targetLive)
    ensures next.0 == Stopping && st != Stopping ==> st == Wander && next.1 == 60.0
    ensures st == Strike && o.caught && o.targetLive ==> next == (Recover, 120.0)
  {
    var t := timer - 1.0;
    match st
    case Wander => if t <= 0.0 then (Stopping, 60.0) else (Wander, t)
    case Stopping => if t <= 0.0 then (Ambush, 200.0 + o.ambushDraw * 300.0) else (Stopping, t)
    case Ambush =>
      if o.seen then (Strike, 90.0)
      else if t <= 0.0 then (Wander, 100.0 + o.wanderDraw * 200.0)
      else (Ambush, t)
    case Strike =>
      if !o.targetLive then (Recover, 60.0)
      else if o.caught || t <= 0.0 then (Recover, 120.0)
      else (Strike, t)
    case Recover => if t <= 0.0 then (Wander, 100.0) else (Recover, t)
  }

  /** Whether the machine stays in `st` through every observation of `os`, from timer `t`. */
  predicate StaysIn(st: SnakeState, t: real, os: seq<SnakeInput>)
    decreases |os|
  {
    |os| == 0 || (SnakeNext(st, t, os[0]).0 == st && StaysIn(st, SnakeNext(st, t, os[0]).1, os[1..]))
  }

  /** No state outlasts its timer: staying `n` > 0 ticks needs a timer above `n`, whatever is observed. */
  lemma {:induction false} NoStateOutlastsItsTimer(st: SnakeState, t: real, os: seq<SnakeInput>)
    requires StaysIn(st, t, os)
    ensures |os| > 0 ==> t > |os| as real
    decreases |os|
  {
    if |os| > 0 {
      NoStateOutlastsItsTimer(st, SnakeNext(st, t, os[0]).1, os[1..]);
    }
  }

  /** A snake's speed in each state; a stopping snake slows with the square of its remaining time. */
  function SnakeSpeed(st: SnakeState, timer: real, speed: real): (v: real)
    ensures speed >= 0.0 ==> v >= 0.0
    ensures st == Ambush ==> v == 0.0
  {
    match st
    case Ambush => 0.0
    case Stopping =>
      var p := Max(0.0, timer) / 60.0;
      var v := speed * 0.4 * (p * p);
      assert speed >= 0.0 ==> v >= 0.0 by {
        if speed >= 0.0 {
          MulMono(0.0, p * p, speed * 0.4);
        }
      }
      v
    case Strike => speed * 3.5
    case Recover => speed * 0.3
    case Wander => speed * 0.4
  }

  /** Stopping starts at the wandering speed and ends at the ambush's standstill. */
  lemma StoppingEasesIntoAmbush(speed: real)
    ensures SnakeSpeed(Stopping, 60.0, speed) == SnakeSpeed(Wander, 60.0, speed)
    ensures SnakeSpeed(Stopping, 0.0, speed) == SnakeSpeed(Ambush, 0.0, speed)
  {
  }

  /** A stopping snake never speeds up as its timer runs down. */
  lemma StoppingSlowsDown(t1: real, t2: real, speed: real)
    requires 0.0 <= t1 <= t2 && speed >= 0.0
    ensures SnakeSpeed(Stopping, t1, speed) <= SnakeSpeed(Stopping, t2, speed)
  {
    var p1, p2 := t1 / 60.0, t2 / 60.0;
    var k := speed * 0.4;
    SquareMono(p1, p2);
    MulMono(p1 * p1, p2 * p2, k);
    assert SnakeSpeed(Stopping, t1, speed) == k * (p1 * p1) <= k * (p2 * p2) == SnakeSpeed(Stopping, t2, speed);
  }

  /** No state is faster than the strike (for a stopping snake, once its 60-tick stop has begun). */
  lemma StrikeIsFastest(st: SnakeState, t: real, speed: real)
    requires speed >= 0.0 && (st == Stopping ==> t <= 60.0)
    ensures SnakeSpeed(st, t, speed) <= SnakeSpeed(Strike, t, speed)
  {
    if st == Stopping {
      var p := Max(0.0, t) / 60.0;
      var k := speed * 0.4;
      SquareMono(p, 1.0);
      MulMono(p * p, 1.0, k);
      assert SnakeSpeed(st, t, speed) == k * (p * p) <= k;
    }
  }

  /** Crawl one step along the velocity at the speed of the current state. */
  method SnakeMove(s: Creature)
    modifies s`x, s`y
    ensures s.x == Advance(old(s.x), s.vx, SnakeSpeed(s.snakeState, s.stateTimer, s.gene.speed))
    ensures s.y == Advance(old(s.y), s.vy, SnakeSpeed(s.snakeState, s.stateTimer, s.gene.speed))
  {
    var currentSpeed := SnakeSpeed(s.snakeState, s.stateTimer, s.gene.speed);
    s.x := s.x + s.vx * currentSpeed;
    s.y := s.y + s.vy * currentSpeed;
  }

  /**
   * Strike at `t`: within one strike step (3.5 times the gene speed) the
   * snake lands on the target and catches it for half a plant's energy,
   * then recovers for 120 ticks; farther away it steers toward it.
   */
  method HuntStrike(s: Creature, t: Creature, steer: Heading) returns (caught: bool)
    modifies s`x, s`y, s`vx, s`vy, s`energy, s`huntCooldown, s`snakeState, s`stateTimer, t`isAlive
    ensures caught <==> old(Within(Dist2(t.x, t.y, s.x, s.y), s.gene.speed * 3.5)) && old(t.isAlive)
    ensures old(Within(Dist2(t.x, t.y, s.x, s.y), s.gene.speed * 3.5)) ==>
      s.x == old(t.x) && s.y == old(t.y) && s.vx == old(s.vx) && s.vy == old(s.vy)
    ensures !old(Within(Dist2(t.x, t.y, s.x, s.y), s.gene.speed * 3.5)) ==> s.x == old(s.x) && s.y == old(s.y)
    ensures !old(Within(Dist2(t.x, t.y, s.x, s.y), s.gene.speed * 3.5)) && old(Dist2(t.x, t.y, s.x, s.y)) > 1.0 ==>
      s.vx == steer.vx && s.vy == steer.vy
    ensures old(Dist2(t.x, t.y, s.x, s.y)) <= 1.0 ==> s.vx == old(s.vx) && s.vy == old(s.vy)
    ensures caught ==>
      (!t.isAlive && s.snakeState == Recover && s.stateTimer == 120.0 &&
       s.energy == old(s.energy) + FoodEnergy * 0.5 && s.huntCooldown == CatchCooldown(s.energy))
    ensures !caught ==>
      (s.snakeState == old(s.snakeState) && s.stateTimer == old(s.stateTimer) &&
       s.energy == old(s.energy) && s.huntCooldown == old(s.huntCooldown))
    ensures !caught ==> t.isAlive == old(t.isAlive)
  {
    if Within(Dist2(t.x, t.y, s.x, s.y), s.gene.speed * 3.5) {
      s.x, s.y := t.x, t.y;
      caught := CatchPrey(s, t, 0.5);
      if caught {
        s.snakeState := Recover;
        s.stateTimer := 120.0;
      }
      return;
    }
    caught := false;
    s.MoveTowards(t.x, t.y, steer);
  }

  /**
   * The random inputs and opaque headings of one snake tick: the ambush and
   * wander length draws, the new heading after an ambush, the wandering
   * heading and the heading toward a strike target.
   */
  datatype SnakeDraws = SnakeDraws(ambush: real, wanderTime: real, heading: Heading, wander: Heading, strike: Heading)

  /**
   * Run the ambush machine one tick: the timer counts down, then the
   * current state acts (see SnakeNext for the transitions): a wandering
   * snake turns, a stopping one halts on entering the ambush, an ambushing
   * one picks the nearest living bird within StrikeRange, a striking one
   * hunts its target. Answers what it observed and the bird it picked.
   */
  method SnakeUpdateState(s: Creature, birds: seq<Creature>, d: SnakeDraws) returns (o: SnakeInput, target: Option<nat>)
    modifies s`snakeState, s`stateTimer, s`strikeTarget, s`vx, s`vy, s`x, s`y, s`energy, s`huntCooldown
    modifies (if s.strikeTarget == null then {} else {s.strikeTarget})`isAlive
    ensures (s.snakeState, s.stateTimer) == SnakeNext(old(s.snakeState), old(s.stateTimer), o)
    ensures o.ambushDraw == d.ambush && o.wanderDraw == d.wanderTime
    ensures target == if old(s.snakeState) == Ambush
      then old(NearestIndex(Dist2sTo(s.x, s.y, birds), Eligible(birds, None), StrikeRange))
      else None
    ensures o.seen <==> target.Some?
    ensures target.Some? ==> target.value < |birds| && s.strikeTarget == birds[target.value]
    ensures target.None? ==> s.strikeTarget == old(s.strikeTarget)
    ensures o.targetLive == (old(s.snakeState) == Strike && old(s.strikeTarget) != null && old(s.strikeTarget.isAlive))
    ensures o.caught == (o.targetLive &&
      old(Within(Dist2(s.strikeTarget.x, s.strikeTarget.y, s.x, s.y), s.gene.speed * 3.5)))
    ensures o.caught ==>
      (!old(s.strikeTarget).isAlive && s.x == old(s.strikeTarget.x) && s.y == old(s.strikeTarget.y) &&
       s.energy == old(s.energy) + FoodEnergy * 0.5 && s.huntCooldown == CatchCooldown(s.energy))
    ensures !o.caught ==>
      s.energy == old(s.energy) && s.huntCooldown == old(s.huntCooldown) && s.x == old(s.x) && s.y == old(s.y)
    ensures !o.caught && old(s.strikeTarget) != null ==> old(s.strikeTarget).isAlive == old(s.strikeTarget.isAlive)
    ensures old(s.snakeState) == Wander ==> s.vx == d.wander.vx && s.vy == d.wander.vy
    ensures old(s.snakeState) == Stopping && s.snakeState == Ambush ==> s.vx == 0.0 && s.vy == 0.0
    ensures old(s.snakeState) == Ambush && s.snakeState == Wander ==> s.vx == d.heading.vx && s.vy == d.heading.vy
    ensures old(s.snakeState) == Recover || (old(s.snakeState) == Stopping && s.snakeState == Stopping) ||
            (old(s.snakeState) == Ambush && s.snakeState != Wander) ==>
      s.vx == old(s.vx) && s.vy == old(s.vy)
    ensures old(s.snakeState) == Strike && !(o.targetLive && !o.caught) ==> s.vx == old(s.vx) && s.vy == old(s.vy)
    ensures o.targetLive && !o.caught ==>
      (old(Dist2(s.strikeTarget.x, s.strikeTarget.y, s.x, s.y)) > 1.0 ==> s.vx == d.strike.vx && s.vy == d.strike.vy) &&
      (old(Dist2(s.strikeTarget.x, s.strikeTarget.y, s.x, s.y)) <= 1.0 ==> s.vx == old(s.vx) && s.vy == old(s.vy))
  {
    target := None;
    // The bird query reads no timer, so it may run before the count-down.
    if s.snakeState == Ambush {
      target := FindNearest(s, birds, StrikeRange, None);
    }
    o := SnakeInput(target.Some?, false, false, d.ambush, d.wanderTime);
    s.stateTimer := s.stateTimer - 1.0;
    match s.snakeState
    case Wander =>
      s.vx, s.vy := d.wander.vx, d.wander.vy;
      if s.stateTimer <= 0.0 {
        s.snakeState, s.stateTimer := Stopping, 60.0;
      }
    case Stopping =>
      if s.stateTimer <= 0.0 {
        s.snakeState, s.stateTimer := Ambush, 200.0 + d.ambush * 300.0;
        s.vx, s.vy := 0.0, 0.0;
      }
    case Ambush =>
      if target.Some? {
        s.snakeState, s.stateTimer := Strike, 90.0;
        s.strikeTarget := birds[target.value];
      } else if s.stateTimer <= 0.0 {
        s.snakeState, s.stateTimer := Wander, 100.0 + d.wanderTime * 200.0;
        s.vx, s.vy := d.heading.vx, d.heading.vy;
      }
    case Strike =>
      var t := s.strikeTarget;
      if t != null && t.isAlive {
        var caught := HuntStrike(s, t, d.strike);
        o := o.(targetLive := true, caught := caught);
      } else {
        s.snakeState, s.stateTimer := Recover, 60.0;
      }
      if s.stateTimer <= 0.0 {
        s.snakeState, s.stateTimer := Recover, 120.0;
      }
    case Recover =>
      if s.stateTimer <= 0.0 {
        s.snakeState, s.stateTimer := Wander, 100.0;
      }
  }

  /**
   * The acting half of a snake tick: crawl at the state's speed, try to
   * catch a bird within size + 8 for half a plant's energy, and pay the
   * energy cost.
   */
  method SnakeAct(s: Creature, birds: seq<Creature>) returns (caught: Option<nat>)
    requires s !in birds
    modifies s`x, s`y, s`energy, s`huntCooldown, birds`isAlive
    ensures s.x == Advance(old(s.x), s.vx, SnakeSpeed(s.snakeState, s.stateTimer, s.gene.speed))
    ensures s.y == Advance(old(s.y), s.vy, SnakeSpeed(s.snakeState, s.stateTimer, s.gene.speed))
    ensures old(s.huntCooldown) > 0 ==> caught.None? && s.huntCooldown == old(s.huntCooldown)
    ensures caught.None? ==> s.huntCooldown == old(s.huntCooldown)
    ensures caught.Some? ==> caught.value < |birds| && !birds[caught.value].isAlive && s.huntCooldown > 0
    ensures s.energy == old(s.energy) + (if caught.Some? then FoodEnergy * 0.5 else 0.0) - EnergyCost(s.gene, 1.5, 0.004, 0.015)
    ensures var px, py := s.x, s.y;
      old(s.huntCooldown) <= 0 ==> caught == old(FirstInReach(px, py, s.size + 8.0, birds))
    ensures forall i :: 0 <= i < |birds| && !(caught.Some? && birds[i] == birds[caught.value]) ==>
      birds[i].isAlive == old(birds[i].isAlive)
  {
    SnakeMove(s);
    FirstInReachIsFirstPrey(s.x, s.y, s.size + 8.0, birds);
    caught := CheckCatch(s, birds, s.size + 8.0, 0.5);
    s.ConsumeEnergy(1.5, 0.004, 0.015);
  }

  /**
   * One snake tick. A dead snake does nothing. Otherwise the reproduction
   * timers run down, the ambush machine runs, the snake crawls at its
   * state's speed, tries to catch a bird within size + 8 for half a plant's
   * energy, and pays its energy cost. The hunt cooldown is never counted
   * down here, so once the snake has caught anything it can only catch
   * again by striking. Answers the machine's observation and the index of
   * the bird caught by the catch check, if any.
   */
  method SnakeUpdate(s: Creature, birds: seq<Creature>, d: SnakeDraws) returns (o: SnakeInput, caught: Option<nat>)
    requires s.kind == Snake && s !in birds
    modifies s`snakeState, s`stateTimer, s`strikeTarget, s`vx, s`vy, s`x, s`y, s`energy, s`huntCooldown
    modifies s`reproductionCooldown, s`pregnancyTimer, birds`isAlive
    modifies (if s.strikeTarget == null then {} else {s.strikeTarget})`isAlive
    ensures !old(s.isAlive) ==> unchanged(s) && caught.None? && !o.caught
    ensures !old(s.isAlive) ==> forall i :: 0 <= i < |birds| ==> birds[i].isAlive == old(birds[i].isAlive)
    ensures old(s.isAlive) ==> (s.snakeState, s.stateTimer) == SnakeNext(old(s.snakeState), old(s.stateTimer), o)
    ensures old(s.isAlive) ==> s.reproductionCooldown == Tick(old(s.reproductionCooldown))
    ensures old(s.huntCooldown) > 0 ==> s.huntCooldown > 0 && caught.None?
    ensures o.caught || caught.Some? ==> s.huntCooldown > 0
    ensures o.caught ==> caught.None?
    ensures caught.Some? ==> caught.value < |birds| && !birds[caught.value].isAlive
    ensures old(s.isAlive) ==>
      s.energy == old(s.energy) + (if o.caught || caught.Some? then FoodEnergy * 0.5 else 0.0)
                  - EnergyCost(s.gene, 1.5, 0.004, 0.015)
    ensures old(s.isAlive) && !o.caught ==>
      (s.x == Advance(old(s.x), s.vx, SnakeSpeed(s.snakeState, s.stateTimer, s.gene.speed)) &&
       s.y == Advance(old(s.y), s.vy, SnakeSpeed(s.snakeState, s.stateTimer, s.gene.speed)))
    ensures s.strikeTarget == old(s.strikeTarget) || s.strikeTarget in birds
    ensures var px, py := s.x, s.y;
      old(s.isAlive) && old(s.huntCooldown) <= 0 && !o.caught ==>
        caught == old(FirstInReach(px, py, s.size + 8.0, birds))
    ensures forall i :: 0 <= i < |birds| && !(caught.Some? && birds[i] == birds[caught.value]) &&
                        !(o.caught && birds[i] == old(s.strikeTarget)) ==>
      birds[i].isAlive == old(birds[i].isAlive)
    ensures old(s.isAlive) ==> s.pregnancyTimer == Tick(old(s.pregnancyTimer))
    ensures old(s.isAlive) ==>
      o.targetLive == (old(s.snakeState) == Strike && old(s.strikeTarget) != null && old(s.strikeTarget.isAlive))
    ensures old(s.isAlive) ==>
      o.caught == (o.targetLive && old(Within(Dist2(s.strikeTarget.x, s.strikeTarget.y, s.x, s.y), s.gene.speed * 3.5)))
    ensures old(s.isAlive) && o.caught ==>
      s.x == Advance(old(s.strikeTarget.x), s.vx, SnakeSpeed(s.snakeState, s.stateTimer, s.gene.speed)) &&
      s.y == Advance(old(s.strikeTarget.y), s.vy, SnakeSpeed(s.snakeState, s.stateTimer, s.gene.speed))
    ensures old(s.isAlive) && old(s.snakeState) == Wander ==> s.vx == d.wander.vx && s.vy == d.wander.vy
    ensures old(s.isAlive) && old(s.snakeState) == Stopping && s.snakeState == Ambush ==> s.vx == 0.0 && s.vy == 0.0
    ensures old(s.isAlive) && old(s.snakeState) == Ambush && s.snakeState == Wander ==>
      s.vx == d.heading.vx && s.vy == d.heading.vy
    ensures old(s.isAlive) &&
            (old(s.snakeState) == Recover || (old(s.snakeState) == Stopping && s.snakeState == Stopping) ||
             (old(s.snakeState) == Ambush && s.snakeState != Wander) ||
             (old(s.snakeState) == Strike && !(o.targetLive && !o.caught))) ==>
      s.vx == old(s.vx) && s.vy == old(s.vy)
    ensures old(s.isAlive) && o.targetLive && !o.caught ==>
      (old(Dist2(s.strikeTarget.x, s.strikeTarget.y, s.x, s.y)) > 1.0 ==> s.vx == d.strike.vx && s.vy == d.strike.vy) &&
      (old(Dist2(s.strikeTarget.x, s.strikeTarget.y, s.x, s.y)) <= 1.0 ==> s.vx == old(s.vx) && s.vy == old(s.vy))
  {
    caught := None;
    o := SnakeInput(false, false, false, d.ambush, d.wanderTime);
    if !s.isAlive {
      return;
    }
    s.UpdateReproductionTimers();
    var target;
    o, target := SnakeUpdateState(s, birds, d);
    caught := SnakeAct(s, birds);
  }
}

=== FILE: simulation.dfy ===
/**
 * The simulation loop: the list of creatures, the ant nests, the world and
 * the pheromone grid, and the tick that updates them in a fixed order —
 * plants, pheromone, every living creature, every nest, births, the purge
 * of the dead, and the generation counter. Also the placement of new
 * creatures by the user.
 */
module Simulation {
  import opened Config
  import opened Spatial
  import opened Genetics
  import opened Creatures
  import opened Worlds
  import opened Pheromone
  import opened Ants
  import opened Birds
  import opened Predators

  /** An ant placed by the user joins a nest strictly within this distance. */
  const NestJoinRadius: real := 100.0
  /** A delivering ant credits the nest strictly within this distance of its home position. */
  const CreditRadius: real := 20.0
  /** Width of the square around the click in which placed creatures land. */
  const SpawnScatter: real := 30.0
  /** Every species, for the purge. */
  const AllSpecies: set<Species> := {Ant, Bird, Anteater, Snake, Unknown}

  lemma EverySpeciesListed(s: Species)
    ensures s in AllSpecies
  {
  }

  /** Offset of a placed creature from the click along one axis, for a draw `d` in [0, 1). */
  function Scatter(d: real): real {
    (d - 0.5) * SpawnScatter
  }

  /** Placed creatures land within half the scatter width of the click. */
  lemma ScatterBounds(d: real)
    requires Unit(d)
    ensures -SpawnScatter / 2.0 <= Scatter(d) < SpawnScatter / 2.0
  {
    MulMono(-0.5, d - 0.5, SpawnScatter);
    MulStrict(d - 0.5, 0.5, SpawnScatter);
  }

  /** Squared distances from (x, y) to each nest, in list order. */
  function NestDist2s(nests: seq<AntNest>, x: real, y: real): (d: seq<real>)
    ensures |d| == |nests|
    ensures forall i :: 0 <= i < |nests| ==> d[i] == Dist2(nests[i].x, nests[i].y, x, y)
  {
    seq(|nests|, i requires 0 <= i < |nests| => Dist2(nests[i].x, nests[i].y, x, y))
  }

  /**
   * The creatures of `s` whose species is in `ks` and, when `living`, that
   * are alive, in their original order.
   */
  function Select(s: seq<Creature>, ks: set<Species>, living: bool): seq<Creature>
    reads s
    decreases |s|
  {
    if |s| == 0 then []
    else
      var r := Select(s[..|s| - 1], ks, living);
      var c := s[|s| - 1];
      if c.kind in ks && (!living || c.isAlive) then r + [c] else r
  }

  /** A creature is selected exactly when it is in the list and passes the filter. */
  lemma {:induction false} SelectMembers(s: seq<Creature>, ks: set<Species>, living: bool)
    ensures |Select(s, ks, living)| <= |s|
    ensures forall c :: c in Select(s, ks, living) <==> c in s && c.kind in ks && (!living || c.isAlive)
    decreases |s|
  {
    if |s| > 0 {
      var n := |s| - 1;
      SelectMembers(s[..n], ks, living);
      assert s == s[..n] + [s[n]];
    }
  }

  /** The largest generation in `s`, starting from 0. */
  function MaxGeneration(s: seq<Creature>): int
    reads s
    decreases |s|
  {
    if |s| == 0 then 0
    else
      var m := MaxGeneration(s[..|s| - 1]);
      if s[|s| - 1].generation > m then s[|s| - 1].generation else m
  }

  /** MaxGeneration bounds every generation, is never negative, and is 0 or attained. */
  lemma {:induction false} MaxGenerationIsMax(s: seq<Creature>)
    ensures MaxGeneration(s) >= 0
    ensures forall c :: c in s ==> c.generation <= MaxGeneration(s)
    ensures MaxGeneration(s) == 0 || exists c :: c in s && c.generation == MaxGeneration(s)
    decreases |s|
  {
    if |s| > 0 {
      var n := |s| - 1;
      MaxGenerationIsMax(s[..n]);
      assert s == s[..n] + [s[n]];
    }
  }

  /** No creature is listed twice: the last is not among the others, which are distinct in turn. */
  predicate Distinct(s: seq<Creature>)
    decreases |s|
  {
    |s| == 0 || (s[|s| - 1] !in s[..|s| - 1] && Distinct(s[..|s| - 1]))
  }

  /** Joining two lists without duplicates and without common members gives a list without duplicates. */
  lemma {:induction false} DistinctConcat(s: seq<Creature>, t: seq<Creature>)
    requires Distinct(s) && Distinct(t)
    requires forall k :: 0 <= k < |t| ==> t[k] !in s
    ensures Distinct(s + t)
    decreases |t|
  {
    if |t| == 0 {
      assert s + t == s;
    } else {
      var m := |t| - 1;
      DistinctConcat(s, t[..m]);
      assert (s + t)[..|s + t| - 1] == s + t[..m];
      assert (s + t)[|s + t| - 1] == t[m];
    }
  }

  /** In a list without duplicates, no creature recurs after its own place. */
  lemma {:induction false} DistinctAfter(s: seq<Creature>, i: nat)
    requires Distinct(s) && i < |s|
    ensures s[i] !in s[i + 1..]
    decreases |s|
  {
    var n := |s| - 1;
    if i < n {
      DistinctAfter(s[..n], i);
      assert s[i + 1..] == s[..n][i + 1..] + [s[n]];
    }
  }

  /** Filtering a list without duplicates leaves a list without duplicates. */
  lemma {:induction false} SelectDistinct(s: seq<Creature>, ks: set<Species>, living: bool)
    requires Distinct(s)
    ensures Distinct(Select(s, ks, living))
    decreases |s|
  {
    if |s| > 0 {
      var n := |s| - 1;
      assert Distinct(s[..n]);
      SelectDistinct(s[..n], ks, living);
      SelectMembers(s[..n], ks, living);
      var r := Select(s[..n], ks, living);
      if s[n].kind in ks && (!living || s[n].isAlive) {
        assert s[n] !in s[..n];
        assert s[n] !in r;
        DistinctConcat(r, [s[n]]);
      }
    }
  }

  /** A birth is due: a bird, anteater or snake whose pregnancy has run out with its flag still set. */
  predicate BirthDue(c: Creature)
    reads c
  {
    c.pregnancyTimer == 0 && c.wasPregnant && c.kind in {Bird, Anteater, Snake}
  }

  /** How many creatures of `s` have a birth due. */
  function BirthsDue(s: seq<Creature>): nat
    reads s
    decreases |s|
  {
    if |s| == 0 then 0
    else BirthsDue(s[..|s| - 1]) + (if BirthDue(s[|s| - 1]) then 1 else 0)
  }

  /** The draws one creature's tick consumes, whichever its species. */
  datatype StepDraws = StepDraws(ant: AntSteering, bird: BirdDraws, anteater: AnteaterSteering, snake: SnakeDraws)

  /** The draws a nest's tick consumes: the direction and heading of a spawned ant. */
  datatype NestDraws = NestDraws(dir: Heading, heading: Heading)

  /** The draws one birth consumes: mutation, spawn offsets and (for a bird) the child's velocity. */
  datatype BirthDraws = BirthDraws(m: MutationDraws, offX: real, offY: real, heading: Heading, velocity: Heading)

  predicate ValidBirthDraws(d: BirthDraws) {
    Unit(d.offX) && Unit(d.offY)
  }

  /** The objects the snakes among `s` are striking at. */
  function Targets(s: seq<Creature>): set<Creature>
    reads s
  {
    set c | c in s && c.strikeTarget != null :: c.strikeTarget
  }

  /**
   * Give birth if `c`'s species can: a bird, anteater or snake pays half
   * the cost and produces a mutated child beside it; an ant produces none.
   */
  method GiveBirth(c: Creature, d: BirthDraws) returns (child: Creature?)
    requires ValidBirthDraws(d)
    modifies c`energy, c`reproductionCooldown
    ensures child != null <==> c.kind in {Bird, Anteater, Snake}
    ensures child != null ==> fresh(child) && child.kind == c.kind && child.isAlive
    ensures child != null ==> child.generation == c.generation + 1
    ensures child != null ==> child.gene == Mutate(c.gene, MutationRate, MutationAmount, d.m)
    ensures child != null ==> c.energy == old(c.energy) - ReproductionCostOf(c.kind) * 0.5
    ensures child != null ==> c.reproductionCooldown == ReproductionCooldown(c.kind) && c.reproductionCooldown > 0
    ensures child == null ==> c.energy == old(c.energy) && c.reproductionCooldown == old(c.reproductionCooldown)
  {
    match c.kind
    case Bird =>
      child := Reproduce(c, d.m, d.offX, d.offY, d.heading, d.velocity);
    case Anteater =>
      child := ReproduceChild(c, d.m, d.offX, d.offY, d.heading);
    case Snake =>
      child := ReproduceChild(c, d.m, d.offX, d.offY, d.heading);
    case Ant =>
      child := null;
    case Unknown =>
      child := null;
  }

  /**
   * The reproduction step of one creature: a creature whose pregnancy ended
   * (timer 0, flag set) gives birth and clears the flag; then one that may
   * reproduce starts a pregnancy; the flag is set whenever a pregnancy runs.
   * A creature of no listed species has no birth step, only the rest.
   */
  method BirthStep(c: Creature, d: BirthDraws) returns (child: Creature?)
    requires ValidBirthDraws(d)
    modifies c`energy, c`reproductionCooldown, c`pregnancyTimer, c`wasPregnant
    ensures child != null <==> old(c.pregnancyTimer == 0 && c.wasPregnant) && c.kind in {Bird, Anteater, Snake}
    ensures child != null ==> fresh(child) && child.kind == c.kind && child.isAlive
    ensures child != null ==> child.generation == old(c.generation) + 1
    ensures child != null ==> child.gene == Mutate(c.gene, MutationRate, MutationAmount, d.m)
    ensures child != null ==> c.pregnancyTimer == 0 && !c.wasPregnant
    ensures c.pregnancyTimer > 0 ==> c.wasPregnant
    ensures c.pregnancyTimer != old(c.pregnancyTimer) ==> c.pregnancyTimer == PregnancyDuration(c.kind)
  {
    child := null;
    if c.pregnancyTimer == 0 && c.kind != Unknown && c.wasPregnant {
      child := GiveBirth(c, d);
      c.wasPregnant := false;
    }
    var started := c.StartPregnancy();
    if started {
      c.wasPregnant := true;
    }
    if c.pregnancyTimer > 0 {
      c.wasPregnant := true;
    }
  }

  /**
   * Every creature of `s` in turn takes its birth step; the children, in
   * the order of their parents, are returned. One is born for each creature
   * whose birth was due when the pass began.
   */
  method Births(s: seq<Creature>, births: seq<BirthDraws>) returns (newborns: seq<Creature>)
    requires Distinct(s) && forall c :: c in s ==> InBounds(c.gene)
    requires |births| >= |s| && forall k :: 0 <= k < |births| ==> ValidBirthDraws(births[k])
    modifies s
    ensures |newborns| == old(BirthsDue(s)) && |newborns| <= |s|
    ensures Distinct(newborns)
    ensures forall k :: 0 <= k < |newborns| ==>
      fresh(newborns[k]) && newborns[k].isAlive && InBounds(newborns[k].gene)
  {
    newborns := [];
    var i := 0;
    while i < |s|
      invariant 0 <= i <= |s|
      invariant |newborns| == old(BirthsDue(s[..i])) && |newborns| <= i
      invariant forall j :: i <= j < |s| ==>
        s[j].pregnancyTimer == old(s[j].pregnancyTimer) && s[j].wasPregnant == old(s[j].wasPregnant)
      invariant Distinct(newborns)
      invariant forall k :: 0 <= k < |newborns| ==>
        fresh(newborns[k]) && newborns[k].isAlive && InBounds(newborns[k].gene)
    {
      var c := s[i];
      assert InBounds(c.gene);
      assert s[..i + 1][..i] == s[..i];
      ghost var due := BirthDue(c);
      assert due == old(BirthDue(s[i]));
      DistinctAfter(s, i);
      var child := BirthStep(c, births[i]);
      if child != null {
        DistinctConcat(newborns, [child]);
        newborns := newborns + [child];
      }
      i := i + 1;
    }
    assert s[..i] == s;
  }

  class Ecosystem {
    var creatures: seq<Creature>
    var antNests: seq<AntNest>
    var generation: int
    const world: World
    const grid: PheromoneGrid

    /**
     * The grid is well formed, no creature is listed twice, every gene lies
     * within its mutation bounds and every nest is valid.
     */
    ghost predicate Valid()
      reads this, grid, antNests
    {
      grid.Valid() &&
      Distinct(creatures) &&
      (forall c :: c in creatures ==> InBounds(c.gene)) &&
      (forall n :: n in antNests ==> n.Valid())
    }

    /** A fresh game: no creatures, no nests, generation 0, a half-stocked world and an empty grid of 10-unit cells. */
    constructor(placed: seq<(real, real)>)
      requires |placed| >= MaxFood / 2
      ensures creatures == [] && antNests == [] && generation == 0
      ensures fresh(world) && |world.plants| == MaxFood / 2
      ensures fresh(grid) && grid.grid == map[] && grid.cellSize == 10.0
      ensures Valid()
    {
      creatures := [];
      antNests := [];
      generation := 0;
      var w := new World(WorldWidth, WorldHeight);
      w.Init(placed);
      world := w;
      grid := new PheromoneGrid(WorldWidth, WorldHeight, 10.0);
    }

    /** The nest an ant with home (nx, ny) credits: the nearest within CreditRadius. */
    function CreditedNest(nx: real, ny: real): Option<nat>
      reads this
    {
      NearestIndex(NestDist2s(antNests, nx, ny), AllTrue(|antNests|), CreditRadius)
    }

    /**
     * The nest strictly nearest to (x, y) and strictly within `maxDistance`:
     * a running minimum keeping the first of equally near nests.
     */
    method FindNearestNest(x: real, y: real, maxDistance: real) returns (nearest: Option<nat>)
      ensures nearest == NearestIndex(NestDist2s(antNests, x, y), AllTrue(|antNests|), maxDistance)
      ensures nearest.Some? ==> nearest.value < |antNests|
    {
      ghost var d2s := NestDist2s(antNests, x, y);
      ghost var oks := AllTrue(|antNests|);
      nearest := None;
      var minDist2 := 0.0;
      var i := 0;
      while i < |antNests|
        invariant 0 <= i <= |antNests|
        invariant nearest == NearestIndex(d2s[..i], oks[..i], maxDistance)
        invariant nearest.Some? ==> minDist2 == d2s[nearest.value]
      {
        NearestIndexStep(d2s, oks, maxDistance, i);
        var d2 := Dist2(antNests[i].x, antNests[i].y, x, y);
        if (nearest.None? && Within(d2, maxDistance)) || (nearest.Some? && d2 < minDist2) {
          nearest := Some(i);
          minDist2 := d2;
        }
        i := i + 1;
      }
      assert d2s[..i] == d2s && oks[..i] == oks;
    }

    /**
     * Place an ant at (x, y): it joins the nearest nest within
     * NestJoinRadius, or founds a new nest at its own position. Answers the
     * index of its nest.
     */
    method SpawnAnt(x: real, y: real, heading: Heading) returns (nest: nat)
      requires Valid()
      modifies this`antNests, this`creatures
      ensures Valid()
      ensures var near := NearestIndex(NestDist2s(old(antNests), x, y), AllTrue(|old(antNests)|), NestJoinRadius);
        if near.Some? then antNests == old(antNests) && nest == near.value
        else nest == |old(antNests)| && |antNests| == nest + 1 && antNests[..nest] == old(antNests) &&
             fresh(antNests[nest]) && antNests[nest].foodStored == 0
      ensures nest < |antNests| && Within(Dist2(antNests[nest].x, antNests[nest].y, x, y), NestJoinRadius)
      ensures |creatures| == |old(creatures)| + 1 && creatures[..|old(creatures)|] == old(creatures)
      ensures var a := creatures[|creatures| - 1];
        fresh(a) && a.kind == Ant && a.isAlive && a.x == x && a.y == y &&
        a.nestX == antNests[nest].x && a.nestY == antNests[nest].y
    {
      var near := FindNearestNest(x, y, NestJoinRadius);
      if near.Some? {
        nest := near.value;
      } else {
        var n := new AntNest(x, y);
        antNests := antNests + [n];
        nest := |antNests| - 1;
        assert antNests[..nest] == old(antNests);
      }
      var a := NewAnt(x, y, antNests[nest].x, antNests[nest].y, None, heading);
      assert InBounds(CreateDefaultGene(Ant));
      creatures := creatures + [a];
    }

    /** Place one creature of species `kind` at (x, y); nothing for a species the table does not list. */
    method SpawnOne(x: real, y: real, kind: Species, heading: Heading)
      requires Valid()
      modifies this`creatures, this`antNests
      ensures Valid()
      ensures |creatures| == |old(creatures)| + (if Known(kind) then 1 else 0)
      ensures creatures[..|old(creatures)|] == old(creatures)
      ensures Known(kind) ==>
        var c := creatures[|creatures| - 1];
        fresh(c) && c.kind == kind && c.isAlive && c.x == x && c.y == y
      ensures |old(antNests)| <= |antNests| && antNests[..|old(antNests)|] == old(antNests)
      ensures kind != Ant ==> antNests == old(antNests)
    {
      match kind {
        case Ant =>
          var nest := SpawnAnt(x, y, heading);
        case Bird =>
          var b := NewBird(x, y, None, heading);
          assert InBounds(CreateDefaultGene(Bird));
          creatures := creatures + [b];
        case Anteater =>
          var c := NewPredator(x, y, Anteater, None, heading);
          assert InBounds(CreateDefaultGene(Anteater));
          creatures := creatures + [c];
        case Snake =>
          var c := NewPredator(x, y, Snake, None, heading);
          assert InBounds(CreateDefaultGene(Snake));
          creatures := creatures + [c];
        case Unknown =>
      }
    }

    /**
     * Place `|offsets|` creatures of species `kind` around the click at
     * (x, y), each shifted by its scatter draws; nothing for a species the
     * table does not list.
     */
    method SpawnCreature(x: real, y: real, kind: Species, offsets: seq<(real, real)>, headings: seq<Heading>)
      requires Valid()
      requires |headings| == |offsets|
      requires forall k :: 0 <= k < |offsets| ==> Unit(offsets[k].0) && Unit(offsets[k].1)
      modifies this`creatures, this`antNests
      ensures Valid()
      ensures |creatures| == |old(creatures)| + (if Known(kind) then |offsets| else 0)
      ensures creatures[..|old(creatures)|] == old(creatures)
      ensures forall k :: |old(creatures)| <= k < |creatures| ==>
        fresh(creatures[k]) && creatures[k].kind == kind && creatures[k].isAlive &&
        x - SpawnScatter / 2.0 <= creatures[k].x < x + SpawnScatter / 2.0 &&
        y - SpawnScatter / 2.0 <= creatures[k].y < y + SpawnScatter / 2.0
      ensures |old(antNests)| <= |antNests| && antNests[..|old(antNests)|] == old(antNests)
      ensures kind != Ant ==> antNests == old(antNests)
    {
      var n0 := |creatures|;
      var i := 0;
      while i < |offsets|
        invariant 0 <= i <= |offsets|
        invariant Valid()
        invariant |creatures| == n0 + (if Known(kind) then i else 0)
        invariant creatures[..n0] == old(creatures)
        invariant forall k :: n0 <= k < |creatures| ==>
          fresh(creatures[k]) && creatures[k].kind == kind && creatures[k].isAlive &&
          x - SpawnScatter / 2.0 <= creatures[k].x < x + SpawnScatter / 2.0 &&
          y - SpawnScatter / 2.0 <= creatures[k].y < y + SpawnScatter / 2.0
        invariant |old(antNests)| <= |antNests| && antNests[..|old(antNests)|] == old(antNests)
        invariant kind != Ant ==> antNests == old(antNests)
      {
        ScatterBounds(offsets[i].0);
        ScatterBounds(offsets[i].1);
        var sx := x + Scatter(offsets[i].0);
        var sy := y + Scatter(offsets[i].1);
        ghost var before, nestsBefore := creatures, antNests;
        SpawnOne(sx, sy, kind, headings[i]);
        assert creatures[..n0] == before[..n0];
        assert antNests[..|old(antNests)|] == nestsBefore[..|old(antNests)|];
        i := i + 1;
      }
    }

    /**
     * The creatures whose species is in `ks` and, when `living`, that are
     * alive, in list order.
     */
    method Gather(ks: set<Species>, living: bool) returns (r: seq<Creature>)
      ensures r == Select(creatures, ks, living)
      ensures forall c :: c in r <==> c in creatures && c.kind in ks && (!living || c.isAlive)
    {
      r := [];
      var i := 0;
      while i < |creatures|
        invariant 0 <= i <= |creatures|
        invariant r == Select(creatures[..i], ks, living)
      {
        assert creatures[..i + 1][..i] == creatures[..i];
        var c := creatures[i];
        if c.kind in ks && (!living || c.isAlive) {
          r := r + [c];
        }
        i := i + 1;
      }
      assert creatures[..i] == creatures;
      SelectMembers(creatures, ks, living);
    }

    /**
     * One ant's tick followed by the crediting of a delivery: when the ant
     * delivered food this tick, the nest nearest its home position, within
     * CreditRadius, stores one unit.
     */
    method AntStep(a: Creature, predators: seq<Creature>, ants: seq<Creature>, steer: AntSteering)
      returns (delivered: bool, credited: Option<nat>)
      requires a.kind == Ant && grid.Valid()
      modifies a`x, a`y, a`vx, a`vy, a`energy, a`reproductionCooldown, a`pregnancyTimer
      modifies a`hasFood, a`fleeTimer, a`isInsideNest, a`stayInNestTimer
      modifies world`plants, grid`grid, antNests`foodStored
      ensures delivered ==> old(a.isAlive && !a.isInsideNest && a.hasFood) && a.isInsideNest
      ensures delivered <==> old(a.isAlive && !a.isInsideNest && a.hasFood) && AtNest(a)
      ensures credited == if delivered then CreditedNest(a.nestX, a.nestY) else None
      ensures credited.Some? ==>
        credited.value < |antNests| &&
        antNests[credited.value].foodStored == old(antNests[credited.value].foodStored) + 1
      ensures forall n :: n in antNests && (credited.None? || n != antNests[credited.value]) ==>
        n.foodStored == old(n.foodStored)
    {
      var picked;
      delivered, picked := AntUpdate(a, world, grid, predators, ants, steer);
      credited := None;
      if delivered {
        credited := FindNearestNest(a.nestX, a.nestY, CreditRadius);
        if credited.Some? {
          antNests[credited.value].StoreFood(1);
        }
      }
    }

    /**
     * The crediting as main.js:626-638 writes it: the nest is credited when
     * the ant carried food before its tick and carries none after it. An
     * ant that delivers and then picks up a plant in the same tick carries
     * food again, and its delivery goes uncredited.
     */
    method AntStepAsWritten(a: Creature, predators: seq<Creature>, ants: seq<Creature>, steer: AntSteering)
      returns (delivered: bool, picked: Option<nat>, credited: Option<nat>)
      requires a.kind == Ant && grid.Valid()
      modifies a`x, a`y, a`vx, a`vy, a`energy, a`reproductionCooldown, a`pregnancyTimer
      modifies a`hasFood, a`fleeTimer, a`isInsideNest, a`stayInNestTimer
      modifies world`plants, grid`grid, antNests`foodStored
      ensures credited == if old(a.hasFood) && !a.hasFood then CreditedNest(a.nestX, a.nestY) else None
      ensures old(a.hasFood) && !a.hasFood <==> delivered && picked.None?
      ensures delivered && picked.Some? ==> credited.None?
      ensures (old(a.isAlive && !a.isInsideNest && a.hasFood) && AtNest(a) && a.fleeTimer == 0 &&
               PlantInReach(old(world.plants), a.x, a.y, a.size).Some?) ==>
        delivered && picked.Some? && credited.None?
      ensures credited.Some? ==>
        credited.value < |antNests| &&
        antNests[credited.value].foodStored == old(antNests[credited.value].foodStored) + 1
      ensures forall n :: n in antNests && (credited.None? || n != antNests[credited.value]) ==>
        n.foodStored == old(n.foodStored)
    {
      var hadFood := a.hasFood;
      delivered, picked := AntUpdate(a, world, grid, predators, ants, steer);
      credited := None;
      if hadFood && !a.hasFood {
        credited := FindNearestNest(a.nestX, a.nestY, CreditRadius);
        if credited.Some? {
          antNests[credited.value].StoreFood(1);
        }
      }
    }

    /**
     * One creature's tick, dispatched on its species with the lists the
     * loop hands each one: an ant flees anteaters and birds, a bird sees
     * predators and ants, an anteater hunts ants and a snake hunts birds.
     * A dead creature is skipped. With `creditAsWritten` an ant's delivery
     * is credited as the main loop does it (AntStepAsWritten); otherwise
     * by the corrected rule (AntStep).
     */
    method StepCreature(c: Creature, ants: seq<Creature>, birds: seq<Creature>, predators: seq<Creature>, d: StepDraws,
                        creditAsWritten: bool)
      requires grid.Valid() && ValidBirdDraws(d.bird) && InBounds(c.gene)
      requires forall k :: 0 <= k < |ants| ==> ants[k].kind == Ant
      requires forall k :: 0 <= k < |birds| ==> birds[k].kind == Bird
      modifies c, world`plants, grid`grid, antNests`foodStored, ants`isAlive, birds`isAlive
      modifies (if c.strikeTarget == null then {} else {c.strikeTarget})`isAlive
      ensures c.strikeTarget == old(c.strikeTarget) || c.strikeTarget in birds
      ensures forall n :: n in antNests ==> n.foodStored >= old(n.foodStored)
    {
      if !c.isAlive {
        return;
      }
      match c.kind
      case Ant =>
        if creditAsWritten {
          var delivered, picked, credited := AntStepAsWritten(c, predators + birds, ants, d.ant);
        } else {
          var delivered, credited := AntStep(c, predators + birds, ants, d.ant);
        }
      case Bird =>
        var rested, meal := BirdUpdate(c, world, predators, ants, d.bird);
      case Anteater =>
        var caught := AnteaterUpdate(c, ants, d.anteater);
      case Snake =>
        var o, caught := SnakeUpdate(c, birds, d.snake);
      case Unknown =>
    }

    /**
     * Tick every creature in list order. Nests only gain food in this pass,
     * and every snake's target stays among the creatures or the targets
     * held before the pass. `creditAsWritten` picks the ant crediting
     * rule, as in StepCreature.
     */
    method UpdateCreatures(ants: seq<Creature>, birds: seq<Creature>, predators: seq<Creature>, steps: seq<StepDraws>,
                           creditAsWritten: bool)
      requires Valid()
      requires |steps| >= |creatures| && forall k :: 0 <= k < |steps| ==> ValidBirdDraws(steps[k].bird)
      requires forall k :: 0 <= k < |ants| ==> ants[k] in creatures && ants[k].kind == Ant
      requires forall k :: 0 <= k < |birds| ==> birds[k] in creatures && birds[k].kind == Bird
      modifies creatures, world`plants, grid`grid, antNests`foodStored, Targets(creatures)
      ensures Valid()
      ensures forall n :: n in antNests ==> n.foodStored >= old(n.foodStored)
    {
      ghost var held := Targets(creatures);
      var i := 0;
      while i < |creatures|
        invariant 0 <= i <= |creatures|
        invariant Valid()
        invariant forall n :: n in antNests ==> n.foodStored >= old(n.foodStored)
        invariant forall c :: c in creatures && c.strikeTarget != null ==> c.strikeTarget in held || c.strikeTarget in creatures
      {
        var c := creatures[i];
        StepCreature(c, ants, birds, predators, steps[i], creditAsWritten);
        i := i + 1;
      }
    }

    /**
     * One nest's tick: it sees all ants (dead ones included) as they stand,
     * and a spawned ant joins the end of the list at once.
     */
    method NestStep(n: AntNest, d: NestDraws) returns (ant: Creature?)
      requires Valid() && n in antNests
      modifies this`creatures, n`antCount, n`spawnCooldown, n`foodStored
      ensures Valid()
      ensures creatures == old(creatures) + (if ant == null then [] else [ant])
      ensures ant != null ==> fresh(ant) && ant.kind == Ant && ant.isAlive
    {
      var nestAnts := Gather({Ant}, false);
      ant := n.Update(nestAnts, d.dir, d.heading);
      if ant != null {
        assert InBounds(CreateDefaultGene(Ant));
        creatures := creatures + [ant];
      }
    }

    /** Tick every nest in list order; each spawned ant joins the list before the next nest's tick. */
    method UpdateNests(draws: seq<NestDraws>)
      requires Valid() && |draws| >= |antNests|
      modifies this`creatures, antNests
      ensures Valid()
      ensures |old(creatures)| <= |creatures| <= |old(creatures)| + |antNests|
      ensures creatures[..|old(creatures)|] == old(creatures)
      ensures forall k :: |old(creatures)| <= k < |creatures| ==>
        fresh(creatures[k]) && creatures[k].kind == Ant && creatures[k].isAlive
    {
      var i := 0;
      while i < |antNests|
        invariant 0 <= i <= |antNests|
        invariant Valid()
        invariant |old(creatures)| <= |creatures| <= |old(creatures)| + i
        invariant creatures[..|old(creatures)|] == old(creatures)
        invariant forall k :: |old(creatures)| <= k < |creatures| ==>
          fresh(creatures[k]) && creatures[k].kind == Ant && creatures[k].isAlive
      {
        ghost var before := creatures;
        var ant := NestStep(antNests[i], draws[i]);
        assert creatures[..|before|] == before;
        i := i + 1;
      }
    }

    /**
     * The reproduction pass: every creature, dead or alive, takes its
     * birth step, and the newborns join the end of the list together.
     */
    method HandleReproduction(births: seq<BirthDraws>) returns (newborns: seq<Creature>)
      requires Valid()
      requires |births| >= |creatures| && forall k :: 0 <= k < |births| ==> ValidBirthDraws(births[k])
      modifies this`creatures, creatures
      ensures Valid()
      ensures creatures == old(creatures) + newborns
      ensures |newborns| == old(BirthsDue(creatures)) && |newborns| <= |old(creatures)|
      ensures forall k :: 0 <= k < |newborns| ==> fresh(newborns[k]) && newborns[k].isAlive
    {
      newborns := Births(creatures, births);
      DistinctConcat(creatures, newborns);
      creatures := creatures + newborns;
    }

    /** Drop every dead creature, keeping the order of the living. */
    method Purge()
      requires Valid()
      modifies this`creatures
      ensures Valid()
      ensures creatures == Select(old(creatures), AllSpecies, true)
      ensures forall c :: c in creatures <==> c in old(creatures) && c.isAlive
    {
      creatures := Gather(AllSpecies, true);
      SelectDistinct(old(creatures), AllSpecies, true);
      forall c | c in old(creatures) {
        EverySpeciesListed(c.kind);
      }
    }

    /** Set the generation counter to the largest generation among the creatures. */
    method UpdateGeneration()
      modifies this`generation
      ensures generation == MaxGeneration(creatures)
    {
      var maxGen := 0;
      var i := 0;
      while i < |creatures|
        invariant 0 <= i <= |creatures|
        invariant maxGen == MaxGeneration(creatures[..i])
      {
        assert creatures[..i + 1][..i] == creatures[..i];
        if creatures[i].generation > maxGen {
          maxGen := creatures[i].generation;
        }
        i := i + 1;
      }
      assert creatures[..i] == creatures;
      generation := maxGen;
    }

    /**
     * The first half of a tick: plants regrow, pheromone evaporates, and
     * every creature takes its turn. Nests only gain food. `creditAsWritten`
     * picks the ant crediting rule, as in StepCreature.
     */
    method CreaturePass(plantDraw: real, plantSpot: (real, real), steps: seq<StepDraws>, creditAsWritten: bool)
      requires Valid()
      requires |steps| >= |creatures| && forall k :: 0 <= k < |steps| ==> ValidBirdDraws(steps[k].bird)
      modifies world`plants, grid`grid, creatures, antNests`foodStored, Targets(creatures)
      ensures Valid()
      ensures forall n :: n in antNests ==> n.foodStored >= old(n.foodStored)
    {
      world.Update(plantDraw, plantSpot);
      grid.Evaporate(grid.evaporationRate);
      TakeTurns(steps, creditAsWritten);
    }

    /**
     * The living ants, birds and predators are listed, and then every
     * creature takes its turn. Nests only gain food.
     */
    method TakeTurns(steps: seq<StepDraws>, creditAsWritten: bool)
      requires Valid()
      requires |steps| >= |creatures| && forall k :: 0 <= k < |steps| ==> ValidBirdDraws(steps[k].bird)
      modifies world`plants, grid`grid, creatures, antNests`foodStored, Targets(creatures)
      ensures Valid()
      ensures forall n :: n in antNests ==> n.foodStored >= old(n.foodStored)
    {
      var ants := Gather({Ant}, true);
      var birds := Gather({Bird}, true);
      var predators := Gather({Anteater, Snake}, true);
      assert forall k :: 0 <= k < |ants| ==> ants[k] in ants;
      assert forall k :: 0 <= k < |birds| ==> birds[k] in birds;
      UpdateCreatures(ants, birds, predators, steps, creditAsWritten);
    }

    /**
     * The second half of a tick: births, then the purge of the dead, then
     * the generation counter. Afterwards every listed creature is alive and
     * the counter is the largest generation; the nests are untouched.
     */
    method Settle(births: seq<BirthDraws>)
      requires Valid()
      requires |births| >= |creatures| && forall k :: 0 <= k < |births| ==> ValidBirthDraws(births[k])
      modifies this`creatures, this`generation, creatures
      ensures Valid()
      ensures forall c :: c in creatures ==> c.isAlive
      ensures generation == MaxGeneration(creatures)
      ensures generation >= 0 && forall c :: c in creatures ==> c.generation <= generation
    {
      var newborns := HandleReproduction(births);
      Purge();
      UpdateGeneration();
      MaxGenerationIsMax(creatures);
    }

    /**
     * One tick: the creature pass, every nest, then births, the purge and
     * the generation counter. Afterwards every listed creature is alive,
     * the nest list is the same, and the counter is the largest generation.
     * With `creditAsWritten` the tick is the main loop as written; without
     * it, ant deliveries are credited by the corrected rule.
     */
    method Update(plantDraw: real, plantSpot: (real, real), steps: seq<StepDraws>,
                  nestDraws: seq<NestDraws>, births: seq<BirthDraws>, creditAsWritten: bool)
      requires Valid()
      requires |steps| >= |creatures| && forall k :: 0 <= k < |steps| ==> ValidBirdDraws(steps[k].bird)
      requires |nestDraws| >= |antNests|
      requires |births| >= |creatures| + |antNests| && forall k :: 0 <= k < |births| ==> ValidBirthDraws(births[k])
      modifies this, world`plants, grid`grid, creatures, antNests, Targets(creatures)
      ensures Valid()
      ensures antNests == old(antNests)
      ensures forall c :: c in creatures ==> c.isAlive
      ensures generation == MaxGeneration(creatures)
      ensures generation >= 0 && forall c :: c in creatures ==> c.generation <= generation
    {
      ghost var nests := antNests;
      CreaturePass(plantDraw, plantSpot, steps, creditAsWritten);
      assert antNests == nests;
      UpdateNests(nestDraws);
      Settle(births);
    }
  }
}

=== FILE: spatial.dfy ===
/**
 * Distance tests and the running-minimum "nearest under a radius" query that
 * every spatial lookup of the simulation shares (creature, plant and nest
 * lookups). Distances are compared squared: `Math.sqrt(d2) < r` is
 * `Within(d2, r)` and `Math.sqrt(d2) <= r` is `WithinOrOn(d2, r)`.
 */
module Spatial {
  import opened Config

  /** Squared Euclidean distance between two points. */
  function Dist2(x1: real, y1: real, x2: real, y2: real): (d: real)
    ensures d >= 0.0
  {
    (x1 - x2) * (x1 - x2) + (y1 - y2) * (y1 - y2)
  }

  /** A coordinate after one step of length `step` along velocity component `v`. */
  function Advance(p: real, v: real, step: real): real
  {
    p + v * step
  }

  /** The length of one step at base `speed` scaled by `multiplier`. */
  function Stride(speed: real, multiplier: real): real
  {
    speed * multiplier
  }

  /** `Math.sqrt(d2) < r`, for a squared distance `d2`. */
  predicate Within(d2: real, r: real) {
    0.0 <= r && d2 < r * r
  }

  /** `Math.sqrt(d2) <= r`, for a squared distance `d2`. */
  predicate WithinOrOn(d2: real, r: real) {
    0.0 <= r && d2 <= r * r
  }

  /** The squared tests agree with the distance tests they stand for. */
  lemma SquaredComparison(d: real, r: real)
    requires d >= 0.0
    ensures Within(d * d, r) <==> d < r
    ensures WithinOrOn(d * d, r) <==> d <= r
  {
    if 0.0 <= r {
      if d < r {
        assert d * d <= d * r < r * r;
      } else {
        assert r * r <= r * d <= d * d;
      }
    }
  }

  /**
   * The index a running-minimum scan returns: it starts with the bound `r`,
   * takes candidate `j` (one with `ok[j]`) when it is strictly closer than the
   * best so far, and so keeps the first of several equally near candidates.
   */
  function NearestIndex(d2: seq<real>, ok: seq<bool>, r: real): (k: Option<nat>)
    requires |d2| == |ok|
    ensures k.Some? ==> k.value < |d2| && ok[k.value] && Within(d2[k.value], r)
    decreases |d2|
  {
    if |d2| == 0 then None
    else
      var n := |d2| - 1;
      var b := NearestIndex(d2[..n], ok[..n], r);
      if ok[n] && (if b.None? then Within(d2[n], r) else d2[n] < d2[b.value]) then Some(n) else b
  }

  /**
   * What the scan answers: a candidate no farther than any other, strictly
   * nearer than every earlier one, and nothing exactly when no candidate is
   * within the bound.
   */
  lemma {:induction false} NearestIndexIsNearest(d2: seq<real>, ok: seq<bool>, r: real)
    requires |d2| == |ok|
    ensures var k := NearestIndex(d2, ok, r);
      k.Some? ==> forall j :: 0 <= j < |d2| && ok[j] ==> d2[k.value] <= d2[j]
    ensures var k := NearestIndex(d2, ok, r);
      k.Some? ==> forall j :: 0 <= j < k.value && ok[j] ==> d2[k.value] < d2[j]
    ensures NearestIndex(d2, ok, r).None? <==> forall j :: 0 <= j < |d2| && ok[j] ==> !Within(d2[j], r)
    decreases |d2|
  {
    if |d2| > 0 {
      var n := |d2| - 1;
      NearestIndexIsNearest(d2[..n], ok[..n], r);
      var b := NearestIndex(d2[..n], ok[..n], r);
      assert forall j :: 0 <= j < n ==> d2[..n][j] == d2[j] && ok[..n][j] == ok[j];
    }
  }

  /** One step of the scan: the answer for a prefix one longer. */
  lemma NearestIndexStep(d2: seq<real>, ok: seq<bool>, r: real, i: nat)
    requires |d2| == |ok| && i < |d2|
    ensures NearestIndex(d2[..i + 1], ok[..i + 1], r) ==
      var b := NearestIndex(d2[..i], ok[..i], r);
      if ok[i] && (if b.None? then Within(d2[i], r) else d2[i] < d2[b.value]) then Some(i) else b
  {
    assert d2[..i + 1][..i] == d2[..i];
    assert ok[..i + 1][..i] == ok[..i];
  }

  /** Two answers meeting the contract of NearestIndex are the same answer. */
  lemma NearestIndexUnique(d2: seq<real>, ok: seq<bool>, r: real, k: nat)
    requires |d2| == |ok| && k < |d2| && ok[k] && Within(d2[k], r)
    requires forall j :: 0 <= j < |d2| && ok[j] ==> d2[k] <= d2[j]
    requires forall j :: 0 <= j < k && ok[j] ==> d2[k] < d2[j]
    ensures NearestIndex(d2, ok, r) == Some(k)
  {
    NearestIndexIsNearest(d2, ok, r);
  }

  /**
   * The indices whose flag is set, in increasing order: what a `filter` over
   * the same list keeps, and in which order.
   */
  function Selected(ok: seq<bool>): (ix: seq<nat>)
    ensures |ix| <= |ok|
    ensures forall k :: 0 <= k < |ix| ==> ix[k] < |ok| && ok[ix[k]]
    ensures forall k, l :: 0 <= k < l < |ix| ==> ix[k] < ix[l]
    ensures forall j :: 0 <= j < |ok| && ok[j] ==> j in ix
  {
    if |ok| == 0 then []
    else
      var n := |ok| - 1;
      var p := Selected(ok[..n]);
      if ok[n] then p + [n] else p
  }

  /** One step of a filtering scan: the selection for a prefix one longer. */
  lemma SelectedStep(ok: seq<bool>, i: nat)
    requires i < |ok|
    ensures Selected(ok[..i + 1]) == if ok[i] then Selected(ok[..i]) + [i] else Selected(ok[..i])
  {
    assert ok[..i + 1][..i] == ok[..i];
  }

  /** How many flags are set: the length of a `filter` over the same list. */
  function CountTrue(ok: seq<bool>): (n: nat)
    ensures n <= |ok|
  {
    if |ok| == 0 then 0 else CountTrue(ok[..|ok| - 1]) + (if ok[|ok| - 1] then 1 else 0)
  }

  /** The count is the number of indices the filter selects. */
  lemma {:induction false} CountTrueSelected(ok: seq<bool>)
    ensures CountTrue(ok) == |Selected(ok)|
  {
    if |ok| > 0 {
      CountTrueSelected(ok[..|ok| - 1]);
    }
  }

  /** The first index whose flag is set, if any: the answer of a scan that stops at its first hit. */
  function FirstTrue(bs: seq<bool>): (k: Option<nat>)
    ensures k.Some? ==> k.value < |bs| && bs[k.value] && forall j :: 0 <= j < k.value ==> !bs[j]
    ensures k.None? <==> forall j :: 0 <= j < |bs| ==> !bs[j]
  {
    if |bs| == 0 then None
    else if bs[0] then Some(0)
    else
      var k := FirstTrue(bs[1..]);
      if k.None? then None else Some(k.value + 1)
  }
}

=== FILE: world.dfy ===
/**
 * The world: its food plants and its bounds. Plants never change once
 * created; the world appends them up to a cap and removes eaten ones.
 */
module Worlds {
  import opened Config
  import opened Spatial

  /** A food plant. Its identity matters: removal looks it up by reference. */
  class Plant {
    const x: real
    const y: real
    const energy: real
    const size: real

    constructor(x0: real, y0: real)
      ensures x == x0 && y == y0 && energy == FoodEnergy && size == 4.0
    {
      x, y := x0, y0;
      energy := FoodEnergy;
      size := 4.0;
    }
  }

  /** Squared distances from (px, py) to each plant, in list order. */
  function PlantDist2s(ps: seq<Plant>, px: real, py: real): (d: seq<real>)
    ensures |d| == |ps|
    ensures forall i :: 0 <= i < |ps| ==> d[i] == Dist2(ps[i].x, ps[i].y, px, py)
  {
    seq(|ps|, i requires 0 <= i < |ps| => Dist2(ps[i].x, ps[i].y, px, py))
  }

  /** `n` flags, all set: a scan that considers every element. */
  function AllTrue(n: nat): (ok: seq<bool>)
    ensures |ok| == n && forall i :: 0 <= i < n ==> ok[i]
  {
    seq(n, _ => true)
  }

  /** Which plants lie within `radius` of (px, py), the boundary included. */
  function WithinFlags(d2s: seq<real>, radius: real): (ok: seq<bool>)
    ensures |ok| == |d2s|
    ensures forall i :: 0 <= i < |d2s| ==> ok[i] == WithinOrOn(d2s[i], radius)
  {
    seq(|d2s|, i requires 0 <= i < |d2s| => WithinOrOn(d2s[i], radius))
  }

  /** The list with the first occurrence of `v` removed (the list itself when `v` is absent). */
  function RemoveFirst<T(==)>(s: seq<T>, v: T): seq<T>
  {
    if |s| == 0 then []
    else if s[0] == v then s[1..]
    else [s[0]] + RemoveFirst(s[1..], v)
  }

  /** Removing an absent element changes nothing. */
  lemma {:induction false} RemoveFirstAbsent<T>(s: seq<T>, v: T)
    requires v !in s
    ensures RemoveFirst(s, v) == s
  {
    if |s| > 0 {
      RemoveFirstAbsent(s[1..], v);
    }
  }

  /** Removing a present element cuts out exactly its first occurrence, at index `i`. */
  lemma {:induction false} RemoveFirstAt<T>(s: seq<T>, v: T, i: nat)
    requires i < |s| && s[i] == v && v !in s[..i]
    ensures RemoveFirst(s, v) == s[..i] + s[i + 1..]
  {
    if i > 0 {
      assert s[0] in s[..i];
      assert s[1..][..i - 1] == s[1..i];
      RemoveFirstAt(s[1..], v, i - 1);
    }
  }

  /** Removing a present element drops exactly one copy of it and keeps every other element. */
  lemma {:induction false} RemoveFirstOneCopy<T>(s: seq<T>, v: T)
    requires v in s
    ensures |RemoveFirst(s, v)| == |s| - 1
    ensures multiset(RemoveFirst(s, v)) == multiset(s) - multiset{v}
  {
    if s[0] != v {
      RemoveFirstOneCopy(s[1..], v);
      assert s == [s[0]] + s[1..];
    } else {
      assert s == [s[0]] + s[1..];
    }
  }

  /** The index of the first occurrence of `v`, or -1 (Array.prototype.indexOf). */
  function IndexOf<T(==)>(s: seq<T>, v: T): (i: int)
    ensures -1 <= i < |s|
    ensures i == -1 <==> v !in s
    ensures i >= 0 ==> s[i] == v && v !in s[..i]
  {
    if |s| == 0 then -1
    else if s[0] == v then 0
    else
      var j := IndexOf(s[1..], v);
      assert s[1..][..if j >= 0 then j else 0] == s[1..if j >= 0 then j + 1 else 1];
      if j == -1 then -1 else j + 1
  }

  class World {
    var width: real
    var height: real
    var plants: seq<Plant>
    var maxPlants: int
    const plantSpawnRate: real

    /** A world of the given size: no plants yet, the configured cap and spawn rate. */
    constructor(w: real, h: real)
      ensures width == w && height == h && plants == []
      ensures maxPlants == MaxFood && plantSpawnRate == FoodSpawnRate
    {
      width, height := w, h;
      plants := [];
      maxPlants := MaxFood;
      plantSpawnRate := FoodSpawnRate;
    }

    /**
     * Add one plant unless the world is at capacity. The plant goes at `at`
     * when a position is given, else at `placed`, the randomly drawn spot.
     */
    method SpawnPlant(at: Option<(real, real)>, placed: (real, real)) returns (p: Plant?)
      modifies this`plants
      ensures old(|plants|) >= maxPlants ==> p == null && plants == old(plants)
      ensures old(|plants|) < maxPlants ==> p != null && fresh(p) && plants == old(plants) + [p]
      ensures p != null ==> p.energy == FoodEnergy
      ensures p != null ==> (p.x, p.y) == if at.Some? then at.value else placed
    {
      if |plants| >= maxPlants {
        return null;
      }
      var pos := if at.Some? then at.value else placed;
      p := new Plant(pos.0, pos.1);
      plants := plants + [p];
    }

    /** Seed the world with half its capacity of randomly placed plants. */
    method Init(placed: seq<(real, real)>)
      requires maxPlants >= 0 && |placed| >= maxPlants / 2
      modifies this`plants
      ensures |plants| == maxPlants / 2
      ensures forall i :: 0 <= i < |plants| ==> (plants[i].x, plants[i].y) == placed[i]
    {
      plants := [];
      var n := maxPlants / 2;
      var i := 0;
      while i < n
        invariant 0 <= i <= n && |plants| == i
        invariant forall j :: 0 <= j < i ==> (plants[j].x, plants[j].y) == placed[j]
      {
        var p := SpawnPlant(None, placed[i]);
        i := i + 1;
      }
    }

    /**
     * One world tick: with the spawn probability, and room left, one plant
     * appears at the drawn spot. At most one plant per tick, and never past
     * the cap.
     */
    method Update(draw: real, placed: (real, real))
      modifies this`plants
      ensures draw < plantSpawnRate && old(|plants|) < maxPlants ==>
        |plants| == old(|plants|) + 1 && plants[..old(|plants|)] == old(plants)
      ensures !(draw < plantSpawnRate && old(|plants|) < maxPlants) ==> plants == old(plants)
      ensures old(|plants|) <= maxPlants ==> |plants| <= maxPlants
    {
      if draw < plantSpawnRate && |plants| < maxPlants {
        var p := SpawnPlant(None, placed);
      }
    }

    /** Remove the first occurrence of `p`; nothing happens when it is absent. */
    method RemovePlant(p: Plant)
      modifies this`plants
      ensures plants == RemoveFirst(old(plants), p)
    {
      var index := IndexOf(plants, p);
      if index > -1 {
        RemoveFirstAt(plants, p, index);
        plants := plants[..index] + plants[index + 1..];
      } else {
        RemoveFirstAbsent(plants, p);
      }
    }

    /** Indices of the plants within `radius` of (px, py), boundary included, in list order. */
    function PlantsNearIndices(px: real, py: real, radius: real): (ix: seq<nat>)
      reads this
      ensures forall k :: 0 <= k < |ix| ==> ix[k] < |plants|
      ensures forall k :: 0 <= k < |ix| ==> WithinOrOn(Dist2(plants[ix[k]].x, plants[ix[k]].y, px, py), radius)
      ensures forall k, l :: 0 <= k < l < |ix| ==> ix[k] < ix[l]
      ensures forall j :: 0 <= j < |plants| && WithinOrOn(Dist2(plants[j].x, plants[j].y, px, py), radius) ==> j in ix
    {
      Selected(WithinFlags(PlantDist2s(plants, px, py), radius))
    }

    /** The plants within `radius` of (px, py), boundary included, in list order. */
    function PlantNear(px: real, py: real, radius: real): (near: seq<Plant>)
      reads this
      ensures forall k :: 0 <= k < |near| ==> near[k] in plants && WithinOrOn(Dist2(near[k].x, near[k].y, px, py), radius)
      ensures forall j :: 0 <= j < |plants| && WithinOrOn(Dist2(plants[j].x, plants[j].y, px, py), radius) ==>
        plants[j] in near
    {
      var ix := PlantsNearIndices(px, py, radius);
      var near := seq(|ix|, k requires 0 <= k < |ix| && ix[k] < |plants| reads this => plants[ix[k]]);
      assert forall j :: 0 <= j < |plants| && WithinOrOn(Dist2(plants[j].x, plants[j].y, px, py), radius) ==>
        plants[j] in near by {
        forall j | 0 <= j < |plants| && WithinOrOn(Dist2(plants[j].x, plants[j].y, px, py), radius)
          ensures plants[j] in near
        {
          var k :| 0 <= k < |ix| && ix[k] == j;
          assert near[k] == plants[j];
        }
      }
      near
    }

    /**
     * The nearest plant strictly within `maxDistance` of (px, py): a running
     * minimum that keeps the first of equally near plants. Answers an index
     * into `plants`.
     */
    method GetNearestPlant(px: real, py: real, maxDistance: real) returns (nearest: Option<nat>)
      ensures nearest == NearestIndex(PlantDist2s(plants, px, py), AllTrue(|plants|), maxDistance)
      ensures nearest.Some? ==> nearest.value < |plants|
    {
      ghost var d2s := PlantDist2s(plants, px, py);
      ghost var oks := AllTrue(|plants|);
      nearest := None;
      var minDist2 := 0.0;
      var i := 0;
      while i < |plants|
        invariant 0 <= i <= |plants|
        invariant nearest == NearestIndex(d2s[..i], oks[..i], maxDistance)
        invariant nearest.Some? ==> minDist2 == d2s[nearest.value]
      {
        NearestIndexStep(d2s, oks, maxDistance, i);
        var d2 := Dist2(plants[i].x, plants[i].y, px, py);
        if (nearest.None? && Within(d2, maxDistance)) || (nearest.Some? && d2 < minDist2) {
          nearest := Some(i);
          minDist2 := d2;
        }
        i := i + 1;
      }
      assert d2s[..i] == d2s && oks[..i] == oks;
    }

    /** Whether (px, py) lies inside the world, `padding` in from every edge. */
    predicate IsInBounds(px: real, py: real, padding: real)
      reads this
    {
      px >= padding && px <= width - padding && py >= padding && py <= height - padding
    }

    /** The point clamped into the padded bounds, coordinate by coordinate. */
    function ClampToBounds(px: real, py: real, padding: real): (p: (real, real))
      reads this
      ensures width >= 2.0 * padding && height >= 2.0 * padding ==> IsInBounds(p.0, p.1, padding)
      ensures IsInBounds(px, py, padding) ==> p == (px, py)
    {
      (Max(padding, Min(width - padding, px)), Max(padding, Min(height - padding, py)))
    }
  }
}
